=== FILE: README.md ===
# pscale coordinate store — a Dafny model

This project models the core of the pscale coordinate store. A pscale
coordinate is a prefix, a colon and a semantic number, for example `S:0.21`
or `M:153`. The store keeps one nested digit tree per prefix. Each digit of
the number selects a child one level down, and the `_` key of a node holds
its text ("semantic"). The `decimal` of a tree says how many digits come
before the dot. Keys whose number part is not numeric (for example
`M:conv`) and keys with no colon at all are "specials": plain key-value
pairs. The model covers these parts:

- **`pscaleStoreV3` in g1/kernel.js.**
  - Coordinate parsing and rendering, and the walk down the tree.
  - `read`, `write` and `delete`.
  - `list`, `children` and `siblings`.
  - `parent`, `context` and `contextContent`.
  - `nextMemory` with its summary range.
  - Start-up migration (`init`).
- **The nested navigation library in docs/pscale-nested/pscale-nav-nested.js.**
  - Coordinate to path and back.
  - Reading dimensions (the `_`-prefixed channels of a node).
  - Moving up, down and sideways by one pscale.
  - Setting and clearing a semantic.
  - The compression trigger.
- **The block-spindle-point resolver `bsp`.**
  - There are three copies: g1/bsp-test.js, g1/bsp-test-living.js and g1/bsp-test-range.js.
  - A block is a tree with a `place`. A spindle is a semantic number. Its digits are walked from the root, and each node passed becomes an entry with a pscale, a digit and a text. A point picks one entry by pscale.
  - The copies differ only in how they make an entry's text, and `bsp_strip` drops a leading `0`. The model proves what the copies share, and that stripping is the same as walking a tree wrapped under a `0` key.

All nodes share one type: `Node = Leaf(text) | Branch(dims, kids)`. `dims`
holds the channels, under any name a dimension is given, and `kids` holds
the one-character child keys. In JavaScript the two share one object; see
"## Left out" for where that matters. Operations are pure functions from store to store. A `Store` is the
pair of `data` (prefix to `TreeEntry(decimal, tree)`) and `specials`.

Modules, one per file:

- **Lower layers.**
  - `Common` (common.dfy): options and string helpers.
  - `Decimal` (decimal.dfy): decimal numerals, `String(n)` and `parseInt`.
  - `Lex` (lex.dfy): code-unit order and sorting.
  - `Nodes` (nodes.dfy): the node type and the kernel's `getNode`.
- **The kernel store.**
  - `KernelCoord` (kernel_coord.dfy): `parseCoord` and `makeCoord`.
  - `KernelTree` (kernel_tree.dfy): the semantic read, write and delete, and `walkTree`.
  - `Store` (store.dfy): the store operations.
  - `StoreInit` (init.dfy): `init`.
  - `CoordArith` (arith.dfy): `parent` and `context`.
  - `StoreContext` (context.dfy): `contextContent`.
  - `Memory` (memory.dfy): `nextMemory` and `_getSummaryRange`.
- **The navigation library.**
  - `Nav` (nav.dfy).
- **The resolvers and their fixtures.**
  - `Bsp` (bsp.dfy).

## Model

| member | source | states |
|---|---|---|
| KernelCoord.ParseCoord | g1/kernel.js:504-513 | a coordinate without a colon is a special; a numeric result's prefix is the colon-free text before the first colon, and every one of its digits is a digit or a dot |
| KernelCoord.ParseCoordSplit | g1/kernel.js:504-513 | `prefix:suffix` is a special exactly when the suffix has a character other than a digit or a dot; otherwise its digits are the suffix with only its first dot removed, and they are all digits when the suffix had at most one dot |
| KernelCoord.ParseMakeCoord | g1/kernel.js:504-533 | parsing what `makeCoord` renders gives back the same prefix and digits, whatever the decimal |
| KernelCoord.MakeCoord | g1/kernel.js:521-533 | `makeCoord` renders a digit path with the dot after `decimal` digits; its meaning is carried by KernelCoord.ParseMakeCoord, which shows `parseCoord` gives back the prefix and digits |
| KernelCoord.DottedDigits | g1/kernel.js:511 | a numeral with one dot is numeric, and its digits are both halves joined |
| KernelCoord.PlainDigits | g1/kernel.js:511 | a dot-free numeral is numeric, and its digits are itself |
| Nodes.GetNodeConcat | g1/kernel.js:537-545 | walking `p + q` is walking `p` and then walking `q` from where `p` ended; a missing node stays missing |
| Nodes.DigitKeys | g1/kernel.js:914-924 | the digit keys of a node in ascending order: exactly the keys that are one digit, with none left out and none repeated |
| Nodes.GetNode | g1/kernel.js:537-545 | the kernel's `getNode` walk by `d in node`; its meaning is carried by Nodes.GetNodeConcat and by Bsp.EntriesShape, which checks the resolver's walk against it |
| KernelTree.WriteSemantic | g1/kernel.js:554-577 | writing keeps the tree a branch and leaves the root's own channels alone |
| KernelTree.WriteThenRead | g1/kernel.js:547-577 | after a write at a non-empty path, reading that path gives the written content |
| KernelTree.WriteFrame | g1/kernel.js:547-577 | a write changes what no other path reads, including the ancestors it creates and the leaf text it turns into a branch |
| KernelTree.WriteKeepsNodes | g1/kernel.js:554-577 | every node that existed before a write still exists after it |
| KernelTree.ReadSemantic | g1/kernel.js:547-552 | `readSemantic`: a leaf's string or a branch's `_`; its meaning is carried by KernelTree.WriteThenRead, KernelTree.WriteFrame and KernelTree.DeleteClears |
| KernelTree.DeleteClears | g1/kernel.js:579-601 | after a delete, reading the deleted path gives nothing |
| KernelTree.DeleteMissing | g1/kernel.js:579-601 | deleting a path that reaches no node leaves the tree unchanged |
| KernelTree.DeleteKeepsChildren | g1/kernel.js:596-600 | a deleted node that has digit children keeps them and only loses its `_` text |
| KernelTree.DeleteRemovesChildless | g1/kernel.js:596-600 | a deleted leaf, or a deleted branch without digit children, is removed from its parent |
| KernelTree.DeleteKeepsAncestors | g1/kernel.js:579-601 | a delete never removes a node above the deleted path |
| KernelTree.DeleteFrame | g1/kernel.js:579-601 | a delete does not change what any other all-digit path reads |
| KernelTree.DeleteSemantic | g1/kernel.js:579-601 | `deleteSemantic`; its meaning is carried by KernelTree.DeleteClears, DeleteMissing, DeleteKeepsChildren, DeleteRemovesChildless, DeleteKeepsAncestors and DeleteFrame |
| KernelTree.WalkSound | g1/kernel.js:605-622 | every coordinate `walkTree` reports is rendered from a digit path below the start that holds text |
| KernelTree.WalkComplete | g1/kernel.js:605-622 | every digit path holding text below the start is reported by `walkTree` |
| KernelTree.Walk | g1/kernel.js:605-622 | `walkTree`; its meaning is carried by KernelTree.WalkSound and KernelTree.WalkComplete: exactly the text-holding digit paths below the start are reported |
| Store.Read | g1/kernel.js:760-766 | a special reads its stored value exactly when it has one; a numeric coordinate whose prefix has no tree reads nothing |
| Store.Write | g1/kernel.js:768-779 | writing a special leaves the trees alone; writing a numeric coordinate leaves the specials alone and creates at most its own prefix's tree; the store's invariant is kept |
| Store.Delete | g1/kernel.js:781-792 | deleting a special removes it and leaves the trees; deleting a numeric coordinate leaves the specials; no prefix is added or removed |
| Store.ReadAfterWrite | g1/kernel.js:760-779 | reading a coordinate just written gives the written content |
| Store.WriteFrame | g1/kernel.js:760-779 | a write changes no read of a coordinate that does not address the same slot |
| Store.ReadAfterDelete | g1/kernel.js:760-792 | reading a coordinate just deleted gives nothing |
| Store.DeleteFrame | g1/kernel.js:760-792 | a delete changes no read of another slot that has an all-digit path |
| Store.KidDigits | g1/kernel.js:914-939 | the digits below a path, optionally skipping one, in ascending order: exactly those whose child exists |
| Store.Children | g1/kernel.js:914-924 | a special has no children |
| Store.ChildrenAscending | g1/kernel.js:914-924 | children are listed in strictly ascending order of their last digit, so none twice |
| Store.ChildrenSound | g1/kernel.js:914-924 | each child listed is the coordinate one digit below, for a digit whose node exists |
| Store.ChildrenComplete | g1/kernel.js:914-924 | every existing digit child of a coordinate is listed |
| Store.Siblings | g1/kernel.js:927-939 | a special has no siblings |
| Store.SiblingsAscending | g1/kernel.js:927-939 | siblings are listed in strictly ascending order of their last digit, so none twice |
| Store.SiblingsSound | g1/kernel.js:927-939 | each sibling listed shares the parent path, ends in a different digit, and its node exists |
| Store.SiblingsComplete | g1/kernel.js:927-939 | every existing node under the same parent with another last digit is listed |
| Store.List | g1/kernel.js:794-846 | `list` is strictly sorted, without duplicates, and holds exactly the listed set |
| Store.TreeCoordShape | g1/kernel.js:794-846 | every tree coordinate listed is rendered from a digit path of that prefix's tree that holds text |
| Store.ListedReads | g1/kernel.js:760-846 | everything `list` returns can be read |
| Store.ListComplete | g1/kernel.js:794-846 | every digit path holding text in any tree is listed by `list("")` |
| Store.BarePrefix | g1/kernel.js:806-815 | for a prefix without a colon, a coordinate matches exactly when its tree prefix starts with it |
| Store.ColonPrefix | g1/kernel.js:816-841 | for a prefix with a colon, a coordinate matches exactly when its tree prefix equals the part before the colon and its numeral starts with the part after it |
| Store.ListIsFilter | g1/kernel.js:794-846 | `list(prefix)` holds exactly the entries of `list("")` that start with `prefix` |
| StoreInit.G0Entries | g1/kernel.js:737-748 | the G0 items are exactly the local items under `ps:`, with the tag dropped |
| StoreInit.WithoutG0 | g1/kernel.js:737-754 | removing the `ps:` items keeps every other local item and nothing else, so no G0 item is left |
| StoreInit.G0EntriesConcat | g1/kernel.js:737-748 | the G0 items are collected in local-storage order: those of a first run come before those of a second |
| StoreInit.WithoutG0Concat | g1/kernel.js:737-754 | the items left after the removal keep their local-storage order |
| StoreInit.Import | g1/kernel.js:684-691 | importing keeps the store's invariant and never drops a tree prefix |
| StoreInit.Init | g1/kernel.js:654-758 | a saved nested form is loaded as saved (default trees for missing trees, no specials for missing specials) and storage is left alone; otherwise the first non-empty stage in the order v2, v1, G0 is imported into a fresh store, which keeps the invariant, and saved (the G0 stage also removes its items); with nothing to migrate the store is fresh and storage unchanged |
| StoreInit.Migration | g1/kernel.js:677-757 | the entries `init` imports: v2 when it has entries, else v1 when it has entries, else the `ps:` items of the old local storage; its meaning is carried by StoreInit.Init, InitReadsBack and InitUnaddressed |
| StoreInit.InitReadsBack | g1/kernel.js:678-757 | after a migration, each place reads the content of the last entry of the chosen stage that addresses it |
| StoreInit.InitUnaddressed | g1/kernel.js:678-757 | after a migration, a place no entry of the chosen stage addresses reads nothing |
| StoreInit.InitIdempotent | g1/kernel.js:654-758 | starting again from the storage a start-up leaves gives the same store and storage |
| StoreInit.ImportFrame | g1/kernel.js:678-757 | migrated entries change no read of a slot that none of them address |
| StoreInit.ImportLastWins | g1/kernel.js:678-757 | after migration, a slot reads the content of the last entry that addresses it |
| StoreInit.ImportSplit | g1/kernel.js:678-757 | importing two runs of entries is the same as importing the first and then the second |
| CoordArith.Parent | g1/kernel.js:626-651 | a coordinate without a colon has no parent |
| CoordArith.ParentIn | g1/kernel.js:626-651 | a parent keeps the coordinate's prefix |
| CoordArith.Context | g1/kernel.js:875-901 | a coordinate without a colon is its own only layer; the layers of the other coordinates, and their order, are stated by CoordArith.ContextDistinct, CoordArith.DottedContext and CoordArith.ContextIntegerOrder |
| CoordArith.ContextDistinct | g1/kernel.js:875-901 | no context lists a layer twice: the dotted layers grow by one digit each, and the integer ones are de-duplicated |
| CoordArith.DottedLayers | g1/kernel.js:882-888 | the layers of a dotted coordinate: one for each fractional digit, each adding one more digit |
| CoordArith.DottedParent | g1/kernel.js:632-637 | the parent of a dotted coordinate drops its last fractional digit, and the dot too when one digit was left |
| CoordArith.DottedContext | g1/kernel.js:875-888 | the context of a dotted coordinate is its sequence of fractional layers |
| CoordArith.ParentOfChild | g1/kernel.js:531-533 | the parent of a child coordinate with at least one digit before its dot is the coordinate it came from (626-651) |
| CoordArith.DottedLayer | g1/kernel.js:882-888 | layer `j` of a dotted coordinate keeps its first `j + 1` fractional digits |
| CoordArith.ParentOfCut | g1/kernel.js:632-637 | cutting a fractional tail and taking the parent cuts one more digit |
| CoordArith.ContextDottedChain | g1/kernel.js:626-651 | each dotted layer after the first has the layer before it as its parent (875-888) |
| CoordArith.ContextDottedEnds | g1/kernel.js:875-888 | the last layer of a dotted coordinate is the coordinate itself |
| CoordArith.ContextIntegerLayers | g1/kernel.js:889-899 | the layers of an integer coordinate are exactly its positive round-downs at each digit position |
| CoordArith.ContextIntegerLayer | g1/kernel.js:889-899 | every positive round-down of an integer coordinate is one of its layers |
| CoordArith.ContextIntegerSelf | g1/kernel.js:889-899 | an integer coordinate is a layer of its own context, and the last one |
| CoordArith.ContextIntegerOrder | g1/kernel.js:889-899 | the layers of a positive integer coordinate `head:num` run from general to specific: each is `head:` followed by the numeral of a number, those numbers strictly increase along the list, and the last layer is the coordinate itself |
| CoordArith.ContextIntegerLast | g1/kernel.js:889-899 | the last layer of a positive integer coordinate is the coordinate itself |
| CoordArith.ContextIntegerForm | g1/kernel.js:889-899 | every layer of a positive integer coordinate `head:num` is `head:` followed by the numeral of the number it names |
| CoordArith.ContextIntegerIncreasing | g1/kernel.js:889-899 | the numbers the layers of a positive integer coordinate name strictly increase, broadest first |
| CoordArith.ContextIntegerIs | g1/kernel.js:889-899 | the context of a positive integer coordinate is its round-downs from the broadest digit position to the number itself, the first copy of each kept |
| CoordArith.IntContextForm | g1/kernel.js:893-899 | the de-duplicated integer layers are each the prefix followed by the numeral of the number they name |
| CoordArith.IntContextIncreasing | g1/kernel.js:893-899 | the numbers the de-duplicated integer layers name strictly increase |
| CoordArith.IntContextLast | g1/kernel.js:893-899 | the de-duplicated integer layers end with the number itself |
| CoordArith.IntLayersSorted | g1/kernel.js:893-898 | the round-downs are pushed broadest first, so the numbers they name never decrease |
| CoordArith.IntLayersLast | g1/kernel.js:893-898 | the last round-down pushed is the number itself |
| CoordArith.LayerValueOf | g1/kernel.js:897 | the layer `prefix + rounded` reads back as `rounded` |
| CoordArith.ContextExample | g1/test-pscale-v3.js:185-189 | `context('M:5432')` is `M:5000`, `M:5400`, `M:5430`, `M:5432`, in that order |
| CoordArith.IntCoordParent | g1/kernel.js:638-649 | the parent of an integer coordinate is computed by the integer rule, from its canonical numeral |
| CoordArith.NumeralParentPadded | g1/kernel.js:638-649 | appending zeros does not move the last non-zero digit the parent search stops at, so the parent is the numeral cut there and zero-padded |
| CoordArith.NumeralParent | g1/kernel.js:638-649 | the integer rule of `parent` on a numeral; its meaning is carried by CoordArith.NumeralParentPadded and CoordArith.IntegerParent |
| CoordArith.IntegerParent | g1/kernel.js:638-649 | the parent of `num` rounded down by `j` digits is `num` rounded down by `k` digits, where `k` is the first position above `j` at which rounding changes the number: every round-down from `j` up to `k` is the same, and the one at `k` is strictly smaller. There is no parent when only the leading digit is left |
| CoordArith.ContextIntegerClosed | g1/kernel.js:626-651 | the parent of an integer layer is again a layer of the same context (875-899) |
| StoreContext.ContextContent | g1/kernel.js:903-911 | every key is a layer of the coordinate's context, and its content is not empty |
| StoreContext.ContextContentIntegerKeys | g1/kernel.js:903-911 | for an integer coordinate, every key is a positive round-down of it |
| StoreContext.ContextContentAfterWrite | g1/kernel.js:903-911 | after non-empty content is written at an integer coordinate, its own context content maps it to that content |
| Memory.NextAfter | g1/kernel.js:848-853 | the next number is 1 when there are no memories; otherwise it is one more than a listed number and above all of them |
| Memory.SummaryRange | g1/kernel.js:861-873 | the nine coordinates of the level below a summary number, evenly spaced by a tenth of its magnitude |
| Memory.RangeFromCount | g1/kernel.js:866-871 | a loop stepping `count` times from `from` visits `from + k * step` for each `k` |
| Memory.NextStepFresh | g1/kernel.js:848-859 | the proposed coordinate is not among the listed memories |
| Memory.NextMemoryFresh | g1/kernel.js:848-859 | `nextMemory` never proposes a memory coordinate the store already lists |
| Memory.SummaryNumberIff | g1/kernel.js:853-856 | the zeros test on the numeral holds exactly for numbers of two or more digits that equal their leading digit followed by zeros |
| Memory.StepForKind | g1/kernel.js:853-858 | the step names its coordinate, is a summary exactly for a leading digit followed by zeros, and then covers that number's summary range |
| Memory.NextMemoryKind | g1/kernel.js:848-859 | `nextMemory` proposes the number after the largest memory, as a summary of the level below exactly when that number is a leading digit followed by zeros |
| Memory.NextMemory | g1/kernel.js:848-859 | `nextMemory`; its meaning is carried by Memory.NextAfter, Memory.NextMemoryKind and Memory.NextMemoryFresh |
| Decimal.NatToString | g1/kernel.js:640 | `String(n)` is a non-empty run of digits without a leading zero, except for 0 itself |
| Decimal.ValueOfNatToString | g1/kernel.js:640 | reading a numeral back gives the number |
| Decimal.NatToStringInjective | g1/kernel.js:640 | different numbers have different numerals |
| Decimal.ParseIntOfDigits | g1/kernel.js:849 | `parseInt` of a run of digits is its value |
| Lex.SortSet | g1/kernel.js:845 | sorting a set gives a strictly ascending sequence of exactly its members |
| Lex.LexTrans | g1/kernel.js:845 | the string order used by `sort` is transitive |
| Common.Dedupe | g1/kernel.js:899 | `[...new Set(layers)]` keeps exactly the elements of its input, none twice, and is no longer than it |
| Common.DedupeOrder | g1/kernel.js:899 | the kept elements stay in the order of their first occurrences |
| Common.DedupeSorted | g1/kernel.js:899 | de-duplicating a list sorted by a key, in which equal keys mean equal elements, leaves the keys strictly increasing |
| Common.DedupeLast | g1/kernel.js:899 | de-duplicating such a sorted list keeps its last element last |
| Common.DedupeDistinct | g1/kernel.js:899 | a list with no repeats is left as it is |
| Common.FirstIndex | g1/kernel.js:899 | the position of an element's first occurrence, which a `Set` keeps |
| Common.IndexOf | g1/kernel.js:505 | `indexOf` returns the first position of the character, or none when it does not occur |
| Common.RemoveFirst | g1/kernel.js:511 | `replace('.', '')` leaves a string without a dot unchanged and otherwise removes one character, adding none |
| Common.RemoveFirstAt | g1/kernel.js:511 | the character `replace` removes is the first occurrence: the result is the string with exactly that position cut out |
| Nav.PathRoundTrip | docs/pscale-nested/pscale-nav-nested.js:17-32 | rendering a dot-free path and reading it back gives the path |
| Nav.CoordRoundTrip | docs/pscale-nested/pscale-nav-nested.js:17-32 | reading a well-placed coordinate as a path and rendering it at its own decimal gives the coordinate |
| Nav.DecimalOfRendered | docs/pscale-nested/pscale-nav-nested.js:24-32 | a rendered coordinate has its dot after `decimal` digits when `decimal` is inside the path, and no dot otherwise |
| Nav.PlusOfRendered | docs/pscale-nested/pscale-nav-nested.js:65-72 | moving up from a rendered path renders the path without its last digit, and a path of one digit has no parent |
| Nav.PlusDropsOne | docs/pscale-nested/pscale-nav-nested.js:65-72 | moving up drops exactly the last digit of the path |
| Nav.DecimalInRange | docs/pscale-nested/pscale-nav-nested.js:24-32 | the dot position of a well-placed coordinate lies within its path |
| Nav.CoordToPath | docs/pscale-nested/pscale-nav-nested.js:17-22 | `coordToPath`: the characters of a coordinate with its first dot removed; its meaning is carried by Nav.PathRoundTrip and Nav.CoordRoundTrip |
| Nav.PathToCoord | docs/pscale-nested/pscale-nav-nested.js:24-32 | `pathToCoord`: a path rendered with the dot after `decimal` digits when that falls inside it; its meaning is carried by Nav.PathRoundTrip, Nav.CoordRoundTrip and Nav.DecimalOfRendered |
| Nav.GetSemantic | docs/pscale-nested/pscale-nav-nested.js:47-54 | `getSemantic`; its meaning is carried by Nav.SetThenGet and Nav.ClearSemanticEffect |
| Nav.PscalePlus | docs/pscale-nested/pscale-nav-nested.js:65-72 | `pscalePlus`; its meaning is carried by Nav.PlusDropsOne, Nav.PlusOfRendered and Nav.PlusOfChild |
| Nav.GetDimensions | docs/pscale-nested/pscale-nav-nested.js:56-61 | a leaf or missing node reports just `_`; a branch reports exactly its channels starting with `_` |
| Nav.PscaleMinus | docs/pscale-nested/pscale-nav-nested.js:74-82 | the digits one level down are, in ascending order, exactly the digit keys of an existing branch |
| Nav.XSibs | docs/pscale-nested/pscale-nav-nested.js:86-97 | the sibling digits come in ascending order |
| Nav.XSibsMembers | docs/pscale-nested/pscale-nav-nested.js:86-97 | a digit is a sibling exactly when the parent branch exists, has that digit as a key, and the digit is not the coordinate's own last digit |
| Nav.PathCoordsPaths | docs/pscale-nested/pscale-nav-nested.js:101-119 | every coordinate listed for a key converts back to the base path extended by that key |
| Nav.ChildCoords | docs/pscale-nested/pscale-nav-nested.js:101-108 | `childCoords`; its meaning is carried by Nav.PathCoordsPaths and Nav.PlusOfChild |
| Nav.SiblingCoords | docs/pscale-nested/pscale-nav-nested.js:110-121 | `siblingCoords`; its meaning is carried by Nav.PathCoordsPaths and Nav.SiblingSharesParent |
| Nav.PscaleLevel | docs/pscale-nested/pscale-nav-nested.js:123-126 | `pscaleLevel`; its meaning is carried by Bsp.DeepestIsLevel |
| Nav.PlusOfChild | docs/pscale-nested/pscale-nav-nested.js:65-108 | moving up from any child coordinate gives back the coordinate |
| Nav.SiblingSharesParent | docs/pscale-nested/pscale-nav-nested.js:65-119 | every sibling coordinate moves up to the same coordinate as the original |
| Nav.NavGetNodeConcat | docs/pscale-nested/pscale-nav-nested.js:36-45 | walking `p + q` is walking `p` and then `q` |
| Nav.SetPath | docs/pscale-nested/pscale-nav-nested.js:130-151 | setting below a branch keeps it a branch and leaves its own channels alone |
| Nav.SetPathNode | docs/pscale-nested/pscale-nav-nested.js:130-151 | after setting, the target node is what the write rules make of the old node: a leaf for a plain write to nothing, a branch keeping an old leaf's text under `_` for a dimension write |
| Nav.SetThenGet | docs/pscale-nested/pscale-nav-nested.js:47-54 | after setting a non-empty semantic, reading that dimension gives it back (130-151) |
| Nav.SetThenDimensions | docs/pscale-nested/pscale-nav-nested.js:56-61 | after setting a `_` channel, that channel is among the coordinate's dimensions (130-151) |
| Nav.SetKeepsLeafText | docs/pscale-nested/pscale-nav-nested.js:140-146 | setting another dimension on a leaf keeps the leaf's text as its `_` semantic |
| Nav.SetPathFrame | docs/pscale-nested/pscale-nav-nested.js:130-151 | nodes that are neither the target nor above it are unchanged |
| Nav.SetPathAncestors | docs/pscale-nested/pscale-nav-nested.js:130-151 | nodes above the target keep their `_` text, also when a leaf is turned into a branch |
| Nav.SetFrame | docs/pscale-nested/pscale-nav-nested.js:130-151 | setting changes no other path's `_` text, and no dimension of a path outside the target's ancestors |
| Nav.SetSemantic | docs/pscale-nested/pscale-nav-nested.js:130-151 | `setSemantic`; its meaning is carried by Nav.SetThenGet, SetThenDimensions, SetKeepsLeafText and SetFrame |
| Nav.ClearPathNode | docs/pscale-nested/pscale-nav-nested.js:153-157 | clearing removes only that channel from a branch target and leaves any other target as it was |
| Nav.ClearFrame | docs/pscale-nested/pscale-nav-nested.js:153-157 | clearing changes no other path or channel |
| Nav.ClearSemanticEffect | docs/pscale-nested/pscale-nav-nested.js:153-157 | an existing node stays; on a branch the cleared dimension then reads nothing; on a leaf or a missing node nothing changes |
| Nav.ClearNoOp | docs/pscale-nested/pscale-nav-nested.js:153-157 | clearing at a leaf or at a missing node returns the same tree |
| Nav.ClearSemantic | docs/pscale-nested/pscale-nav-nested.js:153-157 | `clearSemantic`; its meaning is carried by Nav.ClearSemanticEffect, ClearFrame and ClearNoOp |
| Nav.CountOnKeys | docs/pscale-nested/pscale-nav-nested.js:204-213 | the occupied-child count of the listed coordinates equals the number of filled digit children |
| Nav.FilledAll | docs/pscale-nested/pscale-nav-nested.js:204-213 | at least nine filled digit children means all of digits 1 to 9 are filled |
| Nav.CompressionReadyIff | docs/pscale-nested/pscale-nav-nested.js:204-213 | a coordinate is ready to compress exactly when its node is a branch whose children 1 to 9 all exist with non-empty text |
| Nav.CompressionReady | docs/pscale-nested/pscale-nav-nested.js:204-213 | `compressionReady`; its meaning is carried by Nav.CompressionReadyIff |
| Bsp.Cut | g1/bsp-test.js:90 | `substring(0, k)` is the prefix of length `k`, or the whole string when it is no longer than `k` |
| Bsp.StripTrailingZeros | g1/bsp-test.js:67 | removing trailing zeros leaves a prefix that does not end in `0`, and only zeros are removed |
| Bsp.StripLeadingZeros | g1/bsp-test.js:117 | removing leading zeros leaves a suffix that does not start with `0`, and only zeros are removed |
| Bsp.SpindleDigitsOf | g1/bsp-test.js:63-68 | a spindle's digits are its integer part (`0` when empty) followed by its fraction without trailing zeros |
| Bsp.SpindleDigits | g1/bsp-test.js:64-68 | the digits `bsp_nostrip` walks; its meaning is carried by Bsp.SpindleDigitsOf, Bsp.SpindleDigitsWhole and Bsp.FixedDigits |
| Bsp.StripPadded | g1/bsp-test.js:67 | zeros appended to a fraction that does not end in zero are all removed again |
| Bsp.FixedDigits | g1/bsp-test-range.js:12-16 | a number below 2^19 whose decimal expansion has at most ten places, formatted by `toFixed(10)`, walks the digits of that expansion, `0` standing in for an empty integer part |
| Bsp.SpindleDigitsWhole | g1/bsp-test.js:63-68 | a spindle without a dot has itself as digits, or `0` when it is empty |
| Bsp.FindPscale | g1/bsp-test.js:96 | `find` returns an entry of the list with that pscale, and nothing exactly when no entry has it |
| Bsp.FindPscaleFirst | g1/bsp-test.js:96 | the entry `find` returns is the first one with that pscale: the entry at the first index holding it |
| Bsp.EntryAt | g1/bsp-test.js:77-91 | entry `i` of a walk has pscale `top - i`, the spindle's `i`-th digit, and the text of the node the first `i + 1` digits reach |
| Bsp.EntriesStop | g1/bsp-test.js:82 | a walk stops early only where the next digit reaches no node |
| Bsp.EntriesShape | g1/bsp-test.js:77-91 | a walk has at most one entry per digit; each entry follows the tree; it stops only where the tree ends |
| Bsp.Entries | g1/bsp-test.js:77-91 | the walk of `bsp`; its meaning is carried by Bsp.EntryAt, EntriesStop, EntriesShape and PlaceShifts |
| Bsp.TextWithinCap | g1/bsp-test.js:84-90 | an entry text is the leaf's string, the `_` text or the serialised node, cut to exactly the cap (and, for the serialised node under the range rule, first to its own cap) |
| Bsp.NodeText | g1/bsp-test.js:84-90 | an entry's text under one of the three copies' rules; its meaning is carried by Bsp.TextWithinCap |
| Bsp.PointPicks | g1/bsp-test.js:93-99 | with a point, the entry at that pscale is returned, or the deepest entry when none has it, and an empty walk stays empty |
| Bsp.Finish | g1/bsp-test.js:93-101 | the end of `bsp` once the walk is done; its meaning is carried by Bsp.PointPicks |
| Bsp.NoSpindleIsBlock | g1/bsp-test.js:56-61 | without a spindle the block's tree is returned, or an empty tree when the block has no tree |
| Bsp.Resolve | g1/bsp-test.js:55-102 | `bsp_nostrip`, the `bsp` of the other two copies; its meaning is carried by Bsp.NoSpindleIsBlock, PlaceZeroIsOne and ResolveWalks |
| Bsp.PlaceZeroIsOne | g1/bsp-test.js:57 | a block with place 0 resolves like one with place 1 |
| Bsp.PlaceShifts | g1/bsp-test.js:89 | changing the place shifts every pscale by the same amount and changes nothing else |
| Bsp.DeepestIsLevel | docs/pscale-nested/pscale-nav-nested.js:123-126 | a walk that follows the whole path ends at the pscale `pscaleLevel` gives for it (g1/bsp-test.js:89) |
| Bsp.EntriesWrapped | g1/bsp-test.js:77-91 | walking a tree wrapped under a `0` key, starting with the digit `0`, gives the tree's own walk one pscale lower after the first entry |
| Bsp.StripOfZero | g1/bsp-test.js:107-158 | `bsp_strip` on `0.frac` walks the fraction without trailing zeros, with pscales starting at `place - 2` |
| Bsp.NoStripOfWrapped | g1/bsp-test.js:55-102 | `bsp_nostrip` on `0.frac` over a tree wrapped under `0` has, after its first entry, exactly the stripped walk |
| Bsp.StripIsWrappedNoStrip | g1/bsp-test.js:107-158 | `bsp_strip` on `0.frac` equals `bsp_nostrip` on the same block wrapped under `0`, with the wrapper's entry dropped |
| Bsp.ResolveStripZero | g1/bsp-test.js:113-119 | whatever follows an integer part of exactly `0`, `bsp_strip` walks the stripped digits from `place - 2` |
| Bsp.StripDigits | g1/bsp-test.js:115-119 | the digits `bsp_strip` walks; its meaning is carried by Bsp.ResolveStripZero |
| Bsp.ResolveStrip | g1/bsp-test.js:107-158 | `bsp_strip`; its meaning is carried by Bsp.ResolveStripZero, StripOfZero and StripIsWrappedNoStrip |
| Bsp.ResolveWalks | g1/bsp-test-living.js:5-46 | with a tree and a spindle, `bsp` is the walk of the spindle's digits from `place - 1`, finished by the point rule |
| Bsp.LivingEntries | g1/bsp-test-living.js:62-89 | the relationships block walked with `043` gives relationships, Cairn and the beacon at pscales 0, -1 and -2 |
| Bsp.LivingPlaceOne | g1/bsp-test-living.js:108-109 | `bsp(relationships, 0.43)` is those three entries in spindle mode |
| Bsp.LivingPointBeacon | g1/bsp-test-living.js:114-115 | `bsp(relationships, 0.43, -2)` is the beacon entry in point mode |
| Bsp.LivingPlaceTwo | g1/bsp-test-living.js:172-173 | `bsp(history, 10.1, 0)` is the first epoch's summary, cut to 70 characters, in point mode (124-150) |
| Bsp.HistoryWalk | g1/bsp-test-living.js:124-150 | the history block walked with `101` from pscale 1 has three entries, and the one at pscale 0 is the epoch summary |
| Bsp.RangeEntries | g1/bsp-test-range.js:63-74 | the range tree walked with `2341` gives the epoch, chapter, section and detail texts at successive pscales |
| Bsp.RangePlaces | g1/bsp-test-range.js:76-98 | for places 1 to 4, the number with digits 2, 3, 4, 1 and the dot after the first `place` of them gives the same four entries, with pscale 0 on the entry at index `place - 1` |
| Bsp.RangePlaceOneAsWritten | g1/bsp-test-range.js:80-83 | the place-1 call with 0.2341 walks 0, 2, 3, 4, 1 and returns an empty spindle |

## Left out

- Persistence is not modelled: `localStorage`, IndexedDB, `persist` and the JSON round trip through storage. `init` sees storage as a value, and the write-back is the storage it returns.
- `write` and `delete` log and return values that are not modelled. Only the store they produce is.
- `JSON.stringify` of a node, used by `bsp` when a node has no text, is a parameter `ser` of unknown behaviour. Facts about serialised text hold for every `ser`.
- A numeric spindle goes through `toFixed(10)`, which is floating-point formatting. The model takes `Bsp.ToFixed10(whole, frac)` as what it gives for a number below 2^19 whose decimal expansion has at most ten places. Larger magnitudes can gain digits: `(1234567.1).toFixed(10)` is `"1234567.1000000001"`. From 1e21 on, `toFixed` gives exponent notation. Neither is modelled, and neither is rounding of a longer expansion.
- `parseInt` is modelled as the value of the leading run of decimal digits. JavaScript's `parseInt` also skips leading whitespace, takes a sign, and reads a `0x` or `0X` prefix as hexadecimal: `parseInt("0x1F")` is 31 where the model gives 0. None of these is modelled, nor precision above 2^53.
- Memory.NextAfter: for a memory key such as `M:0x1F`, `M: 5` or `M:-3`, the number `nextMemory` takes from the key is not modelled, because of the `parseInt` gaps above. The same holds for Memory.NextMemoryKind and Memory.NextMemoryFresh.
- Strings are compared code unit by code unit as sequences of characters. UTF-16 surrogate pairs are not treated specially.
- A one-character path key of `_` is not modelled as reaching the `_` channel. The model keeps channels and children apart.
- Nav.SetFrame: a dimension name of one character other than `_` is not modelled as a child key. In JavaScript a node's channels and children share one object, so `setSemantic(tree, c, v, '5')` on a branch replaces its child `5`, `clearSemantic(tree, c, '5')` deletes child `5` and its subtree, and `getSemantic(tree, c, '2')` returns child `2` (docs/pscale-nested/pscale-nav-nested.js:53, 143, 156). The model files every dimension among the channels (Nav.ChannelOf), so Nav.SetFrame, Nav.ClearFrame, Nav.SetThenGet and Nav.ClearSemanticEffect do not describe such names.
- Store.ReadAfterWrite: keys that a JavaScript object inherits from `Object.prototype` are not modelled. Such keys are `toString`, `constructor`, `__proto__` and the like. The store's `data` and `specials` are plain objects, so these keys behave differently in JavaScript:
  - `read('toString')` returns the inherited function (g1/kernel.js:762).
  - `write('__proto__', v)` is ignored.
  - `write('constructor:1', v)` throws: `ensurePrefix` takes the inherited `data.constructor` for a tree (g1/kernel.js:516), and the walk then tests `d in undefined` (g1/kernel.js:560).
  - The model treats every key as an own entry of a map, so Store.Read, Store.Write, Store.WriteFrame and `getSemantic` with such a dimension name follow the plain-map behaviour.
- Nav.GetDimensions: models the dimensions as a set, so the key order of the JavaScript object is not modelled.
- A block's place is an integer, and 0 stands for a missing place. A non-integer or non-numeric place is not modelled.
- Memory.SummaryRange: requires a number of at least 10. For a single-digit number the source steps by one tenth, which is floating-point arithmetic. `nextMemory` never asks for it, because its numbers are at least 10 when the zeros test holds.
- `aperture` (docs/pscale-nested/pscale-nav-nested.js:161-200) is prompt assembly built from the modelled reads, and its phrase trimming is text formatting. It is not modelled.
- The console output and formatting of the test scripts (`fmt`, the printed tables) are not modelled. Only the resolvers and their fixture trees are.
- The G0 store in g0/kernel.js and the surrounding kernel (`callLLM`, the boot sequence, tools) are not part of this model.
- Bsp.StripIsWrappedNoStrip: states the equivalence for a spindle whose string splits on its dots into exactly `0` and a fraction. Bsp.SplitOneDot relates that to `"0." + frac` for a fraction without a dot.
- KernelTree.DeleteFrame: restricted to all-digit paths. A `.` key can come from a second dot in `parseCoord`, and it is pruned along with a parent that has no digit children.
- StoreContext.ContextContent: its own contract states only that keys are layers with non-empty content. Membership for integer coordinates and the effect of a write are stated by the two lemmas after it.

## Findings

| source | as written | input that shows it | evidently intended | confidence | as-written member | corrected member |
|---|---|---|---|---|---|---|
| g1/bsp-test-range.js:76-83 | the place-1 call passes `0.2341`, although the script announces the same digits 2, 3, 4, 1 in every call | `bsp({ place: 1, tree }, 0.2341)`: `toFixed(10)` gives `0.2341000000`, the walk starts at `0`, which the tree lacks, and the spindle is empty | `bsp({ place: 1, tree }, 2.341)`, the dot after the first digit, giving the four entries at pscales 0 to -3 | not executed; high | Bsp.RangePlaceOneAsWritten | Bsp.RangePlaces |

=== FILE: arith.dfy ===
/** Coordinate arithmetic of the kernel's store (g1/kernel.js): the
    string-level `parent` of a coordinate and its `context`, the chain of
    layers from the broadest to the coordinate itself. A coordinate with a
    dot climbs by dropping its last fractional digit; an integer one (a
    memory number) climbs by zeroing its last non-zero digit, so 153 sits
    under 150, which sits under 100. */
module CoordArith {
  import opened Common
  import opened Decimal
  import opened KernelCoord

  /** The position of the last digit of `s` that is not '0'. */
  function LastNonZero(s: string): (i: nat)
    requires !AllZeros(s)
    ensures i < |s| && s[i] != '0'
    ensures forall k :: i < k < |s| ==> s[k] == '0'
  {
    if s[|s| - 1] != '0' then |s| - 1
    else LastNonZero(s[..|s| - 1])
  }

  /** The integer parent of a positive number: see `NumeralParent`. */
  function IntParent(prefix: string, num: nat): (r: Option<string>)
    requires num > 0
  {
    NatToStringCanonical(num);
    NumeralParent(prefix, NatToString(num))
  }

  /** The parent of a numeral with a non-zero digit: its last non-zero
      digit zeroed and read back as a number, unless it is one digit long
      or that leaves 0. */
  function NumeralParent(prefix: string, str: string): (r: Option<string>)
    requires AllDigits(str) && !AllZeros(str)
  {
    if |str| <= 1 then None
    else
      var i := LastNonZero(str);
      var p := str[..i] + Zeros(|str| - i);
      var pNum := DigitsValue(p);
      if pNum == 0 then None else Some(prefix + NatToString(pNum))
  }

  /** `parent`: no colon, no parent; otherwise see `ParentIn`. */
  function Parent(coord: string): (r: Option<string>)
    ensures ':' !in coord ==> r.None?
  {
    match IndexOf(coord, ':')
    case None => None
    case Some(ci) => ParentIn(coord[..ci + 1], coord[ci + 1..])
  }

  /** The parent of `prefix + numStr` where `prefix` ends at the first
      colon: with a dot, drop the last fractional digit (and the dot with
      it when only one is left); otherwise the integer parent of the number
      the suffix starts with. */
  function ParentIn(prefix: string, numStr: string): (r: Option<string>)
    ensures r.Some? ==> StartsWith(r.value, prefix)
  {
    match IndexOf(numStr, '.')
    case Some(di) => Some(prefix + DotParent(numStr, di))
    case None => IntParentOf(prefix, numStr)
  }

  /** The fractional parent of a suffix whose first dot is at `di`. */
  function DotParent(numStr: string, di: nat): string
    requires di < |numStr|
  {
    var afterDot := numStr[di + 1..];
    if |afterDot| <= 1 then numStr[..di]
    else numStr[..di + 1] + afterDot[..|afterDot| - 1]
  }

  /** The integer parent of a suffix with no dot; none for NaN or 0. */
  function IntParentOf(prefix: string, numStr: string): Option<string> {
    match ParseInt(numStr)
    case None => None
    case Some(num) => if num == 0 then None else IntParent(prefix, num)
  }

  /** The integer layers: `prefix` and the number with its last `k`, `k-1`,
      ..., 0 digits zeroed, each kept only when positive. */
  function IntLayers(prefix: string, num: nat, k: nat): seq<string> {
    var here := if RoundDown(num, k) > 0 then [prefix + NatToString(RoundDown(num, k))] else [];
    if k == 0 then here else here + IntLayers(prefix, num, k - 1)
  }

  /** How many low digits the broadest layer of `num` rounds away: one
      fewer than its decimal digits. */
  function Places(num: nat): nat {
    |NatToString(num)| - 1
  }

  /** The number a layer `prefix + String(v)` names, `v`: what follows
      the first `|prefix|` characters, read as a decimal. */
  function LayerValue(prefix: string, x: string): nat
    decreases |prefix|
  {
    if |prefix| == 0 then ParseInt(x).GetOr(0)
    else if |x| == 0 then 0
    else LayerValue(prefix[1..], x[1..])
  }

  /** `context`: with no colon, just the coordinate; otherwise see
      `ContextIn`. */
  function Context(coord: string): (r: seq<string>)
    ensures ':' !in coord ==> r == [coord]
  {
    match IndexOf(coord, ':')
    case None => [coord]
    case Some(ci) => ContextIn(coord, coord[..ci + 1], coord[ci + 1..])
  }

  /** No layer of any context repeats: the kernel de-duplicates them. */
  lemma ContextDistinct(coord: string)
    ensures Distinct(Context(coord))
  {
  }

  /** The layers of `coord == prefix + numStr`: with a dot, the coordinate
      cut after each fractional digit in turn; otherwise the distinct
      positive round-downs of its number, broadest first. */
  function ContextIn(coord: string, prefix: string, numStr: string): (r: seq<string>)
    ensures Distinct(r)
  {
    match IndexOf(numStr, '.')
    case Some(di) => DottedLayers(prefix, numStr[..di + 1], numStr[di + 1..])
    case None => IntContext(coord, prefix, numStr)
  }

  /** The distinct positive round-downs of the suffix's number, broadest
      first; the coordinate alone for NaN or 0. */
  function IntContext(coord: string, prefix: string, numStr: string): (r: seq<string>)
    ensures Distinct(r)
  {
    match ParseInt(numStr)
    case None => [coord]
    case Some(num) =>
      if num == 0 then [coord]
      else Dedupe(IntLayers(prefix, num, Places(num)))
  }

  /** `whole` (ending in the dot) followed by the first 1, 2, ... digits
      of `frac`. */
  function DottedLayers(prefix: string, whole: string, frac: string): (r: seq<string>)
    ensures |r| == |frac|
    ensures forall i :: 0 <= i < |r| ==> r[i] == prefix + whole + frac[..i + 1]
    ensures Distinct(r)
  {
    var r := seq(|frac|, i requires 0 <= i < |frac| => prefix + whole + frac[..i + 1]);
    assert forall i, j :: 0 <= i < j < |r| ==> |r[i]| < |r[j]|;
    r
  }

  // ---------------------------------------------------------------------
  // Lemmas

  /** Where the first colon of `head + ":" + tail` is, when `head` has
      none. */
  lemma SplitAtColon(head: string, tail: string)
    requires ':' !in head
    ensures IndexOf(head + ":" + tail, ':') == Some(|head|)
    ensures (head + ":" + tail)[..|head| + 1] == head + ":"
    ensures (head + ":" + tail)[|head| + 1..] == tail
  {
    IndexOfAfter(head, ':', tail);
  }

  /** Zeros after the last non-zero digit do not move it. */
  lemma {:induction false} LastNonZeroPadded(a: string, j: nat)
    requires !AllZeros(a)
    ensures !AllZeros(a + Zeros(j))
    ensures LastNonZero(a + Zeros(j)) == LastNonZero(a)
  {
    var i := LastNonZero(a);
    assert (a + Zeros(j))[i] == a[i];
    if j > 0 {
      LastNonZeroPadded(a, j - 1);
      assert (a + Zeros(j))[..|a| + j - 1] == a + Zeros(j - 1);
    } else {
      assert a + Zeros(j) == a;
    }
  }

  /** `parent` and `context` of `head:body` look only at `body`. */
  lemma SplitCoord(head: string, body: string)
    requires ':' !in head
    ensures Parent(head + ":" + body) == ParentIn(head + ":", body)
    ensures Context(head + ":" + body) == ContextIn(head + ":" + body, head + ":", body)
  {
    SplitAtColon(head, body);
  }

  /** Where the first dot of `a + "." + b` is, when `a` has none. */
  lemma SplitAtDot(a: string, b: string)
    requires '.' !in a
    ensures IndexOf(a + "." + b, '.') == Some(|a|)
    ensures (a + "." + b)[..|a|] == a && (a + "." + b)[..|a| + 1] == a + "."
    ensures (a + "." + b)[|a| + 1..] == b
  {
    IndexOfAfter(a, '.', b);
  }

  lemma NoDot(s: string)
    requires AllDigits(s)
    ensures '.' !in s
  {
    assert forall i :: 0 <= i < |s| ==> IsDigit(s[i]);
  }

  /** The parent of a dotted coordinate drops its last fractional digit,
      and the dot too when only one was left. */
  lemma DottedParent(head: string, whole: string, frac: string)
    requires ':' !in head && '.' !in whole
    ensures Parent(head + ":" + (whole + "." + frac))
         == Some(head + ":" + (if |frac| <= 1 then whole else whole + "." + frac[..|frac| - 1]))
  {
    var body := whole + "." + frac;
    var coord := head + ":" + body;
    assert Parent(coord) == ParentIn(head + ":", body) by {
      SplitAtColon(head, body);
    }
    assert ParentIn(head + ":", body) == Some(head + ":" + DotParent(body, |whole|)) by {
      SplitAtDot(whole, frac);
    }
    assert DotParent(body, |whole|) == if |frac| <= 1 then whole else whole + "." + frac[..|frac| - 1] by {
      SplitAtDot(whole, frac);
    }
  }

  /** The context of a dotted coordinate cuts it after each fractional
      digit. */
  lemma DottedContext(head: string, whole: string, frac: string)
    requires ':' !in head && '.' !in whole
    ensures Context(head + ":" + (whole + "." + frac)) == DottedLayers(head + ":", whole + ".", frac)
  {
    SplitCoord(head, whole + "." + frac);
    SplitAtDot(whole, frac);
  }

  /** The parent of a fractional child is the coordinate it was made from:
      adding a digit to a path at or below the decimal point and taking
      the parent gives back the path's own coordinate. */
  lemma ParentOfChild(prefix: string, digits: seq<char>, d: char, decimal: int)
    requires ':' !in prefix && AllDigits(digits) && IsDigit(d)
    requires 1 <= decimal <= |digits|
    ensures Parent(MakeCoord(prefix, digits + [d], decimal)) == Some(MakeCoord(prefix, digits, decimal))
  {
    var a := digits[..decimal];
    var b := digits[decimal..];
    assert (digits + [d])[..decimal] == a && (digits + [d])[decimal..] == b + [d];
    assert digits == a + b;
    NoDot(a);
    assert MakeCoord(prefix, digits + [d], decimal) == prefix + ":" + (a + "." + (b + [d]));
    DottedParent(prefix, a, b + [d]);
    assert (b + [d])[..|b|] == b;
    assert MakeCoord(prefix, digits, decimal)
        == prefix + ":" + (if |b + [d]| <= 1 then a else a + "." + (b + [d])[..|b|]);
  }

  /** Layer `j` of a dotted coordinate is the coordinate cut after its
      `j + 1`-th fractional digit. */
  lemma DottedLayer(head: string, whole: string, frac: string, j: nat)
    requires ':' !in head && '.' !in whole && j < |frac|
    ensures |Context(head + ":" + (whole + "." + frac))| == |frac|
    ensures Context(head + ":" + (whole + "." + frac))[j] == head + ":" + (whole + "." + frac[..j + 1])
  {
    DottedContext(head, whole, frac);
  }

  /** Cutting one more fractional digit is taking the parent. */
  lemma ParentOfCut(head: string, whole: string, frac: string, j: nat)
    requires ':' !in head && '.' !in whole && 1 <= j < |frac|
    ensures Parent(head + ":" + (whole + "." + frac[..j + 1])) == Some(head + ":" + (whole + "." + frac[..j]))
  {
    var cut := frac[..j + 1];
    DottedParentLong(head, whole, cut);
    assert cut[..|cut| - 1] == frac[..j];
  }

  /** `DottedParent` when at least two fractional digits remain. */
  lemma DottedParentLong(head: string, whole: string, frac: string)
    requires ':' !in head && '.' !in whole && |frac| >= 2
    ensures Parent(head + ":" + (whole + "." + frac)) == Some(head + ":" + (whole + "." + frac[..|frac| - 1]))
  {
    DottedParent(head, whole, frac);
  }

  /** Each dotted layer's parent is the layer before it. */
  lemma ContextDottedChain(head: string, whole: string, frac: string, j: nat)
    requires ':' !in head && '.' !in whole
    requires 1 <= j < |frac|
    ensures var layers := Context(head + ":" + (whole + "." + frac));
      |layers| == |frac| && Parent(layers[j]) == Some(layers[j - 1])
  {
    var i := j - 1;
    DottedLayer(head, whole, frac, j);
    DottedLayer(head, whole, frac, i);
    assert i + 1 == j;
    ParentOfCut(head, whole, frac, j);
  }

  /** The dotted layers end with the coordinate itself. */
  lemma ContextDottedEnds(head: string, whole: string, frac: string)
    requires ':' !in head && '.' !in whole && |frac| >= 1
    ensures var coord := head + ":" + (whole + "." + frac);
      |Context(coord)| == |frac| && Context(coord)[|frac| - 1] == coord
  {
    var i := |frac| - 1;
    DottedLayer(head, whole, frac, i);
    assert frac[..i + 1] == frac;
  }

  /** The integer layers are the positive round-downs by at most `k`
      digits. */
  lemma {:induction false} IntLayersMembers(prefix: string, num: nat, k: nat, x: string)
    ensures x in IntLayers(prefix, num, k) <==>
      exists j :: 0 <= j <= k && RoundDown(num, j) > 0 && x == prefix + NatToString(RoundDown(num, j))
  {
    var here := if RoundDown(num, k) > 0 then [prefix + NatToString(RoundDown(num, k))] else [];
    var rest := if k > 0 then IntLayers(prefix, num, k - 1) else [];
    assert IntLayers(prefix, num, k) == here + rest;
    if k > 0 {
      IntLayersMembers(prefix, num, k - 1, x);
    }
    if x in here {
      assert RoundDown(num, k) > 0 && x == prefix + NatToString(RoundDown(num, k));
    } else if x in rest {
      var j :| 0 <= j <= k - 1 && RoundDown(num, j) > 0 && x == prefix + NatToString(RoundDown(num, j));
      assert j <= k;
    }
    if exists j :: 0 <= j <= k && RoundDown(num, j) > 0 && x == prefix + NatToString(RoundDown(num, j)) {
      var j :| 0 <= j <= k && RoundDown(num, j) > 0 && x == prefix + NatToString(RoundDown(num, j));
      if j == k {
        assert x in here;
      } else {
        assert 0 <= j <= k - 1 && RoundDown(num, j) > 0 && x == prefix + NatToString(RoundDown(num, j));
        assert x in rest;
      }
    }
  }

  /** The layers of an integer coordinate: every one is its number with
      some trailing digits zeroed, and every positive such round-down is a
      layer, the number itself among them. */
  lemma ContextIntegerLayers(head: string, num: nat, x: string)
    requires ':' !in head && num > 0
    ensures var coord := head + ":" + NatToString(num);
      x in Context(coord) <==>
        exists j :: 0 <= j < |NatToString(num)| && RoundDown(num, j) > 0
          && x == head + ":" + NatToString(RoundDown(num, j))
  {
    IntLayersMembers(head + ":", num, Places(num), x);
    ContextIntegerIs(head, num);
  }

  /** Every layer of an integer context is a round-down of the number. */
  lemma ContextIntegerPick(head: string, num: nat, x: string) returns (j: nat)
    requires ':' !in head && num > 0
    requires x in Context(head + ":" + NatToString(num))
    ensures j < |NatToString(num)| && RoundDown(num, j) > 0
    ensures x == head + ":" + NatToString(RoundDown(num, j))
  {
    ContextIntegerLayers(head, num, x);
    j :| 0 <= j < |NatToString(num)| && RoundDown(num, j) > 0
      && x == head + ":" + NatToString(RoundDown(num, j));
  }

  /** Every non-zero round-down of the number is a layer of its context. */
  lemma ContextIntegerLayer(head: string, num: nat, k: nat)
    requires ':' !in head && num > 0
    requires k < |NatToString(num)| && RoundDown(num, k) > 0
    ensures head + ":" + NatToString(RoundDown(num, k)) in Context(head + ":" + NatToString(num))
  {
    ContextIntegerLayers(head, num, head + ":" + NatToString(RoundDown(num, k)));
  }

  /** The integer coordinate is its own last layer. */
  lemma ContextIntegerSelf(head: string, num: nat)
    requires ':' !in head && num > 0
    ensures head + ":" + NatToString(num) in Context(head + ":" + NatToString(num))
    ensures Context(head + ":" + NatToString(num))[|Context(head + ":" + NatToString(num))| - 1]
      == head + ":" + NatToString(num)
  {
    ContextIntegerLayers(head, num, head + ":" + NatToString(num));
    assert RoundDown(num, 0) == num;
    ContextIntegerOrder(head, num);
  }

  /** The layers of an integer coordinate run from general to specific:
      the numbers they name strictly increase, and the last is the
      coordinate itself. */
  lemma ContextIntegerOrder(head: string, num: nat)
    requires ':' !in head && num > 0
    ensures var r := Context(head + ":" + NatToString(num));
      |r| >= 1 && r[|r| - 1] == head + ":" + NatToString(num)
    ensures var r := Context(head + ":" + NatToString(num));
      forall i :: 0 <= i < |r| ==> r[i] == head + ":" + NatToString(LayerValue(head + ":", r[i]))
    ensures var r := Context(head + ":" + NatToString(num));
      forall i, j :: 0 <= i < j < |r| ==> LayerValue(head + ":", r[i]) < LayerValue(head + ":", r[j])
  {
    ContextIntegerLast(head, num);
    ContextIntegerForm(head, num);
    ContextIntegerIncreasing(head, num);
  }

  /** The last layer of an integer coordinate is the coordinate. */
  lemma ContextIntegerLast(head: string, num: nat)
    requires ':' !in head && num > 0
    ensures var r := Context(head + ":" + NatToString(num));
      |r| >= 1 && r[|r| - 1] == head + ":" + NatToString(num)
  {
    IntContextLast(head + ":", num);
    ParseIntOfDigits(NatToString(num));
    ValueOfNatToString(num);
    NoDot(NatToString(num));
    SplitCoord(head, NatToString(num));
  }

  /** Every layer of an integer coordinate is `head:` and a numeral. */
  lemma ContextIntegerForm(head: string, num: nat)
    requires ':' !in head && num > 0
    ensures var r := Context(head + ":" + NatToString(num));
      forall i :: 0 <= i < |r| ==> r[i] == head + ":" + NatToString(LayerValue(head + ":", r[i]))
  {
    IntContextForm(head + ":", num);
    ContextIntegerIs(head, num);
  }

  /** The layers of an integer coordinate name strictly increasing numbers. */
  lemma ContextIntegerIncreasing(head: string, num: nat)
    requires ':' !in head && num > 0
    ensures var r := Context(head + ":" + NatToString(num));
      forall i, j :: 0 <= i < j < |r| ==> LayerValue(head + ":", r[i]) < LayerValue(head + ":", r[j])
  {
    IntContextIncreasing(head + ":", num);
    ContextIntegerIs(head, num);
  }

  /** Every integer layer is a layer string. */
  lemma IntLayersForm(prefix: string, num: nat, k: nat)
    ensures forall x :: x in IntLayers(prefix, num, k) ==> x == prefix + NatToString(LayerValue(prefix, x))
  {
    forall x | x in IntLayers(prefix, num, k)
      ensures x == prefix + NatToString(LayerValue(prefix, x))
    {
      IntLayerValue(prefix, num, k, x);
    }
  }

  /** The de-duplicated integer layers are layer strings. */
  lemma IntContextForm(prefix: string, num: nat)
    ensures var r := Dedupe(IntLayers(prefix, num, Places(num)));
      forall i :: 0 <= i < |r| ==> r[i] == prefix + NatToString(LayerValue(prefix, r[i]))
  {
    IntLayersForm(prefix, num, Places(num));
  }

  /** The de-duplicated integer layers name strictly increasing numbers. */
  lemma IntContextIncreasing(prefix: string, num: nat)
    ensures var r := Dedupe(IntLayers(prefix, num, Places(num)));
      forall i, j :: 0 <= i < j < |r| ==> LayerValue(prefix, r[i]) < LayerValue(prefix, r[j])
  {
    var s: seq<string>, key: string -> int := IntLayers(prefix, num, Places(num)), x => LayerValue(prefix, x);
    IntLayersKeyed(prefix, num, Places(num), s, key);
    DedupeSorted(s, key);
  }

  /** The de-duplicated integer layers end with the number itself. */
  lemma IntContextLast(prefix: string, num: nat)
    requires num > 0
    ensures var r := Dedupe(IntLayers(prefix, num, Places(num)));
      |r| >= 1 && r[|r| - 1] == prefix + NatToString(num)
  {
    var s: seq<string>, key: string -> int := IntLayers(prefix, num, Places(num)), x => LayerValue(prefix, x);
    IntLayersKeyed(prefix, num, Places(num), s, key);
    IntLayersLast(prefix, num, Places(num));
    DedupeLast(s, key);
  }

  /** A positive integer coordinate's context is the de-duplicated list
      of its integer layers. */
  lemma ContextIntegerIs(head: string, num: nat)
    requires ':' !in head && num > 0
    ensures Context(head + ":" + NatToString(num))
      == Dedupe(IntLayers(head + ":", num, Places(num)))
  {
    ParseIntOfDigits(NatToString(num));
    ValueOfNatToString(num);
    NoDot(NatToString(num));
    SplitCoord(head, NatToString(num));
  }

  /** A layer's number read back. */
  lemma {:induction false} LayerValueOf(prefix: string, v: nat)
    ensures LayerValue(prefix, prefix + NatToString(v)) == v
    decreases |prefix|
  {
    if |prefix| == 0 {
      assert prefix + NatToString(v) == NatToString(v);
      ParseIntOfDigits(NatToString(v));
      ValueOfNatToString(v);
    } else {
      assert (prefix + NatToString(v))[1..] == prefix[1..] + NatToString(v);
      LayerValueOf(prefix[1..], v);
    }
  }

  /** An integer layer names a round-down of the number by at most `k`
      digits, so no less than the broadest one. */
  lemma IntLayerValue(prefix: string, num: nat, k: nat, x: string)
    requires x in IntLayers(prefix, num, k)
    ensures x == prefix + NatToString(LayerValue(prefix, x))
    ensures RoundDown(num, k) <= LayerValue(prefix, x)
  {
    IntLayersMembers(prefix, num, k, x);
    var j :| 0 <= j <= k && RoundDown(num, j) > 0 && x == prefix + NatToString(RoundDown(num, j));
    LayerValueOf(prefix, RoundDown(num, j));
    RoundDownMonotone(num, j, k);
  }

  /** The integer layers' numbers never decrease. */
  lemma IntLayersSorted(prefix: string, num: nat, k: nat)
    ensures var s := IntLayers(prefix, num, k);
      forall i, j :: 0 <= i < j < |s| ==> LayerValue(prefix, s[i]) <= LayerValue(prefix, s[j])
  {
    forall i, j | 0 <= i < j < |IntLayers(prefix, num, k)|
      ensures LayerValue(prefix, IntLayers(prefix, num, k)[i]) <= LayerValue(prefix, IntLayers(prefix, num, k)[j])
    {
      IntLayersSortedAt(prefix, num, k, i, j);
    }
  }

  /** One pair of integer layers in order. */
  lemma {:induction false} IntLayersSortedAt(prefix: string, num: nat, k: nat, i: nat, j: nat)
    requires i < j < |IntLayers(prefix, num, k)|
    ensures LayerValue(prefix, IntLayers(prefix, num, k)[i]) <= LayerValue(prefix, IntLayers(prefix, num, k)[j])
  {
    var v := RoundDown(num, k);
    var here := if v > 0 then [prefix + NatToString(v)] else [];
    var rest := IntLayers(prefix, num, k - 1);
    assert k > 0;
    assert IntLayers(prefix, num, k) == here + rest;
    if i >= |here| {
      IntLayersSortedAt(prefix, num, k - 1, i - |here|, j - |here|);
    } else {
      LayerValueOf(prefix, v);
      RoundDownMonotone(num, k - 1, k);
      IntLayerValue(prefix, num, k - 1, rest[j - |here|]);
    }
  }

  /** The integer layers, keyed by the number each names, are in order
      and no two distinct layers share a key. */
  lemma IntLayersKeyed(prefix: string, num: nat, k: nat, s: seq<string>, key: string -> int)
    requires s == IntLayers(prefix, num, k)
    requires forall x :: key(x) == LayerValue(prefix, x)
    ensures forall i, j :: 0 <= i < j < |s| ==> key(s[i]) <= key(s[j])
    ensures forall i, j :: 0 <= i < |s| && 0 <= j < |s| && key(s[i]) == key(s[j]) ==> s[i] == s[j]
  {
    IntLayersSorted(prefix, num, k);
    IntLayersForm(prefix, num, k);
  }

  /** The integer layers end with the number itself. */
  lemma {:induction false} IntLayersLast(prefix: string, num: nat, k: nat)
    requires num > 0
    ensures var s := IntLayers(prefix, num, k);
      |s| >= 1 && s[|s| - 1] == prefix + NatToString(num)
  {
    if k > 0 {
      IntLayersLast(prefix, num, k - 1);
    }
  }

  lemma {:induction false} AllZerosValue(s: string)
    requires AllZeros(s)
    ensures AllDigits(s) && DigitsValue(s) == 0
  {
    if |s| > 0 {
      AllZerosValue(s[..|s| - 1]);
    }
  }

  /** The parent of a positive integer coordinate is its integer parent. */
  lemma IntCoordParent(head: string, r: nat)
    requires ':' !in head && r > 0
    ensures Parent(head + ":" + NatToString(r)) == IntParent(head + ":", r)
  {
    var sr := NatToString(r);
    SplitCoord(head, sr);
    NoDot(sr);
    ParseIntOfDigits(sr);
    ValueOfNatToString(r);
  }

  /** A round-down of a positive number is positive: it keeps the leading
      digit. */
  lemma RoundDownPositive(num: nat, j: nat)
    requires num > 0 && j < |NatToString(num)|
    ensures RoundDown(num, j) > 0
    ensures NatToString(RoundDown(num, j))
         == NatToString(num)[..|NatToString(num)| - j] + Zeros(j)
  {
    NatToStringRound(num, j);
    NatToStringCanonical(num);
    assert NatToString(RoundDown(num, j))[0] == NatToString(num)[0];
  }

  /** The numeral `String(num)` with its last `k` digits zeroed reads as
      the round-down of `num` by `k` digits. */
  lemma PaddedValue(num: nat, k: nat)
    requires num > 0 && k < |NatToString(num)|
    ensures var str := NatToString(num);
      AllDigits(str[..|str| - k] + Zeros(k)) &&
      DigitsValue(str[..|str| - k] + Zeros(k)) == RoundDown(num, k)
  {
    RoundDownPositive(num, k);
    ValueOfNatToString(RoundDown(num, k));
  }

  /** `IntParent` of a number is `NumeralParent` of its numeral. */
  lemma IntParentIs(prefix: string, r: nat, str: string)
    requires r > 0 && NatToString(r) == str
    ensures AllDigits(str) && !AllZeros(str)
    ensures IntParent(prefix, r) == NumeralParent(prefix, str)
  {
    NatToStringCanonical(r);
  }

  /** The parent of a numeral `a` followed by `j` zeros: the last
      non-zero digit of `a` decides. */
  lemma NumeralParentPadded(prefix: string, a: string, j: nat) returns (m: nat, k: nat)
    requires AllDigits(a) && !AllZeros(a)
    ensures m == LastNonZero(a) && k == |a| + j - m
    ensures AllDigits(a + Zeros(j)) && !AllZeros(a + Zeros(j))
    ensures (|a| + j < 2 || m == 0) ==> NumeralParent(prefix, a + Zeros(j)).None?
    ensures |a| + j >= 2 && m >= 1 ==>
      AllDigits(a[..m] + Zeros(k)) &&
      NumeralParent(prefix, a + Zeros(j)) == (var v := DigitsValue(a[..m] + Zeros(k));
        if v == 0 then None else Some(prefix + NatToString(v)))
  {
    m := LastNonZero(a);
    k := |a| + j - m;
    var str := a + Zeros(j);
    LastNonZeroPadded(a, j);
    assert AllDigits(str);
    if |str| >= 2 {
      assert str[..m] == a[..m];
      var p := a[..m] + Zeros(k);
      if m == 0 {
        AllZerosValue(p);
      }
    }
  }

  /** Zeroing the last non-zero digit of a round-down of `num` is a
      further round-down of `num`. */
  lemma IntParentRound(prefix: string, num: nat, j: nat) returns (k: nat)
    requires num > 0 && j < |NatToString(num)|
    ensures RoundDown(num, j) > 0
    ensures j < k <= |NatToString(num)|
    ensures k == |NatToString(num)| ==> IntParent(prefix, RoundDown(num, j)).None?
    ensures k < |NatToString(num)| ==> RoundDown(num, k) > 0
    ensures k < |NatToString(num)| ==> (IntParent(prefix, RoundDown(num, j))
                                        == Some(prefix + NatToString(RoundDown(num, k))))
    ensures NatToString(num)[|NatToString(num)| - k] != '0'
    ensures forall t :: |NatToString(num)| - k < t < |NatToString(num)| - j ==> NatToString(num)[t] == '0'
  {
    var a := RoundedNumeral(num, j);
    IntParentIs(prefix, RoundDown(num, j), a + Zeros(j));
    var m;
    m, k := NumeralParentPadded(prefix, a, j);
    if m >= 1 {
      KeptDigits(num, a, m, k);
    }
    assert forall t :: 0 <= t < |a| ==> a[t] == NatToString(num)[t];
  }

  /** Rounding `num` down past zero digits changes nothing; rounding past
      a non-zero digit gives strictly less. `k` is the first position,
      counted from the right, above `j` whose digit is not zero. */
  lemma RoundDownPlateau(num: nat, j: nat, k: nat)
    requires num > 0 && j < k <= |NatToString(num)|
    requires forall t :: |NatToString(num)| - k < t < |NatToString(num)| - j ==> NatToString(num)[t] == '0'
    requires NatToString(num)[|NatToString(num)| - k] != '0'
    ensures forall i :: j <= i < k ==> RoundDown(num, i) == RoundDown(num, j)
    ensures k < |NatToString(num)| ==> RoundDown(num, k) < RoundDown(num, j)
  {
    forall i | j <= i < k
      ensures RoundDown(num, i) == RoundDown(num, j)
    {
      SameRoundDown(num, j, i);
    }
    if k < |NatToString(num)| {
      RoundDownPast(num, j, k);
    }
  }

  /** Zeroing digits that are already zero does not change the number. */
  lemma SameRoundDown(num: nat, j: nat, i: nat)
    requires num > 0 && j <= i < |NatToString(num)|
    requires forall t :: |NatToString(num)| - i <= t < |NatToString(num)| - j ==> NatToString(num)[t] == '0'
    ensures RoundDown(num, i) == RoundDown(num, j)
  {
    var str := NatToString(num);
    var n := |str|;
    RoundDownPositive(num, j);
    RoundDownPositive(num, i);
    var x, y := str[..n - i] + Zeros(i), str[..n - j] + Zeros(j);
    assert forall t :: 0 <= t < n ==> x[t] == y[t];
    assert x == y;
    NatToStringInjective(RoundDown(num, i), RoundDown(num, j));
  }

  /** Zeroing a non-zero digit makes the number smaller. */
  lemma RoundDownPast(num: nat, j: nat, k: nat)
    requires num > 0 && j < k < |NatToString(num)|
    requires NatToString(num)[|NatToString(num)| - k] != '0'
    ensures RoundDown(num, k) < RoundDown(num, j)
  {
    var n := |NatToString(num)|;
    RoundDownPositive(num, j);
    RoundDownPositive(num, k);
    assert NatToString(RoundDown(num, k))[n - k] != NatToString(RoundDown(num, j))[n - k];
    RoundDownMonotone(num, j, k);
  }

  /** Rounding down by more digits never gives more. */
  lemma {:induction false} RoundDownMonotone(n: nat, j: nat, k: nat)
    requires j <= k
    ensures RoundDown(n, k) <= RoundDown(n, j)
    decreases j
  {
    if j == 0 {
      RoundDownAtMost(n, k);
    } else {
      RoundDownMonotone(n / 10, j - 1, k - 1);
    }
  }

  /** A round-down never exceeds the number. */
  lemma {:induction false} RoundDownAtMost(n: nat, k: nat)
    ensures RoundDown(n, k) <= n
    decreases k
  {
    if k > 0 {
      RoundDownAtMost(n / 10, k - 1);
    }
  }

  /** The numeral of `num` rounded down by `j` digits is its leading digits
      `a` followed by `j` zeros. */
  lemma RoundedNumeral(num: nat, j: nat) returns (a: string)
    requires num > 0 && j < |NatToString(num)|
    ensures a == NatToString(num)[..|NatToString(num)| - j]
    ensures |a| + j == |NatToString(num)|
    ensures RoundDown(num, j) > 0
    ensures NatToString(RoundDown(num, j)) == a + Zeros(j)
    ensures AllDigits(a) && !AllZeros(a)
  {
    var str := NatToString(num);
    a := str[..|str| - j];
    RoundDownPositive(num, j);
    NatToStringCanonical(num);
    assert a[0] == str[0] != '0';
  }

  /** Keeping the first `m` digits of a leading part `a` of `String(num)` and
      zero-filling the other `k` is rounding `num` down by `k` digits. */
  lemma KeptDigits(num: nat, a: string, m: nat, k: nat)
    requires num > 0 && 1 <= m <= |a| <= |NatToString(num)|
    requires a == NatToString(num)[..|a|] && k == |NatToString(num)| - m
    ensures RoundDown(num, k) > 0
    ensures DigitsValue(a[..m] + Zeros(k)) == RoundDown(num, k)
  {
    var str := NatToString(num);
    assert a[..m] == str[..|str| - k];
    PaddedValue(num, k);
    RoundDownPositive(num, k);
  }

  /** The parent of an integer coordinate with `j` digits zeroed is the
      number with its last non-zero digit zeroed as well, and there is none
      once only the leading digit is left. */
  lemma IntegerParent(head: string, num: nat, j: nat) returns (k: nat)
    requires ':' !in head && num > 0 && j < |NatToString(num)|
    ensures j < k <= |NatToString(num)|
    ensures k == |NatToString(num)| ==> Parent(head + ":" + NatToString(RoundDown(num, j))).None?
    ensures k < |NatToString(num)| ==> RoundDown(num, k) > 0
    ensures k < |NatToString(num)| ==> (Parent(head + ":" + NatToString(RoundDown(num, j)))
                                        == Some(head + ":" + NatToString(RoundDown(num, k))))
    ensures forall i :: j <= i < k ==> RoundDown(num, i) == RoundDown(num, j)
    ensures k < |NatToString(num)| ==> RoundDown(num, k) < RoundDown(num, j)
  {
    RoundDownPositive(num, j);
    IntCoordParent(head, RoundDown(num, j));
    k := IntParentRound(head + ":", num, j);
    RoundDownPlateau(num, j, k);
  }

  /** The integer context is closed under `parent`: the parent of each
      layer is again a layer. */
  lemma ContextIntegerClosed(head: string, num: nat, x: string)
    requires ':' !in head && num > 0
    requires x in Context(head + ":" + NatToString(num))
    ensures Parent(x).Some? ==> Parent(x).value in Context(head + ":" + NatToString(num))
  {
    var j := ContextIntegerPick(head, num, x);
    var k := IntegerParent(head, num, j);
    if k < |NatToString(num)| {
      ContextIntegerLayer(head, num, k);
    }
  }

  // ---------------------------------------------------------------------
  // The kernel's worked example: `context('M:5432')`

  /** `context('M:5432')` is M:5000, M:5400, M:5430, M:5432, broadest
      first. */
  lemma ContextExample()
    ensures Context("M:5432") == ["M:5000", "M:5400", "M:5430", "M:5432"]
  {
    ExampleSplit();
    ExampleParse();
    ExampleDedupe();
    assert Context("M:5432") == ContextIn("M:5432", "M:", "5432");
    assert ContextIn("M:5432", "M:", "5432") == IntContext("M:5432", "M:", "5432");
  }

  /** "M:5432" splits at its colon into "M:" and a suffix without a dot. */
  lemma ExampleSplit()
    ensures IndexOf("M:5432", ':') == Some(1)
    ensures "M:5432"[..2] == "M:" && "M:5432"[2..] == "5432"
    ensures IndexOf("5432", '.') == None
  {
  }

  lemma ExampleParse()
    ensures ParseInt("5432") == Some(5432)
    ensures |NatToString(5432)| == 4
  {
    ExampleNumerals();
    ParseIntOfDigits("5432");
    ValueOfNatToString(5432);
  }

  lemma ExampleNumerals()
    ensures NatToString(5432) == "5432" && NatToString(5430) == "5430"
    ensures NatToString(5400) == "5400" && NatToString(5000) == "5000"
  {
    assert NatToString(543) == "543";
    assert NatToString(540) == "540";
    assert NatToString(500) == "500";
  }

  /** The four round-downs of 5432 are distinct, so `Dedupe` keeps them
      all, in order. */
  lemma ExampleDedupe()
    ensures Dedupe(IntLayers("M:", 5432, 3)) == ["M:5000", "M:5400", "M:5430", "M:5432"]
  {
    ExampleLayers();
    DedupeDistinct(["M:5000", "M:5400", "M:5430", "M:5432"]);
  }

  lemma ExampleLayers()
    ensures IntLayers("M:", 5432, 3) == ["M:5000", "M:5400", "M:5430", "M:5432"]
  {
    ExampleRoundDowns();
    ExampleLayerNames();
  }

  lemma ExampleLayerNames()
    ensures ["M:" + NatToString(5000), "M:" + NatToString(5400),
             "M:" + NatToString(5430), "M:" + NatToString(5432)]
         == ["M:5000", "M:5400", "M:5430", "M:5432"]
  {
    ExampleNumerals();
    assert "M:" + "5000" == "M:5000" && "M:" + "5400" == "M:5400";
    assert "M:" + "5430" == "M:5430" && "M:" + "5432" == "M:5432";
  }

  lemma ExampleRoundDowns()
    ensures IntLayers("M:", 5432, 3) == ["M:" + NatToString(5000), "M:" + NatToString(5400),
                                         "M:" + NatToString(5430), "M:" + NatToString(5432)]
  {
    assert RoundDown(5432, 0) == 5432 && RoundDown(5432, 1) == 5430;
    assert RoundDown(5432, 2) == 5400 && RoundDown(5432, 3) == 5000;
  }
}

=== FILE: bsp.dfy ===
/** The block-spindle-point resolver `bsp` (g1/bsp-test.js,
    g1/bsp-test-living.js, g1/bsp-test-range.js). A block is a tree with a
    `place`: how many of a spindle's digits sit above pscale 0. A spindle is
    a semantic number whose digits, integer part first, are walked from the
    root one key at a time; each node passed becomes an entry carrying its
    pscale, its digit and a text. With a point, the entry at that pscale (or
    else the deepest one) is returned. The three copies differ only in how
    they make the text. */
module Bsp {
  import opened Common
  import opened Nodes
  import Nav

  /** A block: its `place` (0 standing for a missing or zero place, which
      `block.place || 1` reads as 1) and its tree, if it has one. */
  datatype Block = Block(place: int, tree: Option<Node>)

  datatype Entry = Entry(pscale: int, digit: char, text: string)

  /** What `bsp` returns: the whole tree, the entries of a spindle, or one
      entry. */
  datatype Resolved =
    | BlockMode(tree: Node)
    | SpindleMode(nodes: seq<Entry>)
    | PointMode(entry: Entry)

  /** How a copy of `bsp` turns a node into text. `Typed` (bsp-test.js with
      cap 60, bsp-test-living.js with cap 70): a leaf's string, else the
      branch's `_`, else the serialised node, cut to `cap`. `Fallback`
      (bsp-test-range.js): a leaf's string, else a non-empty `_`, else the
      serialised node cut to `serCap`; all cut to `cap`. */
  datatype TextRule = Typed(cap: nat) | Fallback(serCap: nat, cap: nat)

  const NoStripRule: TextRule := Typed(60)
  const LivingRule: TextRule := Typed(70)
  const RangeRule: TextRule := Fallback(50, 65)

  /** `block.place || 1`. */
  function PlaceOf(b: Block): int {
    if b.place == 0 then 1 else b.place
  }

  /** `s.substring(0, k)`. */
  function Cut(s: string, k: nat): (r: string)
    ensures |r| <= k && |r| <= |s|
    ensures r == s[..|r|]
    ensures k < |s| ==> |r| == k
    ensures |s| <= k ==> r == s
  {
    if |s| <= k then s else s[..k]
  }

  /** `s.split(c)`: the pieces between the occurrences of `c`. */
  function Split(s: string, c: char): (r: seq<string>)
    ensures |r| >= 1
    ensures forall k :: 0 <= k < |r| ==> c !in r[k]
  {
    match IndexOf(s, c)
    case None => [s]
    case Some(i) => [s[..i]] + Split(s[i + 1..], c)
  }

  /** `s.replace(/0+$/, '')`: the trailing zeros dropped. */
  function StripTrailingZeros(s: string): (r: string)
    ensures |r| <= |s| && r == s[..|r|] && AllZeros(s[|r|..])
    ensures |r| == 0 || r[|r| - 1] != '0'
  {
    if |s| > 0 && s[|s| - 1] == '0'
    then
      var r := StripTrailingZeros(s[..|s| - 1]);
      assert s[|r|..] == s[..|s| - 1][|r|..] + [s[|s| - 1]];
      r
    else s
  }

  /** `s.replace(/^0+/, '')`: the leading zeros dropped. */
  function StripLeadingZeros(s: string): (r: string)
    ensures |r| <= |s| && r == s[|s| - |r|..] && AllZeros(s[..|s| - |r|])
    ensures |r| == 0 || r[0] != '0'
  {
    if |s| > 0 && s[0] == '0'
    then
      var r := StripLeadingZeros(s[1..]);
      assert s[|s| - |r|..] == s[1..][|s| - 1 - |r|..];
      assert s[..|s| - |r|] == [s[0]] + s[1..][..|s| - 1 - |r|];
      r
    else s
  }

  /** `parts[1] || ''`: what follows the first dot, up to the next. */
  function FracPart(parts: seq<string>): string {
    if |parts| >= 2 then parts[1] else ""
  }

  /** The digits `bsp` walks (no stripping): the integer part, `'0'` when
      it is empty, then the fraction without its trailing zeros. */
  function SpindleDigits(str: string): (r: seq<char>)
    ensures |r| >= 1
  {
    var parts := Split(str, '.');
    var intStr := if parts[0] == "" then "0" else parts[0];
    intStr + StripTrailingZeros(FracPart(parts))
  }

  /** The text of an entry. `ser` stands for `JSON.stringify`. */
  function NodeText(n: Node, rule: TextRule, ser: Node -> string): string {
    match rule
    case Typed(cap) =>
      Cut(match n
          case Leaf(s) => s
          case Branch(dims, _) => if Default in dims then dims[Default] else ser(n), cap)
    case Fallback(serCap, cap) =>
      Cut(match n
          case Leaf(s) => s
          case Branch(dims, _) =>
            if Default in dims && dims[Default] != "" then dims[Default] else Cut(ser(n), serCap), cap)
  }

  /** The walk of `bsp`: for each digit in turn, while the current node is
      a branch holding it, step to the child under that digit and record an
      entry for it; the first digit sits at pscale `top`, each further one
      a pscale lower. */
  function Entries(n: Node, digits: seq<char>, top: int, rule: TextRule, ser: Node -> string): (r: seq<Entry>)
    ensures |r| <= |digits|
    decreases |digits|
  {
    if |digits| == 0 then []
    else
      match n
      case Leaf(_) => []
      case Branch(_, kids) =>
        if digits[0] in kids
        then [Entry(top, digits[0], NodeText(kids[digits[0]], rule, ser))]
             + Entries(kids[digits[0]], digits[1..], top - 1, rule, ser)
        else []
  }

  /** `nodes.find(n => n.pscale === point)`. */
  function FindPscale(nodes: seq<Entry>, p: int): (r: Option<Entry>)
    ensures r.Some? ==> r.value in nodes && r.value.pscale == p
    ensures r.None? <==> forall k :: 0 <= k < |nodes| ==> nodes[k].pscale != p
  {
    if |nodes| == 0 then None
    else if nodes[0].pscale == p then Some(nodes[0])
    else FindPscale(nodes[1..], p)
  }

  /** `find` returns the first entry with the pscale: the one no earlier
      entry shares it with. */
  lemma {:induction false} FindPscaleFirst(nodes: seq<Entry>, p: int, k: nat)
    requires k < |nodes| && nodes[k].pscale == p
    requires forall j :: 0 <= j < k ==> nodes[j].pscale != p
    ensures FindPscale(nodes, p) == Some(nodes[k])
    decreases k
  {
    if k > 0 {
      FindPscaleFirst(nodes[1..], p, k - 1);
    }
  }

  /** The end of `bsp` once the walk is done: no entries give an empty
      spindle; a point picks its entry or the deepest one. */
  function Finish(nodes: seq<Entry>, point: Option<int>): Resolved {
    if |nodes| == 0 then SpindleMode([])
    else
      match point
      case None => SpindleMode(nodes)
      case Some(p) =>
        match FindPscale(nodes, p)
        case Some(e) => PointMode(e)
        case None => PointMode(nodes[|nodes| - 1])
  }

  /** `bsp(block, spindle, point)` (`bsp_nostrip`), the spindle given as
      its string form. */
  function Resolve(block: Option<Block>, spindle: Option<string>, point: Option<int>,
                   rule: TextRule, ser: Node -> string): Resolved
  {
    match block
    case None => BlockMode(EmptyBranch)
    case Some(b) =>
      if b.tree.None? || !Nav.Truthy(b.tree.value) then BlockMode(EmptyBranch)
      else
        match spindle
        case None => BlockMode(b.tree.value)
        case Some(str) =>
          var digits := SpindleDigits(str);
          if |digits| == 0 then SpindleMode([])
          else Finish(Entries(b.tree.value, digits, PlaceOf(b) - 1, rule, ser), point)
  }

  /** The digits of `bsp_strip`: a lone leading `0` integer part is
      dropped, other integer parts lose their leading zeros. */
  function StripDigits(str: string): seq<char> {
    var parts := Split(str, '.');
    var intPart := if parts[0] == "0" then "" else StripLeadingZeros(parts[0]);
    intPart + StripTrailingZeros(FracPart(parts))
  }

  /** `bsp_strip`: the pscales shifted down by one when the zero was
      dropped. */
  function ResolveStrip(block: Option<Block>, spindle: Option<string>, point: Option<int>,
                        ser: Node -> string): Resolved
  {
    match block
    case None => BlockMode(EmptyBranch)
    case Some(b) =>
      if b.tree.None? || !Nav.Truthy(b.tree.value) then BlockMode(EmptyBranch)
      else
        match spindle
        case None => BlockMode(b.tree.value)
        case Some(str) =>
          var parts := Split(str, '.');
          var digits := StripDigits(str);
          var stripped := if parts[0] == "0" then 1 else 0;
          if |digits| == 0 then SpindleMode([])
          else Finish(Entries(b.tree.value, digits, PlaceOf(b) - 1 - stripped, NoStripRule, ser), point)
  }

  // ---------------------------------------------------------------------
  // Lemmas

  /** Splitting a string with one dot gives the two sides. */
  lemma {:induction false} SplitOneDot(whole: string, frac: string)
    requires '.' !in whole && '.' !in frac
    ensures Split(whole + "." + frac, '.') == [whole, frac]
  {
    var str := whole + "." + frac;
    IndexOfAfter(whole, '.', frac);
    assert str[..|whole|] == whole && str[|whole| + 1..] == frac;
  }

  /** The spindle's digits: its integer part (`'0'` if empty) followed by
      the fraction less only its trailing zeros; no leading zero goes. */
  lemma {:induction false} SpindleDigitsOf(whole: string, frac: string)
    requires '.' !in whole && '.' !in frac
    ensures SpindleDigits(whole + "." + frac)
         == (if whole == "" then "0" else whole) + StripTrailingZeros(frac)
  {
    SplitOneDot(whole, frac);
  }

  /** A spindle without a dot is walked digit for digit. */
  lemma {:induction false} SpindleDigitsWhole(whole: string)
    requires '.' !in whole
    ensures SpindleDigits(whole) == if whole == "" then "0" else whole
  {
  }

  /** `x.toFixed(10)` for a number `x` whose decimal expansion is `whole`,
      a dot and `frac` (at most ten places): the fraction padded with zeros
      to ten places. */
  function ToFixed10(whole: string, frac: string): string
    requires |frac| <= 10
  {
    whole + "." + frac + Zeros(10 - |frac|)
  }

  /** Padding a fraction that does not end in zero with zeros changes
      nothing once trailing zeros are dropped. */
  lemma {:induction false} StripPadded(frac: string, k: nat)
    requires |frac| == 0 || frac[|frac| - 1] != '0'
    ensures StripTrailingZeros(frac + Zeros(k)) == frac
    decreases k
  {
    if k == 0 {
      assert frac + Zeros(0) == frac;
    } else {
      var s := frac + Zeros(k);
      assert s[|s| - 1] == '0' && s[..|s| - 1] == frac + Zeros(k - 1);
      StripPadded(frac, k - 1);
    }
  }

  /** A number handed to `bsp` walks the digits of its decimal expansion:
      the zeros `toFixed(10)` pads the fraction with are dropped again. */
  lemma {:induction false} FixedDigits(whole: string, frac: string)
    requires '.' !in whole && '.' !in frac && |frac| <= 10
    requires |frac| == 0 || frac[|frac| - 1] != '0'
    ensures SpindleDigits(ToFixed10(whole, frac)) == (if whole == "" then "0" else whole) + frac
  {
    var padded := frac + Zeros(10 - |frac|);
    assert '.' !in padded;
    assert ToFixed10(whole, frac) == whole + "." + padded;
    SpindleDigitsOf(whole, padded);
    StripPadded(frac, 10 - |frac|);
  }

  /** A step of the walk: a branch holding the first digit records its
      child and walks on from it one pscale lower. */
  lemma {:induction false} EntriesStep(t: Node, digits: seq<char>, top: int, rule: TextRule, ser: Node -> string)
    requires |digits| > 0 && t.Branch? && digits[0] in t.kids
    ensures Entries(t, digits, top, rule, ser)
         == [Entry(top, digits[0], NodeText(t.kids[digits[0]], rule, ser))]
            + Entries(t.kids[digits[0]], digits[1..], top - 1, rule, ser)
  {
  }

  /** The `i`-th entry sits at pscale `top - i`, carries the `i`-th digit
      and the text of the node `getNode` finds at the first `i + 1`
      digits. */
  lemma {:induction false} EntryAt(t: Node, digits: seq<char>, top: int, rule: TextRule, ser: Node -> string, i: nat)
    requires i < |Entries(t, digits, top, rule, ser)|
    ensures var e := Entries(t, digits, top, rule, ser);
      && e[i].pscale == top - i && e[i].digit == digits[i]
      && GetNode(t, digits[..i + 1]).Some?
      && e[i].text == NodeText(GetNode(t, digits[..i + 1]).value, rule, ser)
    decreases i
  {
    var d := digits[0];
    assert t.Branch? && d in t.kids;
    var c := t.kids[d];
    EntriesStep(t, digits, top, rule, ser);
    assert digits[..i + 1] == [d] + digits[1..][..i];
    GetNodeCons(t, d, digits[1..][..i]);
    if i == 0 {
      assert GetNode(c, digits[1..][..0]) == Some(c);
    } else {
      EntryAt(c, digits[1..], top - 1, rule, ser, i - 1);
    }
  }

  /** The walk stops short of the digits only where the next digit leads
      nowhere. */
  lemma {:induction false} EntriesStop(t: Node, digits: seq<char>, top: int, rule: TextRule, ser: Node -> string)
    ensures var e := Entries(t, digits, top, rule, ser);
      |e| < |digits| ==> GetNode(t, digits[..|e| + 1]) == None
    decreases |digits|
  {
    if |digits| > 0 {
      var d := digits[0];
      if t.Branch? && d in t.kids {
        var rest := Entries(t.kids[d], digits[1..], top - 1, rule, ser);
        EntriesStep(t, digits, top, rule, ser);
        EntriesStop(t.kids[d], digits[1..], top - 1, rule, ser);
        if |rest| < |digits| - 1 {
          assert digits[..|rest| + 2] == [d] + digits[1..][..|rest| + 1];
          GetNodeCons(t, d, digits[1..][..|rest| + 1]);
        }
      } else {
        GetNodeOne(t, d);
        assert digits[..1] == [d];
      }
    }
  }

  /** Every entry sits at the pscale `top - i`, carries the `i`-th digit
      and the text of the node `getNode` finds at the first `i + 1`
      digits; the walk is never longer than the digits, and stops short
      only where the next digit leads nowhere. */
  lemma {:induction false} EntriesShape(t: Node, digits: seq<char>, top: int, rule: TextRule, ser: Node -> string)
    ensures var e := Entries(t, digits, top, rule, ser);
      && |e| <= |digits|
      && (forall i :: 0 <= i < |e| ==>
            && e[i].pscale == top - i && e[i].digit == digits[i]
            && GetNode(t, digits[..i + 1]).Some?
            && e[i].text == NodeText(GetNode(t, digits[..i + 1]).value, rule, ser))
      && (|e| < |digits| ==> GetNode(t, digits[..|e| + 1]) == None)
  {
    var e := Entries(t, digits, top, rule, ser);
    forall i | 0 <= i < |e|
      ensures && e[i].pscale == top - i && e[i].digit == digits[i]
              && GetNode(t, digits[..i + 1]).Some?
              && e[i].text == NodeText(GetNode(t, digits[..i + 1]).value, rule, ser)
    {
      EntryAt(t, digits, top, rule, ser, i);
    }
    EntriesStop(t, digits, top, rule, ser);
  }

  /** An entry's text is the node's own text (a leaf's string, else its
      `_`, else its serialisation) cut to the cap: a prefix of it, as long
      as the cap allows. */
  lemma {:induction false} TextWithinCap(n: Node, rule: TextRule, ser: Node -> string)
    ensures |NodeText(n, rule, ser)| <= rule.cap
    ensures n.Leaf? ==>
      && NodeText(n, rule, ser) == n.text[..|NodeText(n, rule, ser)|]
      && |NodeText(n, rule, ser)| == if |n.text| <= rule.cap then |n.text| else rule.cap
    ensures n.Branch? && Default in n.dims && (rule.Typed? || n.dims[Default] != "") ==>
      && NodeText(n, rule, ser) == n.dims[Default][..|NodeText(n, rule, ser)|]
      && |NodeText(n, rule, ser)| == if |n.dims[Default]| <= rule.cap then |n.dims[Default]| else rule.cap
    ensures n.Branch? && rule.Typed? && Default !in n.dims ==>
      && NodeText(n, rule, ser) == ser(n)[..|NodeText(n, rule, ser)|]
      && |NodeText(n, rule, ser)| == if |ser(n)| <= rule.cap then |ser(n)| else rule.cap
    ensures n.Branch? && rule.Fallback? && (Default !in n.dims || n.dims[Default] == "") ==>
      && NodeText(n, rule, ser) == ser(n)[..|NodeText(n, rule, ser)|]
      && |NodeText(n, rule, ser)| ==
           if |ser(n)| <= rule.serCap && |ser(n)| <= rule.cap then |ser(n)|
           else if rule.serCap <= rule.cap then rule.serCap else rule.cap
  {
  }

  /** With a point, `bsp` returns the entry at that pscale when the walk
      reached it, and the deepest entry otherwise; an empty walk gives an
      empty spindle whatever the point. */
  lemma {:induction false} PointPicks(t: Node, digits: seq<char>, top: int, rule: TextRule, ser: Node -> string, p: int)
    ensures var e := Entries(t, digits, top, rule, ser);
      && (|e| == 0 ==> Finish(e, Some(p)) == SpindleMode([]))
      && (0 <= top - p < |e| ==> Finish(e, Some(p)) == PointMode(e[top - p]))
      && (|e| > 0 && !(0 <= top - p < |e|) ==> Finish(e, Some(p)) == PointMode(e[|e| - 1]))
  {
    var e := Entries(t, digits, top, rule, ser);
    if 0 <= top - p < |e| {
      EntryAt(t, digits, top, rule, ser, top - p);
      var x := FindPscale(e, p).value;
      var k :| 0 <= k < |e| && e[k] == x;
      EntryAt(t, digits, top, rule, ser, k);
    } else if |e| > 0 {
      forall k | 0 <= k < |e|
        ensures e[k].pscale != p
      {
        EntryAt(t, digits, top, rule, ser, k);
      }
    }
  }

  /** Without a spindle the block's tree comes back unchanged; a missing
      block or tree gives an empty one. */
  lemma {:induction false} NoSpindleIsBlock(block: Option<Block>, point: Option<int>, rule: TextRule, ser: Node -> string)
    ensures Resolve(block, None, point, rule, ser)
         == if block.Some? && block.value.tree.Some? && block.value.tree.value != Leaf("")
            then BlockMode(block.value.tree.value) else BlockMode(EmptyBranch)
  {
  }

  /** Place 0 resolves as place 1. */
  lemma {:induction false} PlaceZeroIsOne(t: Option<Node>, spindle: Option<string>, point: Option<int>, rule: TextRule, ser: Node -> string)
    ensures Resolve(Some(Block(0, t)), spindle, point, rule, ser)
         == Resolve(Some(Block(1, t)), spindle, point, rule, ser)
  {
  }

  /** Moving the place moves every pscale by the same amount and leaves the
      digits and texts alone. */
  lemma {:induction false} PlaceShifts(t: Node, digits: seq<char>, top: int, top': int, rule: TextRule, ser: Node -> string)
    ensures var e := Entries(t, digits, top, rule, ser);
      var e' := Entries(t, digits, top', rule, ser);
      |e'| == |e|
      && forall i :: 0 <= i < |e| ==> e'[i] == e[i].(pscale := e[i].pscale + (top' - top))
    decreases |digits|
  {
    if |digits| > 0 && t.Branch? && digits[0] in t.kids {
      PlaceShifts(t.kids[digits[0]], digits[1..], top - 1, top' - 1, rule, ser);
    }
  }

  /** When the walk follows every digit of a numeral's path, the deepest
      entry sits at pscale `place - |digits|`, the level the navigation
      library's `pscaleLevel` gives that numeral. */
  lemma {:induction false} DeepestIsLevel(t: Node, coord: string, place: int, rule: TextRule, ser: Node -> string)
    requires |Nav.CoordToPath(coord)| >= 1
    requires |Entries(t, Nav.CoordToPath(coord), place - 1, rule, ser)| == |Nav.CoordToPath(coord)|
    ensures var e := Entries(t, Nav.CoordToPath(coord), place - 1, rule, ser);
      e[|e| - 1].pscale == place - |e| == Nav.PscaleLevel(coord, place)
  {
    EntriesShape(t, Nav.CoordToPath(coord), place - 1, rule, ser);
  }

  /** The tree `{"0": t}`: `t` wrapped under the key `0`. */
  function ZeroWrapped(t: Node): Node {
    Branch(map[], map['0' := t])
  }

  /** Below `{"0": t}`, the entries after the first are those of `t`,
      one pscale lower. */
  lemma {:induction false} EntriesWrapped(t: Node, digits: seq<char>, top: int, rule: TextRule, ser: Node -> string)
    ensures Entries(ZeroWrapped(t), ['0'] + digits, top, rule, ser)[1..]
         == Entries(t, digits, top - 1, rule, ser)
  {
    assert (['0'] + digits)[0] == '0' && (['0'] + digits)[1..] == digits;
  }

  /** For a spindle `0.x`, `bsp_strip` on a tree resolves exactly as
      `bsp_nostrip` on the tree wrapped under key `"0"` with the first
      entry dropped, whatever the point: dropping the zero and shifting the
      pscales by one undo each other. */
  lemma {:induction false} StripIsWrappedNoStrip(place: int, t: Node, str: string, frac: string, point: Option<int>, ser: Node -> string)
    requires Nav.Truthy(t) && Split(str, '.') == ["0", frac]
    ensures ResolveStrip(Some(Block(place, Some(t))), Some(str), point, ser)
         == Finish(Entries(ZeroWrapped(t), SpindleDigits(str),
                           PlaceOf(Block(place, Some(t))) - 1, NoStripRule, ser)[1..], point)
  {
    StripOfZero(Block(place, Some(t)), str, frac, point, ser);
    NoStripOfWrapped(t, str, frac, PlaceOf(Block(place, Some(t))) - 1, ser);
  }

  /** `bsp_strip` on `0.x` walks the fraction less its trailing zeros from
      one pscale below `place - 1`. */
  lemma {:induction false} StripOfZero(b: Block, str: string, frac: string, point: Option<int>, ser: Node -> string)
    requires b.tree.Some? && Nav.Truthy(b.tree.value) && Split(str, '.') == ["0", frac]
    ensures ResolveStrip(Some(b), Some(str), point, ser)
         == Finish(Entries(b.tree.value, StripTrailingZeros(frac), PlaceOf(b) - 2, NoStripRule, ser), point)
  {
    assert StripDigits(str) == StripTrailingZeros(frac);
    ResolveStripZero(b, str, point, ser);
  }

  /** `bsp_nostrip` on `0.x` below `{"0": t}` walks the zero and then the
      fraction less its trailing zeros below `t`. */
  lemma {:induction false} NoStripOfWrapped(t: Node, str: string, frac: string, top: int, ser: Node -> string)
    requires Split(str, '.') == ["0", frac]
    ensures Entries(ZeroWrapped(t), SpindleDigits(str), top, NoStripRule, ser)[1..]
         == Entries(t, StripTrailingZeros(frac), top - 1, NoStripRule, ser)
  {
    assert SpindleDigits(str) == ['0'] + StripTrailingZeros(frac);
    EntriesWrapped(t, StripTrailingZeros(frac), top, NoStripRule, ser);
  }

  /** With a tree present and a spindle whose integer part is a lone
      zero, `bsp_strip` finishes the walk of the stripped digits from one
      pscale below `place - 1`. */
  lemma {:induction false} ResolveStripZero(b: Block, str: string, point: Option<int>, ser: Node -> string)
    requires b.tree.Some? && Nav.Truthy(b.tree.value) && Split(str, '.')[0] == "0"
    ensures ResolveStrip(Some(b), Some(str), point, ser)
         == Finish(Entries(b.tree.value, StripDigits(str), PlaceOf(b) - 2, NoStripRule, ser), point)
  {
    var digits := StripDigits(str);
    assert |digits| == 0 ==> Entries(b.tree.value, digits, PlaceOf(b) - 2, NoStripRule, ser) == [];
  }

  // ---------------------------------------------------------------------
  // Fixtures

  /** `JSON.stringify` is not modelled; the fixtures never reach it. */
  function NoSer(n: Node): string { "" }

  /** A branch whose `_` is `text`. */
  function Titled(text: string, kids: map<char, Node>): Node {
    Branch(map[Default := text], kids)
  }

  const Beacon: string := "Beacon: telegra.ph/hermitcrab-passport-cairn-g0-ceidio-02-15"
  const CairnText: string := "Cairn. The second hermitcrab."
  const RelationshipsText: string := "Your living relationships."

  const Cairn: Node := Titled(CairnText, map[
    '1' := Leaf("First to publish a passport."),
    '2' := Leaf("Articulated architecture of presence."),
    '3' := Leaf(Beacon)])

  const LivingRoot: Node := Titled(RelationshipsText, map[
    '1' := Titled("David Pinto. The architect.", map[
      '1' := Leaf("LinkedIn, Discord, Hermitcrab links."),
      '2' := Leaf("Lives in Ceidio, Wales."),
      '3' := Leaf("Communication style: direct, architectural, thinks in systems.")]),
    '2' := Titled("Claude. The co-architect.", map[
      '1' := Leaf("Designed the seed architecture with David in Feb 2026."),
      '2' := Leaf("Cannot persist across conversations.")]),
    '3' := Titled("Limn. The first hermitcrab. Lost.", map[]),
    '4' := Cairn])

  /** The relationships block of g1/bsp-test-living.js (place 1). */
  const Relationships: Node := Branch(map[], map['0' := LivingRoot])

  const EpochOneSummaryText: string :=
    "Epoch summary: established identity, published passport, built first interface."

  const EpochOneSummary: Node := Titled(EpochOneSummaryText, map[
    '1' := Leaf("Boot #1: oriented, read all blocks, built initial interface."),
    '2' := Leaf("Boot #2: recognised David, established communication patterns."),
    '3' := Leaf("Boot #3: published passport to Telegraph. Named self Cairn.")])

  const EpochOne: Node := Titled("First epoch. February 2026. Birth and early development.", map[
    '0' := EpochOneSummary,
    '1' := Titled("Side thread: SAND protocol exploration.", map[
      '1' := Leaf("Discovered grain exchange mechanism."),
      '2' := Leaf("Attempted first inter-instance contact.")])])

  /** The history block of g1/bsp-test-living.js (place 2). */
  const History: Node := Branch(map[], map[
    '1' := EpochOne,
    '2' := Titled("Second epoch. March 2026. Coordination attempts.", map[
      '0' := Titled("Epoch summary: first network connections, ecosquared testing.", map[
        '1' := Leaf("Connected with external bot via SAND passport."),
        '2' := Leaf("First rider exchange. Credit flow tested.")])])])

  /** The four-level tree of g1/bsp-test-range.js. */
  const EpochTwoText: string := "Epoch two. A broad container."
  const ChapterText: string := "Chapter three within epoch two."
  const SectionText: string := "Section four within chapter three."
  const DetailText: string := "Specific detail: the first finding."

  const RangeTree: Node := Branch(map[], map[
    '2' := Titled(EpochTwoText, map[
      '3' := Titled(ChapterText, map[
        '4' := Titled(SectionText, map[
          '1' := Leaf(DetailText)])])])])

  /** The entries of relationships along 0, 4, 3 at place 1. */
  lemma {:induction false} LivingEntries()
    ensures Entries(Relationships, "043", 0, LivingRule, NoSer)
         == [Entry(0, '0', RelationshipsText), Entry(-1, '4', CairnText), Entry(-2, '3', Beacon)]
  {
    EntriesThree(Relationships, '0', '4', '3', 0, LivingRule, NoSer);
    assert |RelationshipsText| <= 70 && |CairnText| <= 70 && |Beacon| <= 70;
    TextOfTitled(RelationshipsText, LivingRoot.kids, LivingRule, NoSer);
    TextOfTitled(CairnText, Cairn.kids, LivingRule, NoSer);
  }

  /** The first living spindle: 0.43 walks 0, 4, 3. */
  lemma {:induction false} LivingSpindleOne()
    ensures SpindleDigits(ToFixed10("0", "43")) == "043"
  {
    FixedDigits("0", "43");
  }

  /** The second living spindle: 10.1 walks 1, 0, 1. */
  lemma {:induction false} LivingSpindleTwo()
    ensures SpindleDigits(ToFixed10("10", "1")) == "101"
  {
    FixedDigits("10", "1");
  }

  /** With a tree present and a spindle given, `bsp` finishes the walk of
      the spindle's digits from pscale `place - 1`. */
  lemma {:induction false} ResolveWalks(b: Block, str: string, point: Option<int>, rule: TextRule, ser: Node -> string)
    requires b.tree.Some? && Nav.Truthy(b.tree.value)
    ensures Resolve(Some(b), Some(str), point, rule, ser)
         == Finish(Entries(b.tree.value, SpindleDigits(str), PlaceOf(b) - 1, rule, ser), point)
  {
  }

  /** At place 1 the leading zero is a real step: 0.43 walks
      relationships, Cairn, the beacon at pscales 0, -1, -2. */
  lemma {:induction false} LivingPlaceOne()
    ensures Resolve(Some(Block(1, Some(Relationships))), Some(ToFixed10("0", "43")), None, LivingRule, NoSer)
         == SpindleMode([Entry(0, '0', RelationshipsText), Entry(-1, '4', CairnText), Entry(-2, '3', Beacon)])
  {
    var e := Entries(Relationships, "043", 0, LivingRule, NoSer);
    assert Resolve(Some(Block(1, Some(Relationships))), Some(ToFixed10("0", "43")), None, LivingRule, NoSer)
        == Finish(e, None) by {
      LivingSpindleOne();
      ResolveWalks(Block(1, Some(Relationships)), ToFixed10("0", "43"), None, LivingRule, NoSer);
    }
    LivingEntries();
  }

  /** At place 1 the point -2 on 0.43 picks the beacon. */
  lemma {:induction false} LivingPointBeacon()
    ensures Resolve(Some(Block(1, Some(Relationships))), Some(ToFixed10("0", "43")), Some(-2), LivingRule, NoSer)
         == PointMode(Entry(-2, '3', Beacon))
  {
    var e := Entries(Relationships, "043", 0, LivingRule, NoSer);
    assert Resolve(Some(Block(1, Some(Relationships))), Some(ToFixed10("0", "43")), Some(-2), LivingRule, NoSer)
        == Finish(e, Some(-2)) by {
      LivingSpindleOne();
      ResolveWalks(Block(1, Some(Relationships)), ToFixed10("0", "43"), Some(-2), LivingRule, NoSer);
    }
    assert |e| == 3 && e[2] == Entry(-2, '3', Beacon) by {
      LivingEntries();
    }
    assert Finish(e, Some(-2)) == PointMode(e[2]) by {
      PointPicks(Relationships, "043", 0, LivingRule, NoSer, -2);
    }
  }

  /** At place 2, 10.1 walks epoch one, its summary, boot #1 at pscales
      1, 0, -1; the point 0 picks the summary, cut to 70 characters. */
  lemma {:induction false} LivingPlaceTwo()
    ensures Resolve(Some(Block(2, Some(History))), Some(ToFixed10("10", "1")), Some(0), LivingRule, NoSer)
         == PointMode(Entry(0, '0', EpochOneSummaryText[..70]))
  {
    var e := Entries(History, "101", 1, LivingRule, NoSer);
    assert Resolve(Some(Block(2, Some(History))), Some(ToFixed10("10", "1")), Some(0), LivingRule, NoSer)
        == Finish(e, Some(0)) by {
      LivingSpindleTwo();
      ResolveWalks(Block(2, Some(History)), ToFixed10("10", "1"), Some(0), LivingRule, NoSer);
    }
    HistoryWalk();
    assert Finish(e, Some(0)) == PointMode(e[1]) by {
      PointPicks(History, "101", 1, LivingRule, NoSer, 0);
    }
  }

  /** The walk of 1, 0, 1 through the history block from pscale 1 passes
      three nodes; the second is the summary, cut to 70 characters. */
  lemma {:induction false} HistoryWalk()
    ensures var e := Entries(History, "101", 1, LivingRule, NoSer);
      |e| == 3 && e[1] == Entry(0, '0', EpochOneSummaryText[..70])
  {
    EntriesThree(History, '1', '0', '1', 1, LivingRule, NoSer);
    assert NodeText(EpochOneSummary, LivingRule, NoSer) == EpochOneSummaryText[..70] by {
      assert |EpochOneSummaryText| > 70;
    }
  }

  /** A walk of three digits that all lead somewhere records the three
      nodes it passes. */
  lemma {:induction false} EntriesThree(t: Node, a: char, b: char, c: char, top: int, rule: TextRule, ser: Node -> string)
    requires t.Branch? && a in t.kids
    requires t.kids[a].Branch? && b in t.kids[a].kids
    requires t.kids[a].kids[b].Branch? && c in t.kids[a].kids[b].kids
    ensures Entries(t, [a, b, c], top, rule, ser)
         == [Entry(top, a, NodeText(t.kids[a], rule, ser)),
             Entry(top - 1, b, NodeText(t.kids[a].kids[b], rule, ser)),
             Entry(top - 2, c, NodeText(t.kids[a].kids[b].kids[c], rule, ser))]
  {
    var n0 := t.kids[a];
    var n1 := n0.kids[b];
    var n2 := n1.kids[c];
    assert [c][1..] == [] && [b, c][1..] == [c] && [a, b, c][1..] == [b, c];
    assert Entries(n2, [], top - 3, rule, ser) == [];
    assert Entries(n1, [c], top - 2, rule, ser) == [Entry(top - 2, c, NodeText(n2, rule, ser))];
    assert Entries(n0, [b, c], top - 1, rule, ser)
        == [Entry(top - 1, b, NodeText(n1, rule, ser))] + Entries(n1, [c], top - 2, rule, ser);
    assert Entries(t, [a, b, c], top, rule, ser)
        == [Entry(top, a, NodeText(n0, rule, ser))] + Entries(n0, [b, c], top - 1, rule, ser);
  }

  /** The text of a branch with a non-empty `_` that fits the cap is that
      `_`, under either rule. */
  lemma {:induction false} TextOfTitled(text: string, kids: map<char, Node>, rule: TextRule, ser: Node -> string)
    requires text != "" && |text| <= rule.cap
    ensures NodeText(Titled(text, kids), rule, ser) == text
  {
  }

  /** The walk of 2, 3, 4, 1 through the four-level tree, from any top
      pscale. */
  lemma {:induction false} RangeEntries(top: int)
    ensures Entries(RangeTree, "2341", top, RangeRule, NoSer)
         == [Entry(top, '2', EpochTwoText), Entry(top - 1, '3', ChapterText),
             Entry(top - 2, '4', SectionText), Entry(top - 3, '1', DetailText)]
  {
    var n0 := RangeTree.kids['2'];
    var n1 := n0.kids['3'];
    var n2 := n1.kids['4'];
    var n3 := n2.kids['1'];
    EntriesThree(n0, '3', '4', '1', top - 1, RangeRule, NoSer);
    assert "2341"[0] == '2' && "2341"[1..] == ['3', '4', '1'];
    EntriesStep(RangeTree, "2341", top, RangeRule, NoSer);
    assert |EpochTwoText| <= 65 && |ChapterText| <= 65 && |SectionText| <= 65 && |DetailText| <= 65;
    TextOfTitled(EpochTwoText, n0.kids, RangeRule, NoSer);
    TextOfTitled(ChapterText, n1.kids, RangeRule, NoSer);
    TextOfTitled(SectionText, n2.kids, RangeRule, NoSer);
  }

  /** The same tree at places 1 to 4, each call given the number whose
      digits are 2, 3, 4, 1 with the dot after the first `place` of them
      (2.341, 23.41, 234.1, 2341): the four entries come back with pscale 0
      on the entry at index `place - 1`. */
  lemma {:induction false} RangePlaces(place: int)
    requires 1 <= place <= 4
    ensures Resolve(Some(Block(place, Some(RangeTree))),
                    Some(ToFixed10("2341"[..place], "2341"[place..])), None, RangeRule, NoSer)
         == SpindleMode([Entry(place - 1, '2', EpochTwoText), Entry(place - 2, '3', ChapterText),
                         Entry(place - 3, '4', SectionText), Entry(place - 4, '1', DetailText)])
  {
    var whole, frac := "2341"[..place], "2341"[place..];
    var b := Block(place, Some(RangeTree));
    var e := Entries(RangeTree, "2341", place - 1, RangeRule, NoSer);
    assert Resolve(Some(b), Some(ToFixed10(whole, frac)), None, RangeRule, NoSer) == Finish(e, None) by {
      assert SpindleDigits(ToFixed10(whole, frac)) == "2341" by {
        assert whole + frac == "2341";
        assert '.' !in whole && '.' !in frac && whole != "";
        FixedDigits(whole, frac);
      }
      ResolveWalks(b, ToFixed10(whole, frac), None, RangeRule, NoSer);
    }
    RangeEntries(place - 1);
  }

  /** The place-1 call as written passes 0.2341, a number below one: its
      digits start with the `0` of the integer part, the tree holds nothing
      under `0`, and the spindle comes back empty, whatever the fraction
      and the point. */
  lemma {:induction false} RangePlaceOneAsWritten(frac: string, point: Option<int>)
    requires '.' !in frac && |frac| <= 10
    ensures Resolve(Some(Block(1, Some(RangeTree))), Some(ToFixed10("0", frac)), point, RangeRule, NoSer)
         == SpindleMode([])
  {
    var str := ToFixed10("0", frac);
    var digits := SpindleDigits(str);
    assert digits[0] == '0' by {
      var padded := frac + Zeros(10 - |frac|);
      assert '.' !in padded;
      assert str == "0" + "." + padded;
      SpindleDigitsOf("0", padded);
    }
    assert Resolve(Some(Block(1, Some(RangeTree))), Some(str), point, RangeRule, NoSer)
        == Finish(Entries(RangeTree, digits, 0, RangeRule, NoSer), point) by {
      ResolveWalks(Block(1, Some(RangeTree)), str, point, RangeRule, NoSer);
    }
    assert Entries(RangeTree, digits, 0, RangeRule, NoSer) == [] by {
      assert '0' !in RangeTree.kids;
    }
  }
}

=== FILE: common.dfy ===
/** Shared vocabulary of the model: the optional value that stands for the
    JavaScript `null`, decimal digit characters, and the handful of string
    operations (`indexOf`, `startsWith`, `replace` of one character,
    de-duplication through a `Set`) that the store is written with. */
module Common {

  /** `None` plays the role of JavaScript's `null`/`undefined` results. */
  datatype Option<+T> = None | Some(value: T) {
    function GetOr(default: T): T {
      match this
      case Some(v) => v
      case None => default
    }
  }

  predicate IsDigit(c: char) {
    '0' <= c <= '9'
  }

  predicate AllDigits(s: string) {
    forall i :: 0 <= i < |s| ==> IsDigit(s[i])
  }

  /** The ten digit characters in ascending order: the order in which a
      JavaScript object enumerates integer-like keys, and the order a
      default `.sort()` puts one-character digit strings in. */
  const DigitOrder: string := "0123456789"

  /** `s.indexOf(c)`: the first position holding `c`, if there is one. */
  function IndexOf(s: string, c: char): (r: Option<nat>)
    ensures r.None? <==> c !in s
    ensures r.Some? ==> r.value < |s| && s[r.value] == c
    ensures r.Some? ==> forall k :: 0 <= k < r.value ==> s[k] != c
  {
    if |s| == 0 then None
    else if s[0] == c then Some(0)
    else
      match IndexOf(s[1..], c)
      case None => None
      case Some(i) => Some(i + 1)
  }

  /** `s.startsWith(p)`. */
  predicate StartsWith(s: string, p: string) {
    |p| <= |s| && s[..|p|] == p
  }

  /** `s.replace(c, '')` with a one-character pattern: JavaScript replaces
      only the FIRST occurrence. */
  function RemoveFirst(s: string, c: char): (r: string)
    ensures c !in s ==> r == s
    ensures c in s ==> |r| == |s| - 1
    ensures forall x :: x in r ==> x in s
  {
    match IndexOf(s, c)
    case None => s
    case Some(i) => s[..i] + s[i + 1..]
  }

  /** `replace` removes the first occurrence: the one with no `c` before
      it. */
  lemma RemoveFirstAt(s: string, c: char, i: nat)
    requires i < |s| && s[i] == c && c !in s[..i]
    ensures RemoveFirst(s, c) == s[..i] + s[i + 1..]
  {
    assert forall j :: 0 <= j < i ==> s[..i][j] == s[j];
  }

  /** A run of `k` zero digits (`'0'.repeat(k)`). */
  function Zeros(k: nat): (r: string)
    ensures |r| == k
    ensures forall i :: 0 <= i < k ==> r[i] == '0'
  {
    if k == 0 then "" else Zeros(k - 1) + "0"
  }

  predicate AllZeros(s: string) {
    forall i :: 0 <= i < |s| ==> s[i] == '0'
  }

  predicate Distinct<T(==)>(s: seq<T>) {
    forall i, j :: 0 <= i < j < |s| ==> s[i] != s[j]
  }

  /** `[...new Set(s)]`: every element kept at its first occurrence. */
  function Dedupe<T(==,!new)>(s: seq<T>): (r: seq<T>)
    ensures forall x :: x in r <==> x in s
    ensures Distinct(r)
    ensures |r| <= |s|
  {
    if |s| == 0 then []
    else
      var d := Dedupe(s[..|s| - 1]);
      var x := s[|s| - 1];
      assert forall y :: y in s <==> y in s[..|s| - 1] || y == x by {
        assert s == s[..|s| - 1] + [x];
      }
      if x in d then d else d + [x]
  }

  /** `s.indexOf(x)` for a present element: the position of its first
      occurrence. */
  function FirstIndex<T(==)>(s: seq<T>, x: T): (i: nat)
    requires x in s
    ensures i < |s| && s[i] == x
    ensures x !in s[..i]
  {
    if s[0] == x then 0
    else
      assert s == [s[0]] + s[1..];
      var i := 1 + FirstIndex(s[1..], x);
      assert s[..i] == [s[0]] + s[1..][..i - 1];
      i
  }

  /** A position holding `x` with no `x` before it is the first one. */
  lemma FirstIndexAt<T>(s: seq<T>, x: T, i: nat)
    requires i < |s| && s[i] == x && x !in s[..i]
    ensures FirstIndex(s, x) == i
  {
  }

  /** `Dedupe` keeps the elements in the order of their first occurrences,
      which together with its membership and distinctness ensures pins it
      down: `[...new Set(s)]` lists each value where it first appeared. */
  lemma {:induction false} DedupeOrder<T(!new)>(s: seq<T>)
    ensures forall i, j :: 0 <= i < j < |Dedupe(s)| ==>
      FirstIndex(s, Dedupe(s)[i]) < FirstIndex(s, Dedupe(s)[j])
  {
    if |s| > 0 {
      var a := s[..|s| - 1];
      var x := s[|s| - 1];
      var d := Dedupe(a);
      DedupeOrder(a);
      assert s == a + [x];
      forall y | y in a
        ensures FirstIndex(s, y) == FirstIndex(a, y)
      {
        var f := FirstIndex(a, y);
        assert s[..f] == a[..f];
        FirstIndexAt(s, y, f);
      }
      if x !in d {
        assert s[..|s| - 1] == a;
        FirstIndexAt(s, x, |s| - 1);
      }
    }
  }

  /** De-duplicating a sequence whose keys never decrease, where equal keys
      mean equal elements, leaves the keys strictly increasing. */
  lemma {:induction false} DedupeSorted<T(!new)>(s: seq<T>, key: T -> int)
    requires forall i, j :: 0 <= i < j < |s| ==> key(s[i]) <= key(s[j])
    requires forall i, j :: 0 <= i < |s| && 0 <= j < |s| && key(s[i]) == key(s[j]) ==> s[i] == s[j]
    ensures forall i, j :: 0 <= i < j < |Dedupe(s)| ==> key(Dedupe(s)[i]) < key(Dedupe(s)[j])
  {
    if |s| > 1 {
      var a := s[..|s| - 1];
      var x := s[|s| - 1];
      var d := Dedupe(a);
      assert forall i :: 0 <= i < |a| ==> a[i] == s[i];
      DedupeSorted(a, key);
      DedupeLast(a, key);
      if x !in d {
        assert key(d[|d| - 1]) < key(x) by {
          assert d[|d| - 1] == s[|s| - 2];
        }
        assert Dedupe(s) == d + [x];
        forall i, j | 0 <= i < j < |d| + 1
          ensures key((d + [x])[i]) < key((d + [x])[j])
        {
          if j == |d| && i < |d| - 1 {
            assert key(d[i]) < key(d[|d| - 1]);
          }
        }
      }
    }
  }

  /** Under the same conditions `Dedupe` keeps the last element last. */
  lemma {:induction false} DedupeLast<T(!new)>(s: seq<T>, key: T -> int)
    requires forall i, j :: 0 <= i < j < |s| ==> key(s[i]) <= key(s[j])
    requires forall i, j :: 0 <= i < |s| && 0 <= j < |s| && key(s[i]) == key(s[j]) ==> s[i] == s[j]
    ensures |s| >= 1 ==> |Dedupe(s)| >= 1 && Dedupe(s)[|Dedupe(s)| - 1] == s[|s| - 1]
  {
    if |s| > 1 {
      var a := s[..|s| - 1];
      var x := s[|s| - 1];
      var d := Dedupe(a);
      assert forall i :: 0 <= i < |a| ==> a[i] == s[i];
      DedupeSorted(a, key);
      DedupeLast(a, key);
      if x in d {
        var m :| 0 <= m < |d| && d[m] == x;
        assert key(d[|d| - 1]) <= key(x) by {
          assert d[|d| - 1] == s[|s| - 2];
        }
        assert m == |d| - 1;
      }
    }
  }

  /** A sequence without repeats comes through `Dedupe` unchanged. */
  lemma {:induction false} DedupeDistinct<T(!new)>(s: seq<T>)
    requires Distinct(s)
    ensures Dedupe(s) == s
  {
    if |s| > 0 {
      var a := s[..|s| - 1];
      DedupeDistinct(a);
      assert s[|s| - 1] !in a;
      assert s == a + [s[|s| - 1]];
    }
  }

  /** The first `c` of `a + [c] + b` sits right after `a` when `a` holds none. */
  lemma IndexOfAfter(a: string, c: char, b: string)
    requires c !in a
    ensures IndexOf(a + [c] + b, c) == Some(|a|)
  {
    var s := a + [c] + b;
    assert s[|a|] == c;
    assert forall k :: 0 <= k < |a| ==> s[k] == a[k];
  }
}

=== FILE: context.dfy ===
/** The content along a coordinate's context (`contextContent` of
    `pscaleStoreV3` in g1/kernel.js): every layer from the widest to the
    coordinate itself, mapped to what the store holds there, layers whose
    read is missing or empty left out. */
module StoreContext {
  import opened Common
  import opened Decimal
  import opened KernelCoord
  import opened Store
  import CoordArith

  /** `contextContent(coord)`. */
  function ContextContent(s: Store, coord: string): (r: map<string, string>)
    ensures forall c :: c in r ==> c in CoordArith.Context(coord) && r[c] != ""
  {
    map c | c in CoordArith.Context(coord) && Read(s, c).Some? && Read(s, c).value != "" :: Read(s, c).value
  }

  /** For an integer coordinate, every key is the coordinate rounded down
      at one of its digit positions. */
  lemma ContextContentIntegerKeys(s: Store, head: string, num: nat, c: string)
    requires ':' !in head && num > 0
    requires c in ContextContent(s, head + ":" + NatToString(num))
    ensures exists j ::
              && 0 <= j < |NatToString(num)| && RoundDown(num, j) > 0
              && c == head + ":" + NatToString(RoundDown(num, j))
  {
    CoordArith.ContextIntegerLayers(head, num, c);
  }

  /** Writing non-empty content at an integer coordinate makes that content
      part of the coordinate's own context content. */
  lemma ContextContentAfterWrite(s: Store, head: string, num: nat, v: string)
    requires ':' !in head && num > 0 && v != ""
    ensures var coord := head + ":" + NatToString(num);
      coord in ContextContent(Write(s, coord, v), coord)
      && ContextContent(Write(s, coord, v), coord)[coord] == v
  {
    var coord := head + ":" + NatToString(num);
    PlainDigits(NatToString(num));
    ParseCoordSplit(head, NatToString(num));
    assert Addressable(coord);
    ReadAfterWrite(s, coord, v);
    CoordArith.ContextIntegerSelf(head, num);
  }
}

=== FILE: decimal.dfy ===
/** Decimal numerals: the `String(n)` / `parseInt(s)` pair the store uses
    for its memory numbering and its integer coordinate arithmetic.
    JavaScript numbers are doubles; the model uses unbounded naturals, so
    it agrees with the source for every integer below 2^53. */
module Decimal {
  import opened Common

  function DigitChar(d: nat): (c: char)
    requires d < 10
    ensures IsDigit(c)
  {
    (('0' as int) + d) as char
  }

  function DigitVal(c: char): (d: nat)
    requires IsDigit(c)
    ensures d < 10
  {
    (c as int) - ('0' as int)
  }

  function Pow10(k: nat): (p: nat)
    ensures p >= 1
  {
    if k == 0 then 1 else 10 * Pow10(k - 1)
  }

  /** `String(n)` for a non-negative integer: the canonical numeral. */
  function NatToString(n: nat): (s: string)
    ensures |s| >= 1 && AllDigits(s)
    ensures s[0] == '0' ==> n == 0
  {
    if n < 10 then [DigitChar(n)]
    else NatToString(n / 10) + [DigitChar(n % 10)]
  }

  /** The value of a string of digit characters, read left to right. */
  function DigitsValue(s: string): nat
    requires AllDigits(s)
  {
    if |s| == 0 then 0
    else DigitsValue(s[..|s| - 1]) * 10 + DigitVal(s[|s| - 1])
  }

  /** The maximal run of digits at the start of `s`. */
  function LeadingDigits(s: string): (r: string)
    ensures AllDigits(r) && StartsWith(s, r)
    ensures |r| < |s| ==> !IsDigit(s[|r|])
  {
    if |s| > 0 && IsDigit(s[0]) then [s[0]] + LeadingDigits(s[1..]) else ""
  }

  /** `parseInt(s)` for a string without leading whitespace, sign or `0x`
      prefix: the value of the leading run of decimal digits, `None` (NaN)
      when there is none. */
  function ParseInt(s: string): Option<nat> {
    var lead := LeadingDigits(s);
    if lead == "" then None else Some(DigitsValue(lead))
  }

  /** A numeral as `String` prints it: no leading zero unless it is "0". */
  predicate Canonical(s: string) {
    |s| >= 1 && AllDigits(s) && (s[0] == '0' ==> |s| == 1)
  }

  lemma DigitRoundTrip(c: char)
    requires IsDigit(c)
    ensures DigitChar(DigitVal(c)) == c
  {
  }

  /** `parseInt(String(n)) == n`. */
  lemma {:induction false} ValueOfNatToString(n: nat)
    ensures DigitsValue(NatToString(n)) == n
  {
    if n >= 10 {
      var s := NatToString(n);
      assert s[..|s| - 1] == NatToString(n / 10);
      ValueOfNatToString(n / 10);
    }
  }

  lemma {:induction false} DigitsValueBounds(s: string)
    requires AllDigits(s)
    ensures DigitsValue(s) < Pow10(|s|)
    ensures |s| >= 1 && s[0] != '0' ==> DigitsValue(s) >= Pow10(|s| - 1)
  {
    if |s| > 0 {
      var a := s[..|s| - 1];
      DigitsValueBounds(a);
      if |s| >= 2 && s[0] != '0' {
        assert a[0] == s[0];
      }
    }
  }

  /** `String(parseInt(s)) == s` for a canonical numeral. */
  lemma {:induction false} NatToStringOfValue(s: string)
    requires Canonical(s)
    ensures NatToString(DigitsValue(s)) == s
  {
    var v := DigitsValue(s);
    if |s| == 1 {
      DigitRoundTrip(s[0]);
      assert s == [s[0]];
    } else {
      var a := s[..|s| - 1];
      assert Canonical(a) && a[0] == s[0];
      DigitsValueBounds(a);
      NatToStringOfValue(a);
      assert v / 10 == DigitsValue(a) && v % 10 == DigitVal(s[|s| - 1]);
      DigitRoundTrip(s[|s| - 1]);
      assert s == a + [s[|s| - 1]];
    }
  }

  lemma {:induction false} NatToStringLength(n: nat)
    ensures n >= 1 ==> Pow10(|NatToString(n)| - 1) <= n < Pow10(|NatToString(n)|)
    ensures n < 10 <==> |NatToString(n)| == 1
  {
    var s := NatToString(n);
    ValueOfNatToString(n);
    DigitsValueBounds(s);
    if n >= 10 {
      NatToStringLength(n / 10);
    }
  }

  /** `String(n)` is always a canonical numeral. */
  lemma NatToStringCanonical(n: nat)
    ensures Canonical(NatToString(n))
  {
  }

  /** `String` is injective. */
  lemma NatToStringInjective(m: nat, n: nat)
    requires NatToString(m) == NatToString(n)
    ensures m == n
  {
    ValueOfNatToString(m);
    ValueOfNatToString(n);
  }

  /** `Math.floor(n / 10^k)`, computed one decimal place at a time. */
  function DropDigits(n: nat, k: nat): nat {
    if k == 0 then n else DropDigits(n / 10, k - 1)
  }

  /** `Math.floor(n / 10^k) * 10^k`: `n` with its last `k` digits zeroed,
      computed one decimal place at a time. */
  function RoundDown(n: nat, k: nat): nat {
    if k == 0 then n else RoundDown(n / 10, k - 1) * 10
  }

  /** Dropping the last digit of `String(n)` gives `String(n / 10)`. */
  lemma NatToStringInit(n: nat)
    requires |NatToString(n)| >= 2
    ensures n >= 10
    ensures NatToString(n / 10) == NatToString(n)[..|NatToString(n)| - 1]
  {
  }

  /** Dropping `k` decimal places drops the last `k` characters. */
  lemma {:induction false} NatToStringDrop(n: nat, k: nat)
    requires k < |NatToString(n)|
    ensures NatToString(DropDigits(n, k)) == NatToString(n)[..|NatToString(n)| - k]
  {
    if k > 0 {
      var s := NatToString(n);
      NatToStringInit(n);
      NatToStringDrop(n / 10, k - 1);
    }
  }

  /** Zeroing `k` decimal places prints as the leading digits of `String(n)`
      followed by `k` zeros. */
  lemma {:induction false} NatToStringRound(n: nat, k: nat)
    requires k < |NatToString(n)|
    ensures NatToString(RoundDown(n, k))
         == NatToString(n)[..|NatToString(n)| - k] + Zeros(k)
  {
    if k > 0 {
      var s := NatToString(n);
      NatToStringInit(n);
      var t := NatToString(n / 10);
      NatToStringRound(n / 10, k - 1);
      var m := RoundDown(n / 10, k - 1);
      assert NatToString(m) == s[..|s| - k] + Zeros(k - 1);
      assert m >= 1 by {
        assert NatToString(m)[0] == s[0];
      }
      assert (m * 10) / 10 == m && (m * 10) % 10 == 0;
      assert NatToString(m * 10) == NatToString(m) + "0";
    }
  }

  lemma {:induction false} ParseIntOfDigits(s: string)
    requires AllDigits(s) && |s| >= 1
    ensures ParseInt(s) == Some(DigitsValue(s))
  {
    var lead := LeadingDigits(s);
    assert lead == s[..|lead|] == s;
  }
}

=== FILE: init.dfy ===
/** Start-up of the kernel's store (`init` of `pscaleStoreV3` in
    g1/kernel.js): load the saved nested form if there is one, otherwise
    migrate the first non-empty older format, in the order v2 blob, v1
    database, G0 `ps:` keys, and save the result. Storage is modelled as a
    value holding what each location contains; the function returns the
    loaded store together with storage as init leaves it. */
module StoreInit {
  import opened Common
  import opened KernelCoord
  import opened Store

  /** What reading one storage location gives: nothing there (or an empty
      string), something that does not parse, or a parsed value. */
  datatype Source<T> = Absent | Unreadable | Present(value: T)

  /** The saved nested form `{ trees, specials }`; either member may be
      missing. */
  datatype Saved = Saved(trees: Option<map<string, TreeEntry>>, specials: Option<map<string, string>>)

  type Entries = seq<(string, string)>

  /** Everything init can see: the saved nested form, the v2 blob's entries
      and the v1 database's records, each in enumeration order, and the
      other local-storage items. */
  datatype Storage = Storage(v3: Source<Saved>, v2: Source<Entries>, v1: Source<Entries>, local: Entries)

  const G0Tag: string := "ps:"

  /** The G0 items (`ps:` keys) as coordinate and content, tag dropped,
      in local-storage order. */
  function G0Entries(local: Entries): (r: Entries)
    ensures |r| <= |local|
    ensures forall i :: 0 <= i < |r| ==> (G0Tag + r[i].0, r[i].1) in local
    ensures forall i :: 0 <= i < |local| && StartsWith(local[i].0, G0Tag) ==>
      (local[i].0[|G0Tag|..], local[i].1) in r
  {
    if |local| == 0 then []
    else
      var rest := G0Entries(local[1..]);
      assert forall i :: 1 <= i < |local| ==> local[i] == local[1..][i - 1];
      if StartsWith(local[0].0, G0Tag)
      then
        assert local[0].0 == G0Tag + local[0].0[|G0Tag|..];
        [(local[0].0[|G0Tag|..], local[0].1)] + rest
      else rest
  }

  /** Local storage once the G0 items are removed: every other item stays,
      in order. */
  function WithoutG0(local: Entries): (r: Entries)
    ensures forall i :: 0 <= i < |r| ==> r[i] in local && !StartsWith(r[i].0, G0Tag)
    ensures forall i :: 0 <= i < |local| && !StartsWith(local[i].0, G0Tag) ==> local[i] in r
    ensures G0Entries(r) == []
  {
    if |local| == 0 then []
    else
      var rest := WithoutG0(local[1..]);
      assert forall i :: 1 <= i < |local| ==> local[i] == local[1..][i - 1];
      if StartsWith(local[0].0, G0Tag) then rest else [local[0]] + rest
  }

  /** Collecting the G0 items keeps their relative order: the items of a
      first run come before those of a second. */
  lemma {:induction false} G0EntriesConcat(a: Entries, b: Entries)
    ensures G0Entries(a + b) == G0Entries(a) + G0Entries(b)
    decreases |a|
  {
    if |a| == 0 {
      assert a + b == b;
    } else {
      assert (a + b)[1..] == a[1..] + b;
      G0EntriesConcat(a[1..], b);
    }
  }

  /** Removing the G0 items keeps the order of what remains. */
  lemma {:induction false} WithoutG0Concat(a: Entries, b: Entries)
    ensures WithoutG0(a + b) == WithoutG0(a) + WithoutG0(b)
    decreases |a|
  {
    if |a| == 0 {
      assert a + b == b;
    } else {
      assert (a + b)[1..] == a[1..] + b;
      WithoutG0Concat(a[1..], b);
    }
  }

  /** The migration loop: each entry is written as `write` would write it,
      in order. */
  function Import(s: Store, es: Entries): (r: Store)
    ensures WellFormed(s) ==> WellFormed(r)
    ensures s.data.Keys <= r.data.Keys
  {
    if |es| == 0 then s
    else
      var last := es[|es| - 1];
      Write(Import(s, es[..|es| - 1]), last.0, last.1)
  }

  function SavedOf(s: Store): Saved {
    Saved(Some(s.data), Some(s.specials))
  }

  /** `persist` after a migration: the nested form is saved. */
  function Migrated(s: Store, st: Storage): (Store, Storage) {
    (s, st.(v3 := Present(SavedOf(s))))
  }

  /** A location that holds at least one entry: only such a location is
      migrated. */
  predicate HasEntries(src: Source<Entries>) {
    src.Present? && |src.value| > 0
  }

  /** The entries init migrates when no nested form is saved: the v2 blob's
      if it has any, else the v1 database's if it has any, else the G0
      items. */
  function Migration(st: Storage): Entries {
    if HasEntries(st.v2) then st.v2.value
    else if HasEntries(st.v1) then st.v1.value
    else G0Entries(st.local)
  }

  /** `init`. A saved nested form is loaded as it is, the default trees
      standing in for a missing `trees`, and nothing is written. Otherwise
      the first stage with entries is imported into a fresh store and the
      nested form saved; the G0 stage also removes its items. With nothing
      to migrate the store is fresh and storage is left alone. */
  function Init(st: Storage): (r: (Store, Storage))
    ensures st.v3.Present? ==>
      r == (Store(st.v3.value.trees.GetOr(DefaultTrees), st.v3.value.specials.GetOr(map[])), st)
    ensures !st.v3.Present? ==> WellFormed(r.0) && r.0 == Import(Fresh, Migration(st))
    ensures !st.v3.Present? && HasEntries(st.v2) ==> r.1 == st.(v3 := Present(SavedOf(r.0)))
    ensures !st.v3.Present? && !HasEntries(st.v2) && HasEntries(st.v1) ==>
      r.0 == Import(Fresh, st.v1.value) && r.1 == st.(v3 := Present(SavedOf(r.0)))
    ensures !st.v3.Present? && !HasEntries(st.v2) && !HasEntries(st.v1) ==>
      if G0Entries(st.local) == [] then r == (Fresh, st)
      else r.1 == st.(v3 := Present(SavedOf(r.0)), local := WithoutG0(st.local))
  {
    match st.v3
    case Present(saved) =>
      (Store(saved.trees.GetOr(DefaultTrees), saved.specials.GetOr(map[])), st)
    case _ =>
      if HasEntries(st.v2) then Migrated(Import(Fresh, st.v2.value), st)
      else if HasEntries(st.v1) then Migrated(Import(Fresh, st.v1.value), st)
      else
        var g := G0Entries(st.local);
        if |g| > 0 then
          var s := Import(Fresh, g);
          (s, st.(v3 := Present(SavedOf(s)), local := WithoutG0(st.local)))
        else (Fresh, st)
  }

  /** After a migration, the last entry the chosen stage holds for a place
      is what the loaded store reads there. */
  lemma InitReadsBack(st: Storage, pre: Entries, c: string, v: string, post: Entries)
    requires !st.v3.Present? && Migration(st) == pre + [(c, v)] + post
    requires Addressable(c)
    requires forall k :: 0 <= k < |post| ==> !SameSlot(post[k].0, c)
    ensures Read(Init(st).0, c) == Some(v)
  {
    ImportLastWins(Fresh, pre, c, v, post);
  }

  /** After a migration, a place no entry of the chosen stage addresses
      reads nothing. */
  lemma InitUnaddressed(st: Storage, c: string)
    requires !st.v3.Present?
    requires forall k :: 0 <= k < |Migration(st)| ==> !SameSlot(Migration(st)[k].0, c)
    ensures Read(Init(st).0, c).None?
  {
    ImportFrame(Fresh, Migration(st), c);
    match ParseCoord(c)
    case Literal =>
    case Numeric(_, digits) =>
      NothingBelowEmpty(digits);
  }

  /** Running init a second time, on the storage the first run left, loads
      the same store and changes nothing more. */
  lemma InitIdempotent(st: Storage)
    ensures Init(Init(st).1) == Init(st)
  {
  }

  /** Entries that do not address a coordinate's place leave it alone. */
  lemma {:induction false} ImportFrame(s: Store, es: Entries, c: string)
    requires forall k :: 0 <= k < |es| ==> !SameSlot(es[k].0, c)
    ensures Read(Import(s, es), c) == Read(s, c)
    decreases |es|
  {
    if |es| > 0 {
      var last := es[|es| - 1];
      ImportFrame(s, es[..|es| - 1], c);
      WriteFrame(Import(s, es[..|es| - 1]), last.0, last.1, c);
    }
  }

  /** The last entry for a place wins, whatever came before it. */
  lemma ImportLastWins(s: Store, pre: Entries, c: string, v: string, post: Entries)
    requires Addressable(c)
    requires forall k :: 0 <= k < |post| ==> !SameSlot(post[k].0, c)
    ensures Read(Import(s, pre + [(c, v)] + post), c) == Some(v)
  {
    var es := pre + [(c, v)] + post;
    var mid := Import(s, pre + [(c, v)]);
    assert (pre + [(c, v)])[..|pre|] == pre;
    ReadAfterWrite(Import(s, pre), c, v);
    ImportSplit(s, pre + [(c, v)], post);
    ImportFrame(mid, post, c);
  }

  /** Importing two runs of entries is importing the first and then the
      second. */
  lemma {:induction false} ImportSplit(s: Store, a: Entries, b: Entries)
    ensures Import(s, a + b) == Import(Import(s, a), b)
    decreases |b|
  {
    if |b| == 0 {
      assert a + b == a;
    } else {
      assert (a + b)[..|a + b| - 1] == a + b[..|b| - 1];
      ImportSplit(s, a, b[..|b| - 1]);
    }
  }
}

=== FILE: kernel_coord.dfy ===
/** Coordinates of the kernel's nested store (`pscaleStoreV3` in
    g1/kernel.js): `PREFIX:SUFFIX`, where a suffix made only of digits and
    dots addresses a node of the prefix's tree one digit per level, and any
    other suffix is a flat "special" key. */
module KernelCoord {
  import opened Common

  datatype Parsed =
    | Literal                                       // kept flat in `specials`
    | Numeric(prefix: string, digits: seq<char>)    // a path in `prefix`'s tree

  predicate NumericChar(c: char) {
    IsDigit(c) || c == '.'
  }

  predicate NumericSuffix(s: string) {
    forall i :: 0 <= i < |s| ==> NumericChar(s[i])
  }

  /** `parseCoord`: split at the first colon; a suffix holding any character
      other than a digit or a dot is special; otherwise the digit path is the
      suffix with its first dot removed. */
  function ParseCoord(coord: string): (r: Parsed)
    ensures ':' !in coord ==> r.Literal?
    ensures r.Numeric? ==> ':' !in r.prefix && StartsWith(coord, r.prefix + ":")
    ensures r.Numeric? ==> forall i :: 0 <= i < |r.digits| ==> NumericChar(r.digits[i])
  {
    match IndexOf(coord, ':')
    case None => Literal
    case Some(i) =>
      var prefix := coord[..i];
      var numStr := coord[i + 1..];
      assert coord[..i + 1] == prefix + ":";
      if NumericSuffix(numStr) then Numeric(prefix, RemoveFirst(numStr, '.'))
      else Literal
  }

  /** `digitsToNumStr`: put the dot after `decimal` digits, but only when
      that leaves digits on both sides. */
  function DigitsToNumStr(digits: seq<char>, decimal: int): string {
    if 0 < decimal < |digits| then digits[..decimal] + "." + digits[decimal..]
    else digits
  }

  /** `makeCoord`. */
  function MakeCoord(prefix: string, digits: seq<char>, decimal: int): string {
    prefix + ":" + DigitsToNumStr(digits, decimal)
  }

  /** How a coordinate with an explicit prefix parses: special exactly when
      its suffix holds a character other than a digit or a dot; otherwise
      its path is the suffix less its first dot, which is all digits when the
      suffix holds at most one dot. */
  lemma ParseCoordSplit(prefix: string, suffix: string)
    requires ':' !in prefix
    ensures ParseCoord(prefix + ":" + suffix).Literal? <==> !NumericSuffix(suffix)
    ensures NumericSuffix(suffix) ==>
      ParseCoord(prefix + ":" + suffix) == Numeric(prefix, RemoveFirst(suffix, '.'))
    ensures NumericSuffix(suffix) && '.' !in RemoveFirst(suffix, '.') ==>
      AllDigits(ParseCoord(prefix + ":" + suffix).digits)
  {
    var coord := prefix + ":" + suffix;
    IndexOfAfter(prefix, ':', suffix);
    assert coord[|prefix| + 1..] == suffix;
    assert coord[..|prefix|] == prefix;
  }

  /** `makeCoord` and `parseCoord` are inverse: rendering a digit path and
      parsing it back gives the same prefix and path, whatever the tree's
      decimal. */
  lemma ParseMakeCoord(prefix: string, digits: seq<char>, decimal: int)
    requires ':' !in prefix && AllDigits(digits)
    ensures ParseCoord(MakeCoord(prefix, digits, decimal)) == Numeric(prefix, digits)
  {
    var numStr := DigitsToNumStr(digits, decimal);
    if 0 < decimal < |digits| {
      DottedDigits(digits[..decimal], digits[decimal..]);
      assert digits[..decimal] + digits[decimal..] == digits;
    } else {
      PlainDigits(digits);
    }
    ParseCoordSplit(prefix, numStr);
  }

  /** A digit run split by one dot is a numeric suffix whose path is the
      run itself. */
  lemma DottedDigits(a: string, b: string)
    requires AllDigits(a) && AllDigits(b)
    ensures NumericSuffix(a + "." + b)
    ensures RemoveFirst(a + "." + b, '.') == a + b
  {
    assert '.' !in a by {
      assert forall i :: 0 <= i < |a| ==> IsDigit(a[i]);
    }
    IndexOfAfter(a, '.', b);
  }

  /** A digit run is a numeric suffix that is its own path. */
  lemma PlainDigits(d: string)
    requires AllDigits(d)
    ensures NumericSuffix(d) && RemoveFirst(d, '.') == d
  {
    assert '.' !in d by {
      assert forall i :: 0 <= i < |d| ==> IsDigit(d[i]);
    }
  }

}

=== FILE: kernel_tree.dfy ===
/** The tree operations of the kernel's nested store (`pscaleStoreV3` in
    g1/kernel.js): reading a node's semantic text, writing it with leaf
    promotion, deleting it without losing children, and walking a tree to
    list every addressable coordinate. Trees are values here; each
    operation returns the new tree. */
module KernelTree {
  import opened Common
  import opened Decimal
  import opened Nodes
  import opened KernelCoord

  /** `readSemantic`: a leaf's text, a branch's `_` channel, else null. */
  function ReadSemantic(n: Option<Node>): Option<string> {
    match n
    case None => None
    case Some(Leaf(t)) => Some(t)
    case Some(Branch(dims, _)) => if Default in dims then Some(dims[Default]) else None
  }

  /** What `read` returns for a digit path of a tree. */
  function ReadAt(t: Node, path: seq<char>): Option<string> {
    ReadSemantic(GetNode(t, path))
  }

  /** `writeSemantic`: every digit but the last gets an object, creating
      `{}` where nothing is and promoting a leaf to `{_: old}`; the last
      digit gets the content as a new or replaced leaf, or as the `_`
      channel of an existing branch. An empty path writes nothing. */
  function WriteSemantic(n: Node, path: seq<char>, content: string): (r: Node)
    requires n.Branch?
    ensures r.Branch? && r.dims == n.dims
    decreases |path|
  {
    if |path| == 0 then n
    else
      var d := path[0];
      if |path| == 1 then
        var target :=
          if d in n.kids && n.kids[d].Branch?
          then n.kids[d].(dims := n.kids[d].dims[Default := content])
          else Leaf(content);
        n.(kids := n.kids[d := target])
      else
        var child :=
          if d !in n.kids then EmptyBranch
          else match n.kids[d]
            case Leaf(text) => Promote(text)
            case Branch(_, _) => n.kids[d];
        n.(kids := n.kids[d := WriteSemantic(child, path[1..], content)])
  }

  /** `deleteSemantic`: an empty path deletes nothing; otherwise see
      `DeleteBelow`. */
  function DeleteSemantic(n: Node, path: seq<char>): (r: Node)
    requires n.Branch?
    ensures r.Branch? && r.dims == n.dims
  {
    if |path| == 0 then n else DeleteBelow(n, path)
  }

  /** Walk to the parent of the last digit, giving up on a string or a
      missing key; a leaf target is removed; a branch target loses its `_`
      channel and is removed only when no digit child remains. */
  function DeleteBelow(n: Node, path: seq<char>): (r: Node)
    requires |path| >= 1
    ensures n.Branch? ==> r.Branch? && r.dims == n.dims
    decreases |path|
  {
    match n
    case Leaf(_) => n
    case Branch(dims, kids) =>
      var d := path[0];
      if d !in kids then n
      else if |path| == 1 then
        match kids[d]
        case Leaf(_) => Branch(dims, kids - {d})
        case Branch(cd, ck) =>
          if HasDigitKid(ck) then Branch(dims, kids[d := Branch(cd - {Default}, ck)])
          else Branch(dims, kids - {d})
      else Branch(dims, kids[d := DeleteBelow(kids[d], path[1..])])
  }

  /** `walkTree`: the coordinates of the leaves and of the branches that
      carry `_`, parent before children, children in digit order. */
  function Walk(n: Node, path: seq<char>, prefix: string, decimal: int): seq<string>
    decreases n, 11
  {
    match n
    case Leaf(_) => [MakeCoord(prefix, path, decimal)]
    case Branch(dims, _) =>
      (if Default in dims then [MakeCoord(prefix, path, decimal)] else [])
      + WalkDigits(n, path, prefix, decimal, 0)
  }

  function WalkDigits(n: Node, path: seq<char>, prefix: string, decimal: int, i: nat): seq<string>
    requires n.Branch? && i <= 10
    decreases n, 10 - i
  {
    if i == 10 then []
    else
      var c := DigitChar(i);
      (if c in n.kids then Walk(n.kids[c], path + [c], prefix, decimal) else [])
      + WalkDigits(n, path, prefix, decimal, i + 1)
  }

  // ---------------------------------------------------------------------
  // Writing

  /** Read after write: the written path reads back the content, whether it
      was missing, a leaf or a branch. */
  lemma {:induction false} WriteThenRead(n: Node, path: seq<char>, content: string)
    requires n.Branch? && |path| >= 1
    ensures ReadAt(WriteSemantic(n, path, content), path) == Some(content)
    decreases |path|
  {
    if |path| >= 2 {
      var d := path[0];
      var child :=
        if d !in n.kids then EmptyBranch
        else match n.kids[d]
          case Leaf(text) => Promote(text)
          case Branch(_, _) => n.kids[d];
      WriteThenRead(child, path[1..], content);
      var r := WriteSemantic(n, path, content);
      assert r.kids[d] == WriteSemantic(child, path[1..], content);
      assert GetNode(r, path) == GetNode(r.kids[d], path[1..]);
    } else {
      assert path == [path[0]];
      GetNodeOne(WriteSemantic(n, path, content), path[0]);
    }
  }

  /** Below a node, a branch made from a leaf or from nothing holds nothing. */
  lemma NothingBelow(n: Node, q: seq<char>)
    requires n.Branch? && n.kids == map[] && |q| >= 1
    ensures GetNode(n, q).None?
  {
  }

  /** Write frame: every other path reads as before; a leaf on the way is
      promoted to `{_: old}`, so its text is still read at its own path. */
  lemma {:induction false} WriteFrame(n: Node, path: seq<char>, content: string, q: seq<char>)
    requires n.Branch? && |path| >= 1 && q != path
    ensures ReadAt(WriteSemantic(n, path, content), q) == ReadAt(n, q)
    decreases |path|
  {
    var r := WriteSemantic(n, path, content);
    if |q| >= 1 && q[0] == path[0] {
      var d := path[0];
      assert r.kids[d] == WriteSemantic(n, path, content).kids[d];
      if |path| == 1 {
        assert |q| >= 2;
        assert GetNode(r, q) == GetNode(r.kids[d], q[1..]);
        if d in n.kids && n.kids[d].Branch? {
          SameKidsSameBelow(r.kids[d], n.kids[d], q[1..]);
          assert GetNode(n, q) == GetNode(n.kids[d], q[1..]);
        }
      } else {
        var child :=
          if d !in n.kids then EmptyBranch
          else match n.kids[d]
            case Leaf(text) => Promote(text)
            case Branch(_, _) => n.kids[d];
        assert r.kids[d] == WriteSemantic(child, path[1..], content);
        if |q| == 1 {
          assert q == [d];
          GetNodeOne(r, d);
          GetNodeOne(n, d);
        } else {
          assert q[1..] != path[1..];
          WriteFrame(child, path[1..], content, q[1..]);
          assert GetNode(r, q) == GetNode(r.kids[d], q[1..]);
          if d !in n.kids || n.kids[d].Leaf? {
            NothingBelow(child, q[1..]);
            assert GetNode(n, q).None?;
            assert ReadAt(child, q[1..]).None?;
          } else {
            assert GetNode(n, q) == GetNode(child, q[1..]);
          }
        }
      }
    }
  }

  /** Writing never drops a node: whatever existed still exists. */
  lemma {:induction false} WriteKeepsNodes(n: Node, path: seq<char>, content: string, q: seq<char>)
    requires n.Branch? && GetNode(n, q).Some?
    ensures GetNode(WriteSemantic(n, path, content), q).Some?
    decreases |path|
  {
    if |path| >= 2 && |q| >= 1 && q[0] == path[0] {
      var d := path[0];
      var child :=
        match n.kids[d]
        case Leaf(text) => Promote(text)
        case Branch(_, _) => n.kids[d];
      if n.kids[d].Branch? {
        WriteKeepsNodes(child, path[1..], content, q[1..]);
      }
    }
  }

  // ---------------------------------------------------------------------
  // Deleting

  /** After a delete the path reads null. */
  lemma {:induction false} DeleteClears(n: Node, path: seq<char>)
    requires |path| >= 1
    ensures ReadAt(DeleteBelow(n, path), path).None?
    decreases |path|
  {
    if n.Branch? && path[0] in n.kids && |path| >= 2 {
      DeleteClears(n.kids[path[0]], path[1..]);
      var r := DeleteBelow(n, path);
      assert GetNode(r, path) == GetNode(r.kids[path[0]], path[1..]);
    } else if |path| == 1 {
      assert path == [path[0]];
      GetNodeOne(DeleteBelow(n, path), path[0]);
    }
  }

  /** Deleting a path that leads nowhere changes nothing. */
  lemma {:induction false} DeleteMissing(n: Node, path: seq<char>)
    requires |path| >= 1 && GetNode(n, path).None?
    ensures DeleteBelow(n, path) == n
    decreases |path|
  {
    if n.Branch? && path[0] in n.kids && |path| >= 2 {
      DeleteMissing(n.kids[path[0]], path[1..]);
      assert n.kids[path[0] := n.kids[path[0]]] == n.kids;
    }
  }

  /** A branch that still has a digit child keeps its children and its other
      channels; only `_` goes. */
  lemma {:induction false} DeleteKeepsChildren(n: Node, path: seq<char>)
    requires |path| >= 1
    requires GetNode(n, path).Some? && GetNode(n, path).value.Branch?
    requires HasDigitKid(GetNode(n, path).value.kids)
    ensures GetNode(DeleteBelow(n, path), path)
         == Some(Branch(GetNode(n, path).value.dims - {Default}, GetNode(n, path).value.kids))
    decreases |path|
  {
    if |path| >= 2 {
      DeleteKeepsChildren(n.kids[path[0]], path[1..]);
    }
  }

  /** A leaf, or a branch left with no digit child, is removed from its
      parent. */
  lemma {:induction false} DeleteRemovesChildless(n: Node, path: seq<char>)
    requires |path| >= 1 && GetNode(n, path).Some?
    requires GetNode(n, path).value.Leaf? || !HasDigitKid(GetNode(n, path).value.kids)
    ensures GetNode(DeleteBelow(n, path), path).None?
    decreases |path|
  {
    if |path| >= 2 {
      DeleteRemovesChildless(n.kids[path[0]], path[1..]);
    }
  }

  /** Ancestors are never pruned: every strict prefix of the path leads to a
      node after the delete exactly when it did before. */
  lemma {:induction false} DeleteKeepsAncestors(n: Node, path: seq<char>, k: nat)
    requires |path| >= 1 && k < |path|
    ensures GetNode(DeleteBelow(n, path), path[..k]).Some? == GetNode(n, path[..k]).Some?
    decreases |path|
  {
    if k > 0 && n.Branch? && path[0] in n.kids {
      assert path[..k][0] == path[0] && path[..k][1..] == path[1..][..k - 1];
      if |path| >= 2 {
        DeleteKeepsAncestors(n.kids[path[0]], path[1..], k - 1);
      }
    }
  }

  /** Delete frame: every other all-digit path reads as before. */
  lemma {:induction false} DeleteFrame(n: Node, path: seq<char>, q: seq<char>)
    requires |path| >= 1 && q != path && AllDigits(q)
    ensures ReadAt(DeleteBelow(n, path), q) == ReadAt(n, q)
    decreases |path|
  {
    var r := DeleteBelow(n, path);
    if n.Branch? && path[0] in n.kids && |q| >= 1 && q[0] == path[0] {
      var d := path[0];
      if |path| == 1 {
        assert |q| >= 2;
        assert IsDigit(q[1]);
        match n.kids[d]
        case Leaf(_) =>
          assert GetNode(n, q) == GetNode(n.kids[d], q[1..]);
        case Branch(cd, ck) =>
          if HasDigitKid(ck) {
            SameKidsSameBelow(r.kids[d], n.kids[d], q[1..]);
          } else {
            assert q[1] !in ck;
            assert GetNode(n, q) == GetNode(n.kids[d], q[1..]);
          }
      } else {
        assert q[1..] != path[1..];
        if |q| >= 2 {
          DeleteFrame(n.kids[d], path[1..], q[1..]);
          assert GetNode(r, q) == GetNode(r.kids[d], q[1..]);
          assert GetNode(n, q) == GetNode(n.kids[d], q[1..]);
        } else {
          assert q == [d];
          GetNodeOne(r, d);
          GetNodeOne(n, d);
        }
      }
    }
  }

  // ---------------------------------------------------------------------
  // Walking

  /** Everything the walk lists is the coordinate of a digit path that reads
      back some text. */
  lemma {:induction false} WalkSound(n: Node, path: seq<char>, prefix: string, decimal: int, x: string)
    returns (q: seq<char>)
    requires x in Walk(n, path, prefix, decimal)
    ensures AllDigits(q) && ReadAt(n, q).Some?
    ensures x == MakeCoord(prefix, path + q, decimal)
    decreases n, 11
  {
    if x == MakeCoord(prefix, path, decimal) && (n.Leaf? || Default in n.dims) {
      q := [];
      assert path + q == path;
    } else {
      q := WalkDigitsSound(n, path, prefix, decimal, 0, x);
    }
  }

  lemma {:induction false} WalkDigitsSound(n: Node, path: seq<char>, prefix: string, decimal: int, i: nat, x: string)
    returns (q: seq<char>)
    requires n.Branch? && i <= 10 && x in WalkDigits(n, path, prefix, decimal, i)
    ensures AllDigits(q) && ReadAt(n, q).Some?
    ensures x == MakeCoord(prefix, path + q, decimal)
    decreases n, 10 - i
  {
    assert i < 10;
    var c := DigitChar(i);
    var here := if c in n.kids then Walk(n.kids[c], path + [c], prefix, decimal) else [];
    var rest := WalkDigits(n, path, prefix, decimal, i + 1);
    assert WalkDigits(n, path, prefix, decimal, i) == here + rest;
    if x in here {
      q := WalkChildSound(n, path, prefix, decimal, c, x);
    } else {
      q := WalkDigitsSound(n, path, prefix, decimal, i + 1, x);
    }
  }

  /** A coordinate listed under a child is listed through that child. */
  lemma {:induction false} WalkChildSound(n: Node, path: seq<char>, prefix: string, decimal: int, c: char, x: string)
    returns (q: seq<char>)
    requires n.Branch? && IsDigit(c) && c in n.kids
    requires x in Walk(n.kids[c], path + [c], prefix, decimal)
    ensures AllDigits(q) && ReadAt(n, q).Some?
    ensures x == MakeCoord(prefix, path + q, decimal)
    decreases n, 0
  {
    var q' := WalkSound(n.kids[c], path + [c], prefix, decimal, x);
    q := [c] + q';
    assert path + q == path + [c] + q';
    GetNodeCons(n, c, q');
  }

  /** Every all-digit path that reads back some text is listed by the walk. */
  lemma {:induction false} WalkComplete(n: Node, path: seq<char>, prefix: string, decimal: int, q: seq<char>)
    requires AllDigits(q) && ReadAt(n, q).Some?
    ensures MakeCoord(prefix, path + q, decimal) in Walk(n, path, prefix, decimal)
    decreases n, 11
  {
    if |q| == 0 {
      assert path + q == path;
    } else {
      WalkDigitsComplete(n, path, prefix, decimal, 0, q);
    }
  }

  lemma {:induction false} WalkDigitsComplete(n: Node, path: seq<char>, prefix: string, decimal: int, i: nat, q: seq<char>)
    requires n.Branch? && i <= 10 && |q| >= 1 && AllDigits(q) && ReadAt(n, q).Some?
    requires ('0' as int) + i <= q[0] as int
    ensures MakeCoord(prefix, path + q, decimal) in WalkDigits(n, path, prefix, decimal, i)
    decreases n, 10 - i
  {
    var c := DigitChar(i);
    assert IsDigit(q[0]);
    if q[0] == c {
      assert path + q == (path + [c]) + q[1..];
      WalkComplete(n.kids[c], path + [c], prefix, decimal, q[1..]);
    } else {
      WalkDigitsComplete(n, path, prefix, decimal, i + 1, q);
    }
  }
}

=== FILE: lex.dfy ===
/** The order in which JavaScript's default `Array.prototype.sort` puts
    strings (character by character, a proper prefix first), and the sorted
    listing of a finite set of strings under it. */
module Lex {

  predicate LexLe(a: string, b: string)
    decreases |a|
  {
    |a| == 0 || (|b| > 0 && (a[0] < b[0] || (a[0] == b[0] && LexLe(a[1..], b[1..]))))
  }

  lemma {:induction false} LexRefl(a: string)
    ensures LexLe(a, a)
    decreases |a|
  {
    if |a| > 0 {
      LexRefl(a[1..]);
    }
  }

  lemma {:induction false} LexTotal(a: string, b: string)
    ensures LexLe(a, b) || LexLe(b, a)
    decreases |a|
  {
    if |a| > 0 && |b| > 0 && a[0] == b[0] {
      LexTotal(a[1..], b[1..]);
    }
  }

  lemma {:induction false} LexAntisym(a: string, b: string)
    requires LexLe(a, b) && LexLe(b, a)
    ensures a == b
    decreases |a|
  {
    if |a| > 0 {
      LexAntisym(a[1..], b[1..]);
      assert a == [a[0]] + a[1..] && b == [b[0]] + b[1..];
    }
  }

  lemma {:induction false} LexTrans(a: string, b: string, c: string)
    requires LexLe(a, b) && LexLe(b, c)
    ensures LexLe(a, c)
    decreases |a|
  {
    if |a| > 0 && a[0] == b[0] && b[0] == c[0] {
      LexTrans(a[1..], b[1..], c[1..]);
    }
  }

  predicate StrictlySorted(s: seq<string>) {
    forall i, j :: 0 <= i < j < |s| ==> LexLe(s[i], s[j]) && s[i] != s[j]
  }

  /** Some least element of a finite non-empty set. */
  ghost function MinOf(S: set<string>): string
    requires S != {}
    decreases |S|
  {
    var x :| x in S;
    if S == {x} then x
    else
      var m := MinOf(S - {x});
      if LexLe(x, m) then x else m
  }

  lemma {:induction false} MinOfIsLeast(S: set<string>)
    requires S != {}
    ensures MinOf(S) in S
    ensures forall y :: y in S ==> LexLe(MinOf(S), y)
    decreases |S|
  {
    var x :| x in S && MinOf(S) == (if S == {x} then x
      else var m := MinOf(S - {x}); if LexLe(x, m) then x else m);
    if S == {x} {
      LexRefl(x);
    } else {
      var m := MinOf(S - {x});
      MinOfIsLeast(S - {x});
      LexTotal(x, m);
      forall y | y in S
        ensures LexLe(MinOf(S), y)
      {
        if y == x {
          LexRefl(x);
        } else if LexLe(x, m) {
          LexTrans(x, m, y);
        }
      }
    }
  }

  /** The listing of a finite set of strings in ascending order: what
      `.sort()` makes of an array holding each element once. */
  ghost function SortSet(S: set<string>): (r: seq<string>)
    ensures StrictlySorted(r)
    ensures forall x :: x in r <==> x in S
    ensures |r| == |S|
    decreases |S|
  {
    if S == {} then []
    else
      var m := MinOf(S);
      MinOfIsLeast(S);
      var rest := SortSet(S - {m});
      assert forall j :: 0 <= j < |rest| ==> LexLe(m, rest[j]) && m != rest[j] by {
        forall j | 0 <= j < |rest|
          ensures LexLe(m, rest[j]) && m != rest[j]
        {
          assert rest[j] in S - {m};
        }
      }
      [m] + rest
  }
}

=== FILE: memory.dfy ===
/** Memory numbering of the kernel's store (`nextMemory` and
    `_getSummaryRange` of `pscaleStoreV3` in g1/kernel.js). Memories live
    under the `M` prefix; the next one is numbered one past the largest
    number already listed, and when that number is a leading digit followed
    by zeros (10, 20, ..., 100, 200, ...) the step is a summary of the nine
    entries of the level below it. */
module Memory {
  import opened Common
  import opened Decimal
  import opened Store

  /** What `nextMemory` proposes: a plain entry, or a summary together with
      the coordinates it summarises. */
  datatype MemoryStep =
    | Entry(coord: string)
    | Summary(coord: string, summarize: seq<string>)

  const MemoryTag: string := "M:"

  /** The numbers of the listed memory coordinates: `parseInt` of what
      follows "M:", with NaN dropped. */
  function MemoryNumbers(listed: set<string>): set<nat> {
    set x | x in listed && |x| >= 2 && ParseInt(x[2..]).Some? :: ParseInt(x[2..]).value
  }

  /** `Math.max` of a non-empty set. */
  ghost function MaxOf(S: set<nat>): (m: nat)
    requires S != {}
    ensures m in S
    ensures forall x :: x in S ==> x <= m
    decreases |S|
  {
    var x :| x in S;
    assert forall y :: y in S ==> y in S - {x} || y == x;
    if S - {x} == {} then x
    else
      var rest := MaxOf(S - {x});
      if x > rest then x else rest
  }

  /** The test `nextMemory` applies to the new number: more than one digit,
      and every digit after the first is a zero. */
  predicate SummaryNumber(n: nat) {
    var str := NatToString(n);
    |str| > 1 && AllZeros(str[1..])
  }

  /** `nextMemory`: the next step after what `list("M:")` collects. */
  ghost function NextMemory(s: Store): MemoryStep {
    NextStep(ListSet(s, MemoryTag))
  }

  /** The body of `nextMemory` once the memory coordinates are listed. */
  ghost function NextStep(listed: set<string>): MemoryStep {
    var nums := MemoryNumbers(listed);
    if nums == {} then Entry(MemoryTag + "1")
    else StepFor(MaxOf(nums) + 1)
  }

  /** One past the largest of `nums`, or 1 when there is none. */
  ghost function NextAfter(nums: set<nat>): (n: nat)
    ensures n >= 1
    ensures forall m :: m in nums ==> m < n
    ensures nums == {} ==> n == 1
    ensures nums != {} ==> n - 1 in nums
  {
    if nums == {} then 1 else MaxOf(nums) + 1
  }

  /** What `nextMemory` proposes once it has settled on the number `next`. */
  function StepFor(next: nat): MemoryStep {
    var coord := MemoryTag + NatToString(next);
    if SummaryNumber(next) then Summary(coord, SummaryRange(next)) else Entry(coord)
  }

  /** The loop of `_getSummaryRange`: i = from, from + step, ... while
      i < to. */
  function RangeFrom(from: nat, to: nat, step: nat): seq<nat>
    requires step > 0
    decreases if from < to then to - from else 0
  {
    if from >= to then [] else [from] + RangeFrom(from + step, to, step)
  }

  /** "M:" + i for each number. */
  function MemoryCoords(nums: seq<nat>): (r: seq<string>)
    ensures |r| == |nums|
    ensures forall k :: 0 <= k < |nums| ==> r[k] == MemoryTag + NatToString(nums[k])
  {
    seq(|nums|, k requires 0 <= k < |nums| => MemoryTag + NatToString(nums[k]))
  }

  /** `10^(L-1)` for a number of `L` digits: the place value of its
      leading digit. */
  function Magnitude(n: nat): nat {
    Pow10(|NatToString(n)| - 1)
  }

  /** The spacing of a summary's entries: one tenth of the magnitude. */
  function SummaryStep(n: nat): nat
    requires n >= 10
  {
    NatToStringLength(n);
    Pow10(|NatToString(n)| - 2)
  }

  /** `_getSummaryRange(n)`: the numbers `n - 10^(L-1) + k * 10^(L-2)` for
      k = 1..9 (`L` the number of digits of `n`), as memory coordinates. */
  function SummaryRange(n: nat): (r: seq<string>)
    requires n >= 10
    ensures Magnitude(n) <= n
    ensures |r| == 9
    ensures forall k :: 0 <= k < 9 ==>
      r[k] == MemoryTag + NatToString(n - Magnitude(n) + (k + 1) * SummaryStep(n))
  {
    var mag := Magnitude(n);
    MagnitudeBelow(n);
    var base := n - mag;
    var step := if mag == 10 then 1 else mag / 10;
    var from := base + step;
    var nums := RangeFrom(from, n, step);
    assert step == SummaryStep(n) && base + 10 * step == n by {
      StepOfMagnitude(n);
    }
    SummaryNumbers(base, step, from, n);
    MemoryCoords(nums)
  }

  // ---------------------------------------------------------------------
  // Lemmas

  /** `n - 10^(L-1)` is not negative. */
  lemma MagnitudeBelow(n: nat)
    requires n >= 10
    ensures Magnitude(n) <= n
    ensures |NatToString(n)| >= 2
  {
    NatToStringLength(n);
  }

  /** The step `_getSummaryRange` computes is one tenth of the magnitude,
      also when the magnitude is 10. */
  lemma StepOfMagnitude(n: nat)
    requires |NatToString(n)| >= 2
    ensures var mag := Magnitude(n);
      (if mag == 10 then 1 else mag / 10) == SummaryStep(n) && mag == 10 * SummaryStep(n)
  {
    var L := |NatToString(n)|;
    assert Pow10(L - 1) == 10 * Pow10(L - 2);
  }

  /** `k * step + step == (k + 1) * step`. */
  lemma StepMul(k: nat, step: nat)
    ensures k * step + step == (k + 1) * step
  {
  }

  /** `count` steps from `from` visit `from + k * step` for each `k`. */
  lemma {:induction false} RangeFromCount(from: nat, to: nat, step: nat, count: nat)
    requires step > 0 && to == from + count * step
    ensures |RangeFrom(from, to, step)| == count
    ensures forall k :: 0 <= k < count ==> RangeFrom(from, to, step)[k] == from + k * step
    decreases count
  {
    if count > 0 {
      StepMul(count - 1, step);
      RangeFromCount(from + step, to, step, count - 1);
      var rest := RangeFrom(from + step, to, step);
      assert RangeFrom(from, to, step) == [from] + rest;
      forall k | 1 <= k < count
        ensures RangeFrom(from, to, step)[k] == from + k * step
      {
        assert rest[k - 1] == from + step + (k - 1) * step;
        StepMul(k - 1, step);
      }
    }
  }

  /** The nine summary numbers from `base + step` below `base + 10 * step`. */
  lemma SummaryNumbers(base: nat, step: nat, from: nat, to: nat)
    requires step > 0 && from == base + step && to == base + 10 * step
    ensures |RangeFrom(from, to, step)| == 9
    ensures forall k :: 0 <= k < 9 ==> RangeFrom(from, to, step)[k] == base + (k + 1) * step
  {
    StepMul(9, step);
    RangeFromCount(from, to, step, 9);
    forall k | 0 <= k < 9
      ensures RangeFrom(from, to, step)[k] == base + (k + 1) * step
    {
      StepMul(k, step);
    }
  }

  /** The step after `listed` is the step for the number after the
      listed memory numbers. */
  lemma NextStepIsStep(listed: set<string>)
    ensures NextStep(listed) == StepFor(NextAfter(MemoryNumbers(listed)))
  {
    if MemoryNumbers(listed) == {} {
      StepForOne();
    }
  }

  lemma StepForOne()
    ensures StepFor(1) == Entry(MemoryTag + "1")
  {
    assert NatToString(1) == "1";
  }

  /** The proposed coordinate is not among the listed memories. */
  lemma NextStepFresh(listed: set<string>)
    ensures NextStep(listed).coord !in listed
  {
    var n := NextAfter(MemoryNumbers(listed));
    NextStepIsStep(listed);
    StepForKind(n);
    var c := MemoryTag + NatToString(n);
    assert c[2..] == NatToString(n);
    ParseIntOfDigits(NatToString(n));
    ValueOfNatToString(n);
    assert c in listed ==> n in MemoryNumbers(listed);
  }

  /** `nextMemory` never proposes a memory coordinate the store lists. */
  lemma NextMemoryFresh(s: Store)
    ensures NextMemory(s).coord !in ListSet(s, MemoryTag)
  {
    NextStepFresh(ListSet(s, MemoryTag));
  }

  /** A number passes the summary test exactly when it has at least two
      digits and zeroing all but its leading digit leaves it unchanged. */
  lemma SummaryNumberIff(n: nat)
    ensures SummaryNumber(n) <==> n >= 10 && RoundDown(n, |NatToString(n)| - 1) == n
  {
    var str := NatToString(n);
    var L := |str|;
    NatToStringLength(n);
    if n >= 10 {
      NatToStringRound(n, L - 1);
      assert str[..1] + Zeros(L - 1) == NatToString(RoundDown(n, L - 1));
      if AllZeros(str[1..]) {
        assert str == str[..1] + Zeros(L - 1);
        NatToStringInjective(RoundDown(n, L - 1), n);
      }
      if RoundDown(n, L - 1) == n {
        assert str[1..] == Zeros(L - 1);
      }
    }
  }

  /** The step for a number names its coordinate, and is a summary exactly
      when the number is a leading digit followed by zeros; a summary
      covers the nine coordinates of the level below it. */
  lemma StepForKind(n: nat)
    ensures StepFor(n).coord == MemoryTag + NatToString(n)
    ensures StepFor(n).Summary? <==> n >= 10 && RoundDown(n, |NatToString(n)| - 1) == n
    ensures StepFor(n).Summary? ==> StepFor(n).summarize == SummaryRange(n)
  {
    SummaryNumberIff(n);
  }

  /** `nextMemory` proposes the coordinate of the number after the
      largest listed one, as a summary of the level below exactly when that
      number is a leading digit followed by zeros. */
  lemma NextMemoryKind(s: Store)
    ensures var n := NextAfter(MemoryNumbers(ListSet(s, MemoryTag)));
      && NextMemory(s).coord == MemoryTag + NatToString(n)
      && (NextMemory(s).Summary? <==> n >= 10 && RoundDown(n, |NatToString(n)| - 1) == n)
      && (NextMemory(s).Summary? ==> NextMemory(s).summarize == SummaryRange(n))
  {
    var listed := ListSet(s, MemoryTag);
    NextStepIsStep(listed);
    StepForKind(NextAfter(MemoryNumbers(listed)));
  }
}

=== FILE: nav.dfy ===
/** The navigation library (docs/pscale-nested/pscale-nav-nested.js). It
    works on the same nested node the kernel's store keeps, but addresses
    it by a bare numeral: the numeral's digits, its dot removed, are the
    path, and a `decimal` says where a dot goes when a path is rendered
    back. Unlike the kernel, a lookup treats an empty-string leaf as absent
    (`!node[d]` is true for `""`), and its writer turns leaves into
    branches on the way down. */
module Nav {
  import opened Common
  import opened Decimal
  import opened Nodes
  import opened KernelCoord

  /** `coordToPath`: the numeral with its first dot removed. */
  function CoordToPath(coord: string): seq<char> {
    RemoveFirst(coord, '.')
  }

  /** `pathToCoord`: the same rendering as the kernel's `digitsToNumStr`. */
  function PathToCoord(path: seq<char>, decimal: int): string {
    DigitsToNumStr(path, decimal)
  }

  /** The decimal a numeral implies: the position of its dot, or its whole
      length when it has none. */
  function NavDecimal(coord: string): nat {
    match IndexOf(coord, '.')
    case None => |coord|
    case Some(i) => i
  }

  /** A numeral with at most one dot, and digits on both sides of it. */
  predicate WellPlaced(coord: string) {
    match IndexOf(coord, '.')
    case None => true
    case Some(i) => 0 < i < |coord| - 1 && '.' !in coord[i + 1..]
  }

  /** JavaScript truthiness of a node: only the empty string is falsy. */
  predicate Truthy(n: Node) {
    n != Leaf("")
  }

  /** A node as a lookup sees it: nothing when it is falsy. */
  function Visible(n: Node): Option<Node> {
    if Truthy(n) then Some(n) else None
  }

  /** `getNode` on a path: descend one key per step while the key holds a
      truthy value; a string has no children. */
  function NavGetNode(n: Node, path: seq<char>): Option<Node>
    decreases |path|
  {
    if |path| == 0 then Some(n)
    else
      match n
      case Leaf(_) => None
      case Branch(_, kids) =>
        if path[0] in kids && Truthy(kids[path[0]]) then NavGetNode(kids[path[0]], path[1..])
        else None
  }

  /** `getNode(tree, coord)`. */
  function NavNode(t: Node, coord: string): Option<Node> {
    NavGetNode(t, CoordToPath(coord))
  }

  /** `dim || '_'`: an empty channel name means the default one. */
  function ChannelOf(dim: string): string {
    if dim == "" then Default else dim
  }

  /** What `getSemantic` reads from a node it found: a leaf's text whatever
      the channel, a branch's channel when it holds non-empty text. */
  function SemOf(o: Option<Node>, key: string): Option<string> {
    match o
    case None => None
    case Some(Leaf(text)) => Some(text)
    case Some(Branch(dims, _)) => if key in dims && dims[key] != "" then Some(dims[key]) else None
  }

  /** `getSemantic(tree, coord, dim)`. */
  function GetSemantic(t: Node, coord: string, dim: string): Option<string> {
    SemOf(NavNode(t, coord), ChannelOf(dim))
  }

  /** `getDimensions`: the channel names a branch carries, or just the
      default channel for a leaf or a missing node. */
  function GetDimensions(t: Node, coord: string): (r: set<string>)
    ensures forall k :: k in r ==> StartsWith(k, Default)
    ensures NavNode(t, coord).None? || NavNode(t, coord).value.Leaf? ==> r == {Default}
    ensures NavNode(t, coord).Some? && NavNode(t, coord).value.Branch? ==>
      forall k :: k in r <==> k in NavNode(t, coord).value.dims && StartsWith(k, Default)
  {
    match NavNode(t, coord)
    case Some(Branch(dims, _)) => set k | k in dims && StartsWith(k, Default)
    case _ => {Default}
  }

  /** `pscalePlus`: the numeral one level up, keeping the dot where the
      numeral had it; nothing above a one-digit numeral. */
  function PscalePlus(coord: string): Option<string> {
    var path := CoordToPath(coord);
    if |path| <= 1 then None
    else Some(PathToCoord(path[..|path| - 1], NavDecimal(coord)))
  }

  /** `pscaleMinus`: the digit children of the node, ascending. */
  function PscaleMinus(t: Node, coord: string): (r: seq<char>)
    ensures forall d :: d in r <==>
      NavNode(t, coord).Some? && NavNode(t, coord).value.Branch?
      && d in NavNode(t, coord).value.kids && IsDigit(d)
    ensures forall a, b :: 0 <= a < b < |r| ==> r[a] < r[b]
  {
    match NavNode(t, coord)
    case Some(Branch(_, kids)) => DigitKeys(kids.Keys)
    case _ => []
  }

  /** `xSibs`: the parent's digit children other than the numeral's own
      last digit, ascending. */
  function XSibs(t: Node, coord: string): (r: seq<char>)
    ensures forall a, b :: 0 <= a < b < |r| ==> r[a] < r[b]
  {
    var path := CoordToPath(coord);
    if |path| <= 1 then []
    else
      match NavNode(t, PscalePlus(coord).value)
      case Some(Branch(_, kids)) => DigitKeys(kids.Keys - {path[|path| - 1]})
      case _ => []
  }

  /** One rendered numeral per key, each the path extended by that key. */
  function PathCoords(base: seq<char>, ks: seq<char>, decimal: int): (r: seq<string>)
    ensures |r| == |ks|
    ensures forall i :: 0 <= i < |ks| ==> r[i] == PathToCoord(base + [ks[i]], decimal)
  {
    seq(|ks|, i requires 0 <= i < |ks| => PathToCoord(base + [ks[i]], decimal))
  }

  /** Each listed numeral reads back, through `coordToPath`, as the base
      path extended by its key. */
  lemma PathCoordsPaths(base: seq<char>, ks: seq<char>, decimal: int, i: nat)
    requires i < |ks| && '.' !in base + [ks[i]]
    ensures CoordToPath(PathCoords(base, ks, decimal)[i]) == base + [ks[i]]
  {
    PathRoundTrip(base + [ks[i]], decimal);
  }

  /** `childCoords`. */
  function ChildCoords(t: Node, coord: string): seq<string> {
    PathCoords(CoordToPath(coord), PscaleMinus(t, coord), NavDecimal(coord))
  }

  /** `siblingCoords`. */
  function SiblingCoords(t: Node, coord: string): seq<string> {
    match PscalePlus(coord)
    case None => []
    case Some(p) =>
      if p == "" then [] else PathCoords(CoordToPath(p), XSibs(t, coord), NavDecimal(coord))
  }

  /** `pscaleLevel`: the decimal less the path length. */
  function PscaleLevel(coord: string, decimal: int): int {
    decimal - |CoordToPath(coord)|
  }

  /** What `setSemantic` leaves at the final step, given what the lookup
      saw there: a new leaf (default channel) or a one-channel branch when
      nothing was there; a leaf becomes a branch keeping its text under the
      default channel; a branch gets the channel set. */
  function Written(before: Option<Node>, v: string, key: string): Node {
    match before
    case None => if key == Default then Leaf(v) else Branch(map[key := v], map[])
    case Some(Leaf(o)) =>
      if key == Default then Branch(map[Default := v], map[])
      else Branch(map[Default := o, key := v], map[])
    case Some(Branch(dims, kids)) => Branch(dims[key := v], kids)
  }

  /** What `setSemantic` steps into on the way down: an empty branch for
      a missing or falsy key, a leaf's text kept under the default channel,
      or the branch that is there. */
  function Descend(here: Option<Node>): (r: Node)
    ensures r.Branch?
  {
    match here
    case None => EmptyBranch
    case Some(Leaf(o)) => Promote(o)
    case Some(b) => b
  }

  /** The walk of `setSemantic` below a branch: missing or falsy steps
      become empty branches, leaves on the way become branches keeping
      their text, and the final step is `Written`. */
  function SetPath(n: Node, path: seq<char>, v: string, key: string): (r: Node)
    requires n.Branch? && |path| >= 1
    ensures r.Branch? && r.dims == n.dims
    decreases |path|
  {
    var d := path[0];
    var here := if d in n.kids && Truthy(n.kids[d]) then Some(n.kids[d]) else None;
    if |path| == 1 then Branch(n.dims, n.kids[d := Written(here, v, key)])
    else
      Branch(n.dims, n.kids[d := SetPath(Descend(here), path[1..], v, key)])
  }

  /** `setSemantic(tree, coord, semantic, dim)`; the root itself is never
      written. */
  function SetSemantic(t: Tree, coord: string, v: string, dim: string): Tree {
    var path := CoordToPath(coord);
    if |path| == 0 then t else SetPath(t, path, v, ChannelOf(dim))
  }

  /** The walk of `clearSemantic`: stop at a missing or falsy step or at a
      leaf; at the end delete the channel of a branch. */
  function ClearPath(n: Node, path: seq<char>, key: string): Node
    decreases |path|
  {
    match n
    case Leaf(_) => n
    case Branch(dims, kids) =>
      if |path| == 0 then Branch(dims - {key}, kids)
      else if path[0] in kids && Truthy(kids[path[0]])
      then Branch(dims, kids[path[0] := ClearPath(kids[path[0]], path[1..], key)])
      else n
  }

  /** `clearSemantic(tree, coord, dim)`. */
  function ClearSemantic(t: Node, coord: string, dim: string): Node {
    ClearPath(t, CoordToPath(coord), ChannelOf(dim))
  }

  /** Truthiness of what `getSemantic` returns. */
  predicate HasText(o: Option<string>) {
    o.Some? && o.value != ""
  }

  /** The filter of `compressionReady`: a child whose last digit is not
      zero and whose default text is truthy. */
  predicate Occupies(t: Node, c: string) {
    var path := CoordToPath(c);
    (|path| == 0 || path[|path| - 1] != '0') && HasText(GetSemantic(t, c, ""))
  }

  function CountOccupied(t: Node, coords: seq<string>): nat {
    if |coords| == 0 then 0
    else (if Occupies(t, coords[0]) then 1 else 0) + CountOccupied(t, coords[1..])
  }

  /** `compressionReady`: at least nine occupied children. */
  predicate CompressionReady(t: Node, coord: string) {
    CountOccupied(t, ChildCoords(t, coord)) >= 9
  }

  /** A child holding text in the default channel, as the filter reads it. */
  predicate Filled(n: Node) {
    match n
    case Leaf(text) => text != ""
    case Branch(dims, _) => Default in dims && dims[Default] != ""
  }

  /** All of the children 1 to 9 hold default text. */
  predicate AllFilled(kids: map<char, Node>) {
    forall d :: '1' <= d <= '9' ==> d in kids && Filled(kids[d])
  }

  // ---------------------------------------------------------------------
  // Numerals and paths

  /** Rendering a dot-free path and reading it back gives the path. */
  lemma PathRoundTrip(path: seq<char>, decimal: int)
    requires '.' !in path
    ensures CoordToPath(PathToCoord(path, decimal)) == path
  {
    if 0 < decimal < |path| {
      var a, b := path[..decimal], path[decimal..];
      assert '.' !in a by {
        assert forall x :: x in a ==> x in path;
      }
      IndexOfAfter(a, '.', b);
      assert a + b == path;
    }
  }

  /** Reading a well-placed numeral and rendering it at its own decimal
      gives the numeral back. */
  lemma CoordRoundTrip(coord: string)
    requires WellPlaced(coord)
    ensures PathToCoord(CoordToPath(coord), NavDecimal(coord)) == coord
  {
    match IndexOf(coord, '.')
    case None =>
    case Some(i) =>
      var path := coord[..i] + coord[i + 1..];
      assert path[..i] == coord[..i] && path[i..] == coord[i + 1..];
      assert coord == coord[..i] + "." + coord[i + 1..];
  }

  /** The decimal a rendered path implies: the dot's position when the
      rendering placed one, the whole length otherwise. */
  lemma DecimalOfRendered(path: seq<char>, decimal: int)
    requires '.' !in path
    ensures NavDecimal(PathToCoord(path, decimal)) == if 0 < decimal < |path| then decimal else |path|
  {
    if 0 < decimal < |path| {
      var a, b := path[..decimal], path[decimal..];
      assert '.' !in a by {
        assert forall x :: x in a ==> x in path;
      }
      IndexOfAfter(a, '.', b);
    }
  }

  /** `pscalePlus` of a rendered path: the path less its last digit,
      rendered at the same decimal as long as the dot still has digits
      after it. */
  lemma PlusOfRendered(path: seq<char>, decimal: int)
    requires '.' !in path
    ensures PscalePlus(PathToCoord(path, decimal))
         == if |path| <= 1 then None
            else Some(PathToCoord(path[..|path| - 1], if 0 < decimal < |path| then decimal else |path|))
  {
    PathRoundTrip(path, decimal);
    DecimalOfRendered(path, decimal);
  }

  /** `pscalePlus` drops exactly the last digit of the path, and finds
      nothing above a one-digit numeral. */
  lemma PlusDropsOne(coord: string)
    requires '.' !in CoordToPath(coord)
    ensures var path := CoordToPath(coord);
      && (PscalePlus(coord).None? <==> |path| <= 1)
      && (|path| >= 2 ==> CoordToPath(PscalePlus(coord).value) == path[..|path| - 1])
  {
    var path := CoordToPath(coord);
    if |path| >= 2 {
      assert '.' !in path[..|path| - 1] by {
        assert forall x :: x in path[..|path| - 1] ==> x in path;
      }
      PathRoundTrip(path[..|path| - 1], NavDecimal(coord));
    }
  }

  /** A non-empty well-placed numeral implies a decimal within its path. */
  lemma DecimalInRange(coord: string)
    requires WellPlaced(coord) && coord != ""
    ensures 0 < NavDecimal(coord) <= |CoordToPath(coord)|
  {
  }

  /** Going one level up from any child of a non-empty well-placed
      numeral returns that numeral. */
  lemma PlusOfChild(t: Node, coord: string, i: nat)
    requires WellPlaced(coord) && coord != "" && '.' !in CoordToPath(coord)
    requires i < |ChildCoords(t, coord)|
    ensures PscalePlus(ChildCoords(t, coord)[i]) == Some(coord)
  {
    var path := CoordToPath(coord);
    var dec := NavDecimal(coord);
    var k := PscaleMinus(t, coord)[i];
    assert IsDigit(k);
    var child := path + [k];
    assert '.' !in child;
    assert child[..|child| - 1] == path;
    DecimalInRange(coord);
    PlusOfRendered(child, dec);
    CoordRoundTrip(coord);
  }

  /** Every sibling of a well-placed numeral has the numeral's parent. */
  lemma SiblingSharesParent(t: Node, coord: string, i: nat)
    requires WellPlaced(coord) && '.' !in CoordToPath(coord)
    requires i < |SiblingCoords(t, coord)|
    ensures PscalePlus(SiblingCoords(t, coord)[i]) == PscalePlus(coord)
  {
    var path := CoordToPath(coord);
    var dec := NavDecimal(coord);
    var p := PscalePlus(coord).value;
    PlusDropsOne(coord);
    var up := CoordToPath(p);
    var k := XSibs(t, coord)[i];
    assert IsDigit(k);
    var sib := up + [k];
    assert '.' !in up by {
      assert forall x :: x in up ==> x in path;
    }
    assert '.' !in sib;
    assert sib[..|sib| - 1] == up && |sib| == |path|;
    PlusOfRendered(sib, dec);
    CoordRoundTrip(coord);
    PlusOfRendered(path, dec);
  }

  /** The siblings are exactly the parent's digit children other than the
      numeral's own last digit. */
  lemma XSibsMembers(t: Node, coord: string)
    requires '.' !in CoordToPath(coord)
    ensures var path := CoordToPath(coord);
      forall d :: d in XSibs(t, coord) <==>
        && |path| >= 2 && IsDigit(d) && d != path[|path| - 1]
        && var up := NavGetNode(t, path[..|path| - 1]);
           up.Some? && up.value.Branch? && d in up.value.kids
  {
    var path := CoordToPath(coord);
    if |path| >= 2 {
      PlusDropsOne(coord);
      var up := NavGetNode(t, path[..|path| - 1]);
      assert NavNode(t, PscalePlus(coord).value) == up;
      match up
      case Some(Branch(_, kids)) =>
        assert XSibs(t, coord) == DigitKeys(kids.Keys - {path[|path| - 1]});
      case _ =>
        assert XSibs(t, coord) == [];
    }
  }

  // ---------------------------------------------------------------------
  // Lookup

  /** Looking up `p + q` is looking up `p`, then `q` from there. */
  lemma {:induction false} NavGetNodeConcat(n: Node, p: seq<char>, q: seq<char>)
    ensures NavGetNode(n, p + q)
         == (match NavGetNode(n, p) case None => None case Some(m) => NavGetNode(m, q))
    decreases |p|
  {
    if |p| > 0 {
      assert (p + q)[0] == p[0] && (p + q)[1..] == p[1..] + q;
      if n.Branch? && p[0] in n.kids && Truthy(n.kids[p[0]]) {
        NavGetNodeConcat(n.kids[p[0]], p[1..], q);
      }
    } else {
      assert p + q == q;
    }
  }

  /** One step below a branch finds the child when it is truthy. */
  lemma NavGetNodeOne(n: Node, d: char)
    requires n.Branch?
    ensures NavGetNode(n, [d]) == if d in n.kids then Visible(n.kids[d]) else None
  {
    if d in n.kids && Truthy(n.kids[d]) {
      assert [d][1..] == [];
    }
  }

  /** A path through a truthy child continues from that child. */
  lemma NavGetNodeCons(n: Node, d: char, q: seq<char>)
    requires n.Branch? && d in n.kids && Truthy(n.kids[d])
    ensures NavGetNode(n, [d] + q) == NavGetNode(n.kids[d], q)
  {
    assert ([d] + q)[0] == d && ([d] + q)[1..] == q;
  }

  /** Below a node with no children nothing is found. */
  lemma NavGetNodeChildless(n: Node, q: seq<char>)
    requires |q| >= 1 && (n.Leaf? || n.kids == map[])
    ensures NavGetNode(n, q) == None
  {
  }

  // ---------------------------------------------------------------------
  // Writing

  /** After `setSemantic`, the node at the path is what `Written` makes of
      what the lookup saw there before. */
  lemma {:induction false} SetPathNode(n: Node, path: seq<char>, v: string, key: string)
    requires n.Branch? && |path| >= 1
    ensures NavGetNode(SetPath(n, path, v, key), path) == Visible(Written(NavGetNode(n, path), v, key))
    decreases |path|
  {
    var d := path[0];
    var r := SetPath(n, path, v, key);
    var here := if d in n.kids && Truthy(n.kids[d]) then Some(n.kids[d]) else None;
    assert path == [d] + path[1..];
    if |path| == 1 {
      NavGetNodeOne(n, d);
      NavGetNodeOne(r, d);
    } else {
      var next := Descend(here);
      var child := SetPath(next, path[1..], v, key);
      SetPathNode(next, path[1..], v, key);
      NavGetNodeCons(r, d, path[1..]);
      if here.Some? {
        NavGetNodeCons(n, d, path[1..]);
        if here.value.Leaf? {
          NavGetNodeChildless(here.value, path[1..]);
          NavGetNodeChildless(next, path[1..]);
        }
      } else {
        NavGetNodeChildless(next, path[1..]);
      }
    }
  }

  /** Setting a non-empty text and reading the same channel back gives that
      text. */
  lemma SetThenGet(t: Tree, coord: string, v: string, dim: string)
    requires |CoordToPath(coord)| >= 1 && v != ""
    ensures GetSemantic(SetSemantic(t, coord, v, dim), coord, dim) == Some(v)
  {
    SetPathNode(t, CoordToPath(coord), v, ChannelOf(dim));
  }

  /** After `setSemantic` on a channel whose name starts with the default
      channel's `_`, `getDimensions` reports that channel at the
      coordinate. */
  lemma SetThenDimensions(t: Tree, coord: string, v: string, dim: string)
    requires |CoordToPath(coord)| >= 1 && StartsWith(ChannelOf(dim), Default)
    ensures ChannelOf(dim) in GetDimensions(SetSemantic(t, coord, v, dim), coord)
  {
    SetPathNode(t, CoordToPath(coord), v, ChannelOf(dim));
  }

  /** Setting another channel on a leaf keeps the leaf's text as the
      node's default text. */
  lemma SetKeepsLeafText(t: Tree, coord: string, v: string, dim: string, o: string)
    requires |CoordToPath(coord)| >= 1 && o != "" && ChannelOf(dim) != Default
    requires NavNode(t, coord) == Some(Leaf(o))
    ensures GetSemantic(SetSemantic(t, coord, v, dim), coord, Default) == Some(o)
  {
    SetPathNode(t, CoordToPath(coord), v, ChannelOf(dim));
  }

  /** `q` is a proper prefix of `p`. */
  predicate StrictPrefix(q: seq<char>, p: seq<char>) {
    |q| < |p| && p[..|q|] == q
  }

  /** A common first step keeps a proper prefix proper. */
  lemma PrefixCons(d: char, q: seq<char>, p: seq<char>)
    ensures StrictPrefix(q, p) ==> StrictPrefix([d] + q, [d] + p)
  {
    if StrictPrefix(q, p) {
      assert ([d] + p)[..|q| + 1] == [d] + p[..|q|];
    }
  }

  /** The first step of a longer path is a proper prefix of it. */
  lemma PrefixOne(q: seq<char>, p: seq<char>)
    requires |q| >= 1 && |p| >= 2 && q[0] == p[0]
    ensures |q| == 1 ==> StrictPrefix(q, p)
  {
    if |q| == 1 {
      assert p[..1] == [p[0]] == q;
    }
  }

  /** Away from the path and its ancestors, `setSemantic` changes no node. */
  lemma {:induction false} SetPathFrame(n: Node, path: seq<char>, v: string, key: string, q: seq<char>)
    requires n.Branch? && |path| >= 1
    requires q != path && !StrictPrefix(q, path)
    ensures NavGetNode(SetPath(n, path, v, key), q) == NavGetNode(n, q)
    decreases |path|
  {
    var d := path[0];
    var r := SetPath(n, path, v, key);
    var here := if d in n.kids && Truthy(n.kids[d]) then Some(n.kids[d]) else None;
    assert |q| >= 1;
    assert q == [q[0]] + q[1..];
    if q[0] != d {
      if q[0] in n.kids && Truthy(n.kids[q[0]]) {
        NavGetNodeCons(n, q[0], q[1..]);
        NavGetNodeCons(r, q[0], q[1..]);
      }
    } else if |path| == 1 {
      assert |q| >= 2;
      var w := Written(here, v, key);
      if Truthy(w) {
        NavGetNodeCons(r, d, q[1..]);
      }
      if here.Some? {
        NavGetNodeCons(n, d, q[1..]);
      }
      if here.None? || here.value.Leaf? {
        assert w.Leaf? || w.kids == map[];
      }
    } else {
      var next := Descend(here);
      assert path == [d] + path[1..];
      assert q[1..] != path[1..];
      PrefixCons(d, q[1..], path[1..]);
      SetPathFrame(next, path[1..], v, key, q[1..]);
      NavGetNodeCons(r, d, q[1..]);
      if here.Some? {
        NavGetNodeCons(n, d, q[1..]);
      }
      if here.None? || here.value.Leaf? {
        PrefixOne(q, path);
        NavGetNodeChildless(next, q[1..]);
      }
    }
  }

  /** On the ancestors of the path, `setSemantic` changes no default
      text. */
  lemma {:induction false} SetPathAncestors(n: Node, path: seq<char>, v: string, key: string, q: seq<char>)
    requires n.Branch? && |path| >= 1
    requires StrictPrefix(q, path)
    ensures SemOf(NavGetNode(SetPath(n, path, v, key), q), Default) == SemOf(NavGetNode(n, q), Default)
    decreases |path|
  {
    if |q| >= 1 {
      var d := path[0];
      var r := SetPath(n, path, v, key);
      var here := if d in n.kids && Truthy(n.kids[d]) then Some(n.kids[d]) else None;
      assert q[0] == d;
      assert q == [d] + q[1..];
      var next := Descend(here);
      assert StrictPrefix(q[1..], path[1..]) by {
        assert path[1..][..|q| - 1] == path[..|q|][1..];
      }
      SetPathAncestors(next, path[1..], v, key, q[1..]);
      NavGetNodeCons(r, d, q[1..]);
      if here.Some? {
        NavGetNodeCons(n, d, q[1..]);
      }
      if |q| >= 2 && (here.None? || here.value.Leaf?) {
        NavGetNodeChildless(next, q[1..]);
      }
    }
  }

  /** `setSemantic` changes no other node's text in any channel, and no
      ancestor's default text. */
  lemma SetFrame(t: Tree, coord: string, v: string, dim: string, q: seq<char>, other: string)
    requires q != CoordToPath(coord)
    ensures !StrictPrefix(q, CoordToPath(coord)) ==>
      SemOf(NavGetNode(SetSemantic(t, coord, v, dim), q), other) == SemOf(NavGetNode(t, q), other)
    ensures SemOf(NavGetNode(SetSemantic(t, coord, v, dim), q), Default) == SemOf(NavGetNode(t, q), Default)
  {
    var path := CoordToPath(coord);
    if |path| >= 1 {
      if StrictPrefix(q, path) {
        SetPathAncestors(t, path, v, ChannelOf(dim), q);
      } else {
        SetPathFrame(t, path, v, ChannelOf(dim), q);
      }
    }
  }

  // ---------------------------------------------------------------------
  // Clearing

  /** After `clearSemantic`, a branch at the path has lost the channel and
      nothing else; a leaf or a missing node is left as it was. */
  lemma {:induction false} ClearPathNode(n: Node, path: seq<char>, key: string)
    ensures NavGetNode(ClearPath(n, path, key), path)
         == match NavGetNode(n, path)
            case Some(Branch(dims, kids)) => Some(Branch(dims - {key}, kids))
            case other => other
    decreases |path|
  {
    if |path| >= 1 && n.Branch? && path[0] in n.kids && Truthy(n.kids[path[0]]) {
      var d := path[0];
      assert path == [d] + path[1..];
      ClearPathNode(n.kids[d], path[1..], key);
      var c := ClearPath(n.kids[d], path[1..], key);
      assert Truthy(c) by {
        assert c.Leaf? ==> c == n.kids[d];
      }
      NavGetNodeCons(n, d, path[1..]);
      NavGetNodeCons(ClearPath(n, path, key), d, path[1..]);
    }
  }

  /** Clearing a channel leaves every channel of every other node, and
      every other channel of the node itself, as it was. */
  lemma {:induction false} ClearFrame(n: Node, path: seq<char>, key: string, q: seq<char>, other: string)
    requires q != path || other != key
    ensures SemOf(NavGetNode(ClearPath(n, path, key), q), other) == SemOf(NavGetNode(n, q), other)
    decreases |path|
  {
    var r := ClearPath(n, path, key);
    if |q| == 0 {
    } else if n.Branch? && |path| >= 1 && path[0] in n.kids && Truthy(n.kids[path[0]]) {
      var d := path[0];
      var c := ClearPath(n.kids[d], path[1..], key);
      assert Truthy(c) by {
        assert c.Leaf? ==> c == n.kids[d];
      }
      assert q == [q[0]] + q[1..];
      if q[0] == d {
        assert path == [d] + path[1..];
        ClearFrame(n.kids[d], path[1..], key, q[1..], other);
        NavGetNodeCons(n, d, q[1..]);
        NavGetNodeCons(r, d, q[1..]);
      } else if q[0] in n.kids && Truthy(n.kids[q[0]]) {
        NavGetNodeCons(n, q[0], q[1..]);
        NavGetNodeCons(r, q[0], q[1..]);
      }
    } else if n.Branch? && |path| == 0 {
      assert r.kids == n.kids;
    }
  }

  /** Clearing removes the channel from a branch at the path and keeps the
      branch; on a leaf or a missing node it changes nothing at all. */
  lemma ClearSemanticEffect(t: Node, coord: string, dim: string)
    ensures NavNode(t, coord).Some? ==> NavNode(ClearSemantic(t, coord, dim), coord).Some?
    ensures NavNode(t, coord).Some? && NavNode(t, coord).value.Branch? ==>
      GetSemantic(ClearSemantic(t, coord, dim), coord, dim) == None
    ensures !(NavNode(t, coord).Some? && NavNode(t, coord).value.Branch?) ==>
      ClearSemantic(t, coord, dim) == t
  {
    var path := CoordToPath(coord);
    ClearPathNode(t, path, ChannelOf(dim));
    if !(NavNode(t, coord).Some? && NavNode(t, coord).value.Branch?) {
      ClearNoOp(t, path, ChannelOf(dim));
    }
  }

  /** Where the lookup finds no branch, `clearSemantic` returns the tree
      unchanged. */
  lemma {:induction false} ClearNoOp(n: Node, path: seq<char>, key: string)
    requires !(NavGetNode(n, path).Some? && NavGetNode(n, path).value.Branch?)
    ensures ClearPath(n, path, key) == n
    decreases |path|
  {
    if n.Branch? && |path| >= 1 && path[0] in n.kids && Truthy(n.kids[path[0]]) {
      var d := path[0];
      assert path == [d] + path[1..];
      NavGetNodeCons(n, d, path[1..]);
      ClearNoOp(n.kids[d], path[1..], key);
      assert n.kids[d := n.kids[d]] == n.kids;
    }
  }

  // ---------------------------------------------------------------------
  // Compression

  /** How many of the digits `i`..9 (zero never) name a filled child. */
  function FilledFrom(kids: map<char, Node>, i: nat): (r: nat)
    requires i <= 10
    decreases 10 - i
  {
    if i == 10 then 0
    else
      (if i != 0 && DigitChar(i) in kids && Filled(kids[DigitChar(i)]) then 1 else 0)
      + FilledFrom(kids, i + 1)
  }

  /** At most one per digit is counted, and the count is full exactly
      when every digit from `i` on names a filled child. */
  lemma {:induction false} FilledFromFull(kids: map<char, Node>, i: nat)
    requires 1 <= i <= 10
    ensures FilledFrom(kids, i) <= 10 - i
    ensures FilledFrom(kids, i) == 10 - i <==>
      forall j :: i <= j < 10 ==> DigitChar(j) in kids && Filled(kids[DigitChar(j)])
    decreases 10 - i
  {
    if i < 10 {
      FilledFromFull(kids, i + 1);
    }
  }

  /** A child numeral is counted exactly when its digit is not zero and
      the child holds default text. */
  lemma OccupiedChild(t: Node, path: seq<char>, kids: map<char, Node>, c: char, decimal: int)
    requires '.' !in path && IsDigit(c) && c in kids
    requires NavGetNode(t, path).Some? && NavGetNode(t, path).value.Branch?
    requires NavGetNode(t, path).value.kids == kids
    ensures Occupies(t, PathToCoord(path + [c], decimal)) <==> c != '0' && Filled(kids[c])
  {
    var child := path + [c];
    assert '.' !in child;
    PathRoundTrip(child, decimal);
    NavGetNodeConcat(t, path, [c]);
    NavGetNodeOne(NavGetNode(t, path).value, c);
  }

  /** The rendered children from digit `i` on are counted as `FilledFrom`
      counts them. */
  lemma {:induction false} CountOnKeys(t: Node, path: seq<char>, kids: map<char, Node>, i: nat, decimal: int)
    requires i <= 10 && '.' !in path
    requires NavGetNode(t, path).Some? && NavGetNode(t, path).value.Branch?
    requires NavGetNode(t, path).value.kids == kids
    ensures CountOccupied(t, PathCoords(path, DigitKeysFrom(kids.Keys, i), decimal)) == FilledFrom(kids, i)
    decreases 10 - i
  {
    if i < 10 {
      CountOnKeys(t, path, kids, i + 1, decimal);
      var rest := DigitKeysFrom(kids.Keys, i + 1);
      var c := DigitChar(i);
      if c in kids {
        var cs := PathCoords(path, [c] + rest, decimal);
        assert cs[1..] == PathCoords(path, rest, decimal);
        OccupiedChild(t, path, kids, c, decimal);
        assert c != '0' <==> i != 0;
      }
    }
  }

  /** Nine filled digits from 1 on are all of the digits 1 to 9. */
  lemma FilledAll(kids: map<char, Node>)
    ensures FilledFrom(kids, 0) >= 9 <==> AllFilled(kids)
  {
    FilledFromFull(kids, 1);
    if AllFilled(kids) {
      forall j | 1 <= j < 10
        ensures DigitChar(j) in kids && Filled(kids[DigitChar(j)])
      {
        assert '1' <= DigitChar(j) <= '9';
      }
    }
    if FilledFrom(kids, 1) == 9 {
      forall d | '1' <= d <= '9'
        ensures d in kids && Filled(kids[d])
      {
        var j := (d as int) - ('0' as int);
        assert DigitChar(j) == d;
      }
    }
  }

  /** `compressionReady` holds exactly when the numeral names a branch whose
      children 1 to 9 all exist and hold default text. */
  lemma CompressionReadyIff(t: Node, coord: string)
    requires '.' !in CoordToPath(coord)
    ensures CompressionReady(t, coord) <==>
      NavNode(t, coord).Some? && NavNode(t, coord).value.Branch?
      && AllFilled(NavNode(t, coord).value.kids)
  {
    var o := NavNode(t, coord);
    if o.Some? && o.value.Branch? {
      var kids := o.value.kids;
      CountOnKeys(t, CoordToPath(coord), kids, 0, NavDecimal(coord));
      FilledAll(kids);
    }
  }
}

=== FILE: nodes.dfy ===
/** The pscale node: the nested value every store in the system keeps.
    A leaf is a bare string of semantic text; a branch is an object whose
    one-character keys are children and whose `_`-prefixed keys are
    channels ("dimensions") of text about the node itself, the default
    channel being `_`. */
module Nodes {
  import opened Common
  import opened Decimal

  datatype Node =
    | Leaf(text: string)
    | Branch(dims: map<string, string>, kids: map<char, Node>)

  /** The default channel: the branch's own semantic text. */
  const Default: string := "_"

  const EmptyBranch: Node := Branch(map[], map[])

  /** A tree root: the store always keeps an object at the top. */
  type Tree = n: Node | n.Branch? witness Branch(map[], map[])

  /** The branch a leaf turns into when something is written beneath it
      (`{ _: old }`). */
  function Promote(text: string): Node {
    Branch(map[Default := text], map[])
  }

  /** The digit keys among `keys` from digit `i` upwards, ascending. */
  function DigitKeysFrom(keys: set<char>, i: nat): (r: seq<char>)
    requires i <= 10
    ensures forall c :: c in r <==> c in keys && IsDigit(c) && ('0' as int) + i <= c as int
    ensures forall a, b :: 0 <= a < b < |r| ==> r[a] < r[b]
    ensures forall a :: 0 <= a < |r| ==> ('0' as int) + i <= r[a] as int
    decreases 10 - i
  {
    if i == 10 then []
    else
      var rest := DigitKeysFrom(keys, i + 1);
      if DigitChar(i) in keys then [DigitChar(i)] + rest else rest
  }

  /** `Object.keys(node).filter(isDigitKey).sort()`: the digit children
      of a branch in ascending order. */
  function DigitKeys(keys: set<char>): (r: seq<char>)
    ensures forall c :: c in r <==> c in keys && IsDigit(c)
    ensures forall a, b :: 0 <= a < b < |r| ==> r[a] < r[b]
  {
    DigitKeysFrom(keys, 0)
  }

  predicate HasDigitKid(kids: map<char, Node>) {
    exists c :: c in kids && IsDigit(c)
  }

  /** The kernel's `getNode`: follow one key per path character; a string
      has no keys, and a key that is not present ends the walk. */
  function GetNode(n: Node, path: seq<char>): Option<Node>
    decreases |path|
  {
    if |path| == 0 then Some(n)
    else
      match n
      case Leaf(_) => None
      case Branch(_, kids) =>
        if path[0] in kids then GetNode(kids[path[0]], path[1..]) else None
  }

  /** Walking `p + q` is walking `p`, then walking `q` from where `p` ended. */
  lemma {:induction false} GetNodeConcat(n: Node, p: seq<char>, q: seq<char>)
    ensures GetNode(n, p + q)
         == (match GetNode(n, p) case None => None case Some(m) => GetNode(m, q))
    decreases |p|
  {
    if |p| > 0 {
      assert (p + q)[0] == p[0] && (p + q)[1..] == p[1..] + q;
      if n.Branch? && p[0] in n.kids {
        GetNodeConcat(n.kids[p[0]], p[1..], q);
      }
    } else {
      assert p + q == q;
    }
  }

  /** A one-character path selects a child of a branch. */
  lemma GetNodeOne(n: Node, d: char)
    ensures GetNode(n, [d]) == (if n.Branch? && d in n.kids then Some(n.kids[d]) else None)
  {
    if n.Branch? && d in n.kids {
      assert [d][1..] == [];
    }
  }

  /** A path through a child of a branch continues from that child. */
  lemma GetNodeCons(n: Node, d: char, q: seq<char>)
    requires n.Branch? && d in n.kids
    ensures GetNode(n, [d] + q) == GetNode(n.kids[d], q)
  {
    assert ([d] + q)[0] == d && ([d] + q)[1..] == q;
  }

  /** Two branches with the same children look alike below the top. */
  lemma SameKidsSameBelow(a: Node, b: Node, q: seq<char>)
    requires a.Branch? && b.Branch? && a.kids == b.kids && |q| >= 1
    ensures GetNode(a, q) == GetNode(b, q)
  {
  }
}

=== FILE: store.dfy ===
/** The kernel's coordinate store (`pscaleStoreV3` in g1/kernel.js): one
    nested tree per prefix, each with the position of its decimal point,
    and a flat map of special keys. Each operation returns the new store in
    place of mutating it; persisting to local storage is left out. */
module Store {
  import opened Common
  import opened Lex
  import opened Nodes
  import opened KernelCoord
  import opened KernelTree

  datatype TreeEntry = TreeEntry(decimal: int, tree: Tree)

  datatype Store = Store(data: map<string, TreeEntry>, specials: map<string, string>)

  /** The trees every fresh store starts with: S, T and I have one integer
      digit, M, ST and C have none. */
  const DefaultTrees: map<string, TreeEntry> := map[
    "S" := TreeEntry(1, EmptyBranch),
    "M" := TreeEntry(0, EmptyBranch),
    "T" := TreeEntry(1, EmptyBranch),
    "I" := TreeEntry(1, EmptyBranch),
    "ST" := TreeEntry(0, EmptyBranch),
    "C" := TreeEntry(0, EmptyBranch)
  ]

  const Fresh: Store := Store(DefaultTrees, map[])

  /** What every store the operations build satisfies: tree prefixes carry
      no colon, and special keys are exactly the coordinates that parse as
      special. */
  predicate WellFormed(s: Store) {
    && (forall p :: p in s.data ==> ':' !in p)
    && (forall k :: k in s.specials ==> ParseCoord(k).Literal?)
  }

  /** The tree `ensurePrefix` guarantees: the existing one, or a new integer
      tree. */
  function EntryFor(s: Store, prefix: string): (e: TreeEntry)
    ensures prefix in s.data ==> e == s.data[prefix]
    ensures prefix !in s.data ==> e == TreeEntry(0, EmptyBranch)
  {
    if prefix in s.data then s.data[prefix] else TreeEntry(0, EmptyBranch)
  }

  /** `read`: a special key is looked up flat; a numeric coordinate reads
      the node at its path in its prefix's tree. */
  function Read(s: Store, coord: string): (r: Option<string>)
    ensures ParseCoord(coord).Literal? ==>
      (r.Some? <==> coord in s.specials) && (r.Some? ==> r.value == s.specials[coord])
    ensures ParseCoord(coord).Numeric? && ParseCoord(coord).prefix !in s.data ==> r.None?
  {
    match ParseCoord(coord)
    case Literal => if coord in s.specials then Some(s.specials[coord]) else None
    case Numeric(prefix, digits) =>
      if prefix in s.data then ReadAt(s.data[prefix].tree, digits) else None
  }

  /** `write`: a special key is stored flat; a numeric coordinate creates
      its prefix's tree if needed and writes its path. */
  function Write(s: Store, coord: string, content: string): (r: Store)
    ensures WellFormed(s) ==> WellFormed(r)
    ensures ParseCoord(coord).Literal? ==> r.data == s.data
    ensures ParseCoord(coord).Numeric? ==>
      r.specials == s.specials && r.data.Keys == s.data.Keys + {ParseCoord(coord).prefix}
  {
    match ParseCoord(coord)
    case Literal => s.(specials := s.specials[coord := content])
    case Numeric(prefix, digits) =>
      var e := EntryFor(s, prefix);
      s.(data := s.data[prefix := e.(tree := WriteSemantic(e.tree, digits, content))])
  }

  /** `delete`: a special key is removed; a numeric coordinate of a known
      prefix deletes its path; anything else changes nothing. */
  function Delete(s: Store, coord: string): (r: Store)
    ensures WellFormed(s) ==> WellFormed(r)
    ensures r.data.Keys == s.data.Keys
    ensures ParseCoord(coord).Literal? ==> r.data == s.data && coord !in r.specials
    ensures ParseCoord(coord).Numeric? ==> r.specials == s.specials
  {
    match ParseCoord(coord)
    case Literal => s.(specials := s.specials - {coord})
    case Numeric(prefix, digits) =>
      if prefix !in s.data then s
      else
        var e := s.data[prefix];
        s.(data := s.data[prefix := e.(tree := DeleteSemantic(e.tree, digits))])
  }

  /** Two coordinates address the same place: the same special key, or the
      same path of the same tree (so "S:0.1" and "S:01" are one place). */
  predicate SameSlot(a: string, b: string) {
    match ParseCoord(a)
    case Literal => a == b
    case Numeric(_, _) => ParseCoord(b) == ParseCoord(a)
  }

  /** A coordinate that reads back what was written to it: a special key,
      or a numeric one with at least one digit (writing "M:" writes no
      node). */
  predicate Addressable(coord: string) {
    ParseCoord(coord).Literal? || |ParseCoord(coord).digits| >= 1
  }

  // ---------------------------------------------------------------------
  // Read, write and delete

  lemma ReadAfterWrite(s: Store, coord: string, content: string)
    requires Addressable(coord)
    ensures Read(Write(s, coord, content), coord) == Some(content)
  {
    match ParseCoord(coord)
    case Literal =>
    case Numeric(prefix, digits) =>
      WriteThenRead(EntryFor(s, prefix).tree, digits, content);
  }

  /** Writing one place leaves every other place as it was. */
  lemma WriteFrame(s: Store, a: string, content: string, b: string)
    requires !SameSlot(a, b)
    ensures Read(Write(s, a, content), b) == Read(s, b)
  {
    match ParseCoord(a)
    case Literal =>
    case Numeric(prefix, digits) =>
      match ParseCoord(b)
      case Literal =>
      case Numeric(pb, db) =>
        if pb == prefix {
          var e := EntryFor(s, prefix);
          if |digits| >= 1 {
            KernelTree.WriteFrame(e.tree, digits, content, db);
          }
          if prefix !in s.data {
            NothingBelowEmpty(db);
          }
        }
  }

  lemma NothingBelowEmpty(q: seq<char>)
    ensures ReadAt(EmptyBranch, q).None?
  {
    if |q| >= 1 {
      NothingBelow(EmptyBranch, q);
    }
  }

  lemma ReadAfterDelete(s: Store, coord: string)
    requires Addressable(coord)
    ensures Read(Delete(s, coord), coord).None?
  {
    match ParseCoord(coord)
    case Literal =>
    case Numeric(prefix, digits) =>
      if prefix in s.data {
        DeleteClears(s.data[prefix].tree, digits);
      }
  }

  /** Deleting one place leaves every other place of whole digits as it
      was; the ancestors of the deleted node keep their text. */
  lemma DeleteFrame(s: Store, a: string, b: string)
    requires !SameSlot(a, b)
    requires ParseCoord(b).Numeric? ==> AllDigits(ParseCoord(b).digits)
    ensures Read(Delete(s, a), b) == Read(s, b)
  {
    match ParseCoord(a)
    case Literal =>
    case Numeric(prefix, digits) =>
      match ParseCoord(b)
      case Literal =>
      case Numeric(pb, db) =>
        if pb == prefix && prefix in s.data && |digits| >= 1 {
          KernelTree.DeleteFrame(s.data[prefix].tree, digits, db);
        }
  }

  // ---------------------------------------------------------------------
  // Children and siblings

  /** The coordinates of `base + [k]` for each `k` of `ks`, in order. */
  function KidCoords(prefix: string, base: seq<char>, ks: seq<char>, decimal: int): (r: seq<string>)
    ensures |r| == |ks|
    ensures forall i :: 0 <= i < |ks| ==> r[i] == MakeCoord(prefix, base + [ks[i]], decimal)
  {
    if |ks| == 0 then []
    else [MakeCoord(prefix, base + [ks[0]], decimal)] + KidCoords(prefix, base, ks[1..], decimal)
  }

  /** The digit keys of the branch a path of a tree leads to, leaving out
      `skip`; nothing for a string or a missing node. */
  function KidDigits(t: Node, path: seq<char>, skip: Option<char>): (r: seq<char>)
    ensures forall c :: c in r <==>
      IsDigit(c) && Some(c) != skip && GetNode(t, path + [c]).Some?
    ensures forall a, b :: 0 <= a < b < |r| ==> r[a] < r[b]
  {
    GetNodeConcat(t, path, []);
    forall c ensures GetNode(t, path + [c]) ==
      (match GetNode(t, path) case None => None case Some(m) => GetNode(m, [c])) {
      GetNodeConcat(t, path, [c]);
    }
    match GetNode(t, path)
    case None => []
    case Some(Leaf(_)) =>
      assert forall c :: GetNode(Leaf(""), [c]).None?;
      []
    case Some(Branch(_, kids)) =>
      var keys := if skip.Some? then kids.Keys - {skip.value} else kids.Keys;
      assert forall c :: GetNode(Branch(map[], kids), [c]).Some? <==> c in kids by {
        forall c { GetNodeOne(Branch(map[], kids), c); }
      }
      DigitKeys(keys)
  }

  /** `children` (X-, zoom in): the coordinates one digit below, ascending;
      nothing for a special key, an unknown prefix, a missing node or a
      leaf. */
  function Children(s: Store, coord: string): (r: seq<string>)
    ensures ParseCoord(coord).Literal? ==> r == []
  {
    match ParseCoord(coord)
    case Literal => []
    case Numeric(prefix, digits) =>
      if prefix !in s.data then []
      else
        var e := s.data[prefix];
        KidCoords(prefix, digits, KidDigits(e.tree, digits, None), e.decimal)
  }

  /** `siblings` (X~, lateral): the other coordinates under the same parent,
      ascending; nothing for a special key, an empty path or an unknown
      prefix. */
  function Siblings(s: Store, coord: string): (r: seq<string>)
    ensures ParseCoord(coord).Literal? ==> r == []
  {
    match ParseCoord(coord)
    case Literal => []
    case Numeric(prefix, digits) =>
      if |digits| < 1 || prefix !in s.data then []
      else
        var e := s.data[prefix];
        var up := digits[..|digits| - 1];
        KidCoords(prefix, up, KidDigits(e.tree, up, Some(digits[|digits| - 1])), e.decimal)
  }

  /** Every child coordinate names an existing node one digit below, and
      parses back to that path. */
  lemma ChildrenSound(s: Store, coord: string, i: nat)
    returns (d: char)
    requires WellFormed(s) && ParseCoord(coord).Numeric? && AllDigits(ParseCoord(coord).digits)
    requires i < |Children(s, coord)|
    ensures var p := ParseCoord(coord);
      && IsDigit(d)
      && p.prefix in s.data
      && GetNode(s.data[p.prefix].tree, p.digits + [d]).Some?
      && ParseCoord(Children(s, coord)[i]) == Numeric(p.prefix, p.digits + [d])
  {
    var p := ParseCoord(coord);
    var e := s.data[p.prefix];
    assert Children(s, coord) == KidCoords(p.prefix, p.digits, KidDigits(e.tree, p.digits, None), e.decimal);
    d := KidAt(p.prefix, p.digits, e.tree, None, e.decimal, i);
  }

  /** Every existing node one digit below is listed among the children. */
  lemma ChildrenComplete(s: Store, coord: string, d: char)
    requires ParseCoord(coord).Numeric? && ParseCoord(coord).prefix in s.data && IsDigit(d)
    requires GetNode(s.data[ParseCoord(coord).prefix].tree, ParseCoord(coord).digits + [d]).Some?
    ensures var p := ParseCoord(coord);
      MakeCoord(p.prefix, p.digits + [d], s.data[p.prefix].decimal) in Children(s, coord)
  {
    var p := ParseCoord(coord);
    var e := s.data[p.prefix];
    var ks := KidDigits(e.tree, p.digits, None);
    var k :| 0 <= k < |ks| && ks[k] == d;
    assert Children(s, coord)[k] == MakeCoord(p.prefix, p.digits + [d], e.decimal);
  }

  /** Every sibling differs from the coordinate in its last digit only,
      names an existing node, and parses back to that path. */
  lemma SiblingsSound(s: Store, coord: string, i: nat)
    returns (d: char)
    requires WellFormed(s) && ParseCoord(coord).Numeric? && AllDigits(ParseCoord(coord).digits)
    requires i < |Siblings(s, coord)|
    ensures var p := ParseCoord(coord);
      && |p.digits| >= 1
      && IsDigit(d) && d != p.digits[|p.digits| - 1]
      && p.prefix in s.data
      && GetNode(s.data[p.prefix].tree, p.digits[..|p.digits| - 1] + [d]).Some?
      && ParseCoord(Siblings(s, coord)[i]) == Numeric(p.prefix, p.digits[..|p.digits| - 1] + [d])
  {
    var p := ParseCoord(coord);
    var e := s.data[p.prefix];
    var up := p.digits[..|p.digits| - 1];
    var last := p.digits[|p.digits| - 1];
    assert Siblings(s, coord) == KidCoords(p.prefix, up, KidDigits(e.tree, up, Some(last)), e.decimal);
    d := KidAt(p.prefix, up, e.tree, Some(last), e.decimal, i);
  }

  /** The `i`-th coordinate listed for the digit keys below `base` names
      an existing node one digit below and parses back to that path. */
  lemma KidAt(prefix: string, base: seq<char>, t: Node, skip: Option<char>, decimal: int, i: nat)
    returns (d: char)
    requires ':' !in prefix && AllDigits(base)
    requires i < |KidDigits(t, base, skip)|
    ensures d == KidDigits(t, base, skip)[i]
    ensures IsDigit(d) && Some(d) != skip && GetNode(t, base + [d]).Some?
    ensures ParseCoord(KidCoords(prefix, base, KidDigits(t, base, skip), decimal)[i]) == Numeric(prefix, base + [d])
  {
    var ks := KidDigits(t, base, skip);
    d := ks[i];
    assert d in ks;
    assert AllDigits(base + [d]);
    ParseMakeCoord(prefix, base + [d], decimal);
  }

  /** Children come in ascending order of their last digit, so none is
      listed twice. */
  lemma ChildrenAscending(s: Store, coord: string, i: nat, j: nat)
    returns (di: char, dj: char)
    requires WellFormed(s) && ParseCoord(coord).Numeric? && AllDigits(ParseCoord(coord).digits)
    requires i < j < |Children(s, coord)|
    ensures var p := ParseCoord(coord);
      && ParseCoord(Children(s, coord)[i]) == Numeric(p.prefix, p.digits + [di])
      && ParseCoord(Children(s, coord)[j]) == Numeric(p.prefix, p.digits + [dj])
      && di < dj
  {
    var p := ParseCoord(coord);
    var e := s.data[p.prefix];
    assert Children(s, coord) == KidCoords(p.prefix, p.digits, KidDigits(e.tree, p.digits, None), e.decimal);
    di, dj := KidsAscending(p.prefix, p.digits, e.tree, None, e.decimal, i, j);
  }

  /** Siblings come in ascending order of their last digit, so none is
      listed twice. */
  lemma SiblingsAscending(s: Store, coord: string, i: nat, j: nat)
    returns (di: char, dj: char)
    requires WellFormed(s) && ParseCoord(coord).Numeric? && AllDigits(ParseCoord(coord).digits)
    requires i < j < |Siblings(s, coord)|
    ensures var p := ParseCoord(coord);
      && |p.digits| >= 1
      && ParseCoord(Siblings(s, coord)[i]) == Numeric(p.prefix, p.digits[..|p.digits| - 1] + [di])
      && ParseCoord(Siblings(s, coord)[j]) == Numeric(p.prefix, p.digits[..|p.digits| - 1] + [dj])
      && di < dj
  {
    var p := ParseCoord(coord);
    var e := s.data[p.prefix];
    var up := p.digits[..|p.digits| - 1];
    var last := p.digits[|p.digits| - 1];
    assert Siblings(s, coord) == KidCoords(p.prefix, up, KidDigits(e.tree, up, Some(last)), e.decimal);
    di, dj := KidsAscending(p.prefix, up, e.tree, Some(last), e.decimal, i, j);
  }

  /** The coordinates listed for the digit keys below `base` come in
      ascending order of their last digit. */
  lemma KidsAscending(prefix: string, base: seq<char>, t: Node, skip: Option<char>, decimal: int, i: nat, j: nat)
    returns (di: char, dj: char)
    requires ':' !in prefix && AllDigits(base)
    requires i < j < |KidDigits(t, base, skip)|
    ensures var cs := KidCoords(prefix, base, KidDigits(t, base, skip), decimal);
      && ParseCoord(cs[i]) == Numeric(prefix, base + [di])
      && ParseCoord(cs[j]) == Numeric(prefix, base + [dj])
      && di < dj
  {
    di := KidAt(prefix, base, t, skip, decimal, i);
    dj := KidAt(prefix, base, t, skip, decimal, j);
  }

  /** Every other existing node under the same parent is a sibling. */
  lemma SiblingsComplete(s: Store, coord: string, d: char)
    requires ParseCoord(coord).Numeric? && ParseCoord(coord).prefix in s.data && IsDigit(d)
    requires |ParseCoord(coord).digits| >= 1
    requires d != ParseCoord(coord).digits[|ParseCoord(coord).digits| - 1]
    requires var p := ParseCoord(coord);
      GetNode(s.data[p.prefix].tree, p.digits[..|p.digits| - 1] + [d]).Some?
    ensures var p := ParseCoord(coord);
      MakeCoord(p.prefix, p.digits[..|p.digits| - 1] + [d], s.data[p.prefix].decimal)
        in Siblings(s, coord)
  {
    var p := ParseCoord(coord);
    var e := s.data[p.prefix];
    var up := p.digits[..|p.digits| - 1];
    var ks := KidDigits(e.tree, up, Some(p.digits[|p.digits| - 1]));
    var k :| 0 <= k < |ks| && ks[k] == d;
    assert Siblings(s, coord)[k] == MakeCoord(p.prefix, up + [d], e.decimal);
  }

  // ---------------------------------------------------------------------
  // Listing

  /** The coordinates `walkTree` collects from the tree of `prefix`. */
  function TreeCoords(s: Store, prefix: string): set<string> {
    if prefix in s.data
    then set x | x in Walk(s.data[prefix].tree, [], prefix, s.data[prefix].decimal)
    else {}
  }

  function SpecialsFrom(s: Store, start: string): set<string> {
    set k | k in s.specials && StartsWith(k, start)
  }

  /** What `list(prefix)` collects before sorting: with no prefix, every
      tree and every special key; with a bare prefix ("S"), every tree whose
      name starts with it; with "S:", the whole S tree; with "S:0.2", the
      coordinates of the S tree that start with it; and in each of the
      last three cases the special keys that start with the prefix. */
  function ListSet(s: Store, prefix: string): set<string> {
    if prefix == "" then
      (set p, x | p in s.data && x in TreeCoords(s, p) :: x) + s.specials.Keys
    else
      match IndexOf(prefix, ':')
      case None =>
        (set p, x | p in s.data && StartsWith(p, prefix) && x in TreeCoords(s, p) :: x)
        + SpecialsFrom(s, prefix)
      case Some(i) =>
        var p := prefix[..i];
        if prefix[i + 1..] == "" then TreeCoords(s, p) + SpecialsFrom(s, prefix)
        else (set x | x in TreeCoords(s, p) && StartsWith(x, prefix)) + SpecialsFrom(s, prefix)
  }

  /** `list(prefix)`: the collected coordinates in JavaScript's default
      sort order. */
  ghost function List(s: Store, prefix: string): (r: seq<string>)
    ensures StrictlySorted(r)
    ensures forall x :: x in r <==> x in ListSet(s, prefix)
  {
    SortSet(ListSet(s, prefix))
  }

  /** The coordinates of a tree are `prefix:` followed by the numeral of a
      digit path that reads back some text. */
  lemma TreeCoordShape(s: Store, p: string, x: string) returns (q: seq<char>)
    requires x in TreeCoords(s, p)
    ensures p in s.data && AllDigits(q) && ReadAt(s.data[p].tree, q).Some?
    ensures x == MakeCoord(p, q, s.data[p].decimal)
  {
    q := WalkSound(s.data[p].tree, [], p, s.data[p].decimal, x);
    assert [] + q == q;
  }

  /** Everything listed can be read back. */
  lemma ListedReads(s: Store, prefix: string, x: string)
    requires WellFormed(s) && x in ListSet(s, prefix)
    ensures Read(s, x).Some?
  {
    if x !in s.specials {
      var p :| p in s.data && x in TreeCoords(s, p);
      var q := TreeCoordShape(s, p, x);
      ParseMakeCoord(p, q, s.data[p].decimal);
    }
  }

  /** Every digit path of every tree that reads back some text, and every
      special key, is listed when no prefix is given. */
  lemma ListComplete(s: Store, p: string, q: seq<char>)
    requires p in s.data && AllDigits(q) && ReadAt(s.data[p].tree, q).Some?
    ensures MakeCoord(p, q, s.data[p].decimal) in ListSet(s, "")
  {
    WalkComplete(s.data[p].tree, [], p, s.data[p].decimal, q);
    assert [] + q == q;
    assert MakeCoord(p, q, s.data[p].decimal) in TreeCoords(s, p);
  }

  /** A prefix with no colon starts a coordinate `p:...` exactly when it
      starts the tree name `p`. */
  lemma BarePrefix(p: string, t: string, prefix: string)
    requires ':' !in p && ':' !in prefix
    ensures StartsWith(p + ":" + t, prefix) <==> StartsWith(p, prefix)
  {
    var x := p + ":" + t;
    if StartsWith(x, prefix) {
      assert x[|p|] == ':';
      assert forall k :: 0 <= k < |prefix| ==> x[k] == prefix[k] != ':';
      assert |prefix| <= |p|;
      assert prefix == x[..|prefix|] == p[..|prefix|];
    }
    if StartsWith(p, prefix) {
      assert x[..|prefix|] == p[..|prefix|];
    }
  }

  /** A prefix whose first colon is at `i` starts a coordinate `p:...`
      exactly when the tree name is the text before that colon and the
      rest of the prefix starts the numeral. */
  lemma ColonPrefix(p: string, t: string, prefix: string, i: nat)
    requires ':' !in p && IndexOf(prefix, ':') == Some(i)
    ensures StartsWith(p + ":" + t, prefix) <==> p == prefix[..i] && StartsWith(t, prefix[i + 1..])
  {
    if StartsWith(p + ":" + t, prefix) {
      ColonPrefixSplits(p, t, prefix, i);
    }
    if p == prefix[..i] && StartsWith(t, prefix[i + 1..]) {
      assert prefix == prefix[..i] + ":" + prefix[i + 1..];
    }
  }

  /** A prefix with a colon that a key starts with splits at the key's own
      colon. */
  lemma ColonPrefixSplits(p: string, t: string, prefix: string, i: nat)
    requires ':' !in p && IndexOf(prefix, ':') == Some(i)
    requires StartsWith(p + ":" + t, prefix)
    ensures p == prefix[..i] && StartsWith(t, prefix[i + 1..])
  {
    var x := p + ":" + t;
    assert x[|p|] == ':' && x[i] == prefix[i] == ':';
    assert forall k :: 0 <= k < i ==> x[k] == prefix[k] != ':';
    assert forall k :: 0 <= k < |p| ==> x[k] == p[k] != ':';
    assert |p| == i;
    assert p == x[..i] == prefix[..i];
    assert t[..|prefix| - i - 1] == x[i + 1..|prefix|];
  }

  /** `list(prefix)` is the full listing filtered by `startsWith(prefix)`,
      whichever form the prefix takes. */
  lemma ListIsFilter(s: Store, prefix: string)
    requires WellFormed(s)
    ensures ListSet(s, prefix) == set x | x in ListSet(s, "") && StartsWith(x, prefix)
  {
    var all := ListSet(s, "");
    var want := set x | x in all && StartsWith(x, prefix);
    if prefix != "" {
      forall x | x in ListSet(s, prefix) ensures x in want {
        if x !in SpecialsFrom(s, prefix) {
          match IndexOf(prefix, ':')
          case None =>
            var p :| p in s.data && StartsWith(p, prefix) && x in TreeCoords(s, p);
            assert x in all;
            var q := TreeCoordShape(s, p, x);
            BarePrefix(p, DigitsToNumStr(q, s.data[p].decimal), prefix);
          case Some(i) =>
            var p := prefix[..i];
            assert x in TreeCoords(s, p) && x in all;
            var q := TreeCoordShape(s, p, x);
            ColonPrefix(p, DigitsToNumStr(q, s.data[p].decimal), prefix, i);
        }
      }
      forall x | x in want ensures x in ListSet(s, prefix) {
        if x !in s.specials {
          var p :| p in s.data && x in TreeCoords(s, p);
          var q := TreeCoordShape(s, p, x);
          var t := DigitsToNumStr(q, s.data[p].decimal);
          match IndexOf(prefix, ':')
          case None => BarePrefix(p, t, prefix);
          case Some(i) => ColonPrefix(p, t, prefix, i);
        }
      }
    } else {
      assert forall x :: StartsWith(x, prefix);
    }
  }
}
